=== FILE: README.md ===
# Gender-bias text features: a Dafny model

This project models the computational core of a small research pipeline. The pipeline takes LIWC (Linguistic Inquiry and Word Count) spreadsheets of free-text responses, derives text features from them, and compares the features between female and male authors. The model covers four pieces:

- **Linguistic features** (`calculate_linguistic_features_from_liwc.py`):
  - per sheet, it adds the sentence count `SENT`, the abstraction index, lexical diversity and reading difficulty;
  - it adds five renamed copies of LIWC columns;
  - it runs over the chosen sheets and stops at the first sheet that fails.
- **Manipulation features** (`manipulation_feature_analysis/calculate_manipulation_features_from_liwc.py`):
  - polysyllables are counted against a pronouncing dictionary;
  - unique and normalised-unique word counts come from the `\b\w+\b` tokens of the lower-cased response;
  - a `unique_words_cnt` column already in the sheet is kept;
  - `analytical` is copied from `analytic`, or from `Analytic` when there is no `analytic`;
  - the run skips the sheet `source` and reports a failing sheet as broken, then goes on to the next.
- **Statistics** (`text_feature_analysis/utils.py`):
  - `prepare_dfs` selects female and male rows;
  - `compute_wilcoxon_pvalues` gives per-feature p-values, stably sorted ascending;
  - `compute_mean_differences` gives normalised mean differences. Undefined values are dropped and the rest are stably sorted by descending magnitude.
- **Plot arithmetic** (`text_feature_analysis/plots.py`):
  - the subplot grid of `plot_features_distribution`: its columns, rows, figure size and the hidden axes;
  - the bar colours of `plot_mean_differences`.

How the model represents things:

- **Sheets.** A sheet is a `Table`: ordered column names plus rows, each row a map from column name to `Cell`.
- **Cells.** A `Cell` is a number (`real`), a string, NaN, or a signed infinity. On float columns division follows the IEEE rules for a zero divisor: `x / 0` is an infinity for a non-zero `x` and NaN for `0 / 0`.
- **Mixed columns.** A column that holds strings is computed on as Python objects. When an element raises a TypeError, pandas redoes the operation on the rows where neither operand is NaN and gives NaN on the others. So a NaN beside a string gives NaN, and a string beside a number or an infinity raises a TypeError. Division on objects is Python's: a zero divisor raises ZeroDivisionError, which pandas does not retry. Once any of the abstraction inputs `DAV`, `IAV`, `SV` and `adj` holds a string anywhere in the sheet (`ObjectInputs`), a row whose four inputs are numbers adding up to zero fails the sheet instead of giving NaN or an infinity.
- **Column assignments.** Each `df[name] = <expression>` is an `Assignment`: its target column, the columns it reads in the order the expression looks them up, and a row function that either gives the cell or fails with the pandas error (a missing column, a string where a number is needed, a non-string response, a division by zero on objects).
- **Sheet processing.** A sheet is processed by running the assignments in order. Each expression looks up its inputs left to right, so a row that raises before reaching an absent column decides the error; otherwise the first absent column raises a KeyError, and then the first failing row decides it.
- **Parameters.** The following become parameters of the model:
  - the square root, constrained to be the non-negative root;
  - the nltk sentence splitter and word tokenizer;
  - the CMU pronouncing dictionary;
  - scipy's Wilcoxon test.
- **Workbooks.** A workbook is a list of sheet names with a sheet for each name.

Modules, one per file:

| module | file | models |
|---|---|---|
| `Wrappers` | wrappers.dfy | `Option`, `Result`, distinctness, first index |
| `Stats` | stats.dfy | sum, minimum, maximum and mean of a column |
| `RealArith` | real_arith.dfy | small facts about real multiplication |
| `StableSort` | stable_sort.dfy | Python's stable `sorted` by a real key |
| `Tables` | tables.dfy | cells, rows, tables, column assignment and copying |
| `Workbooks` | workbook.dfy | workbooks, the sheet list, the stopping and the recovering sheet loop |
| `Formulas` | formulas.dfy | float division, the abstraction index, the reading-difficulty index |
| `TextFeatures` | text_features.dfy | polysyllables, `\b\w+\b` tokens, unique-word counts |
| `LinguisticSheet` | linguistic_sheet.dfy | `process_sheet` and `main` of the linguistic script |
| `ManipulationSheet` | manipulation_sheet.dfy | `process_sheet` and `main` of the manipulation script |
| `GroupStats` | group_stats.dfy | `prepare_dfs`, `compute_wilcoxon_pvalues`, `compute_mean_differences` |
| `PlotLayout` | plot_layout.dfy | grid sizing, hidden axes and bar colours of `plots.py` |

The reading-difficulty constants are those of the source: the scale is 1.043, the sample is 30 sentences, and the offset is 3.1291. As a check of the constants, four long words over two sentences give 1.043 · 2 · 30 / 2 + 3.1291 = 34.4191.

## Model

| member | source | states |
|---|---|---|
| Stats.Min | text_feature_analysis/utils.py:50 | the column minimum is one of the values and no value is below it |
| Stats.Max | text_feature_analysis/utils.py:49 | the column maximum is one of the values and no value is above it |
| Stats.Mean | text_feature_analysis/utils.py:43 | the mean of a non-empty column lies between its minimum and maximum |
| Stats.SumBounds | text_feature_analysis/utils.py:43 | per-value bounds bound the sum by the count times each bound |
| Stats.MeanOfConstant | text_feature_analysis/utils.py:43 | a column of equal values has that value as its mean |
| StableSort.SortBy | text_feature_analysis/utils.py:29-34 | the sorted list is a permutation of the input |
| StableSort.SortSorted | text_feature_analysis/utils.py:29-34 | the sorted list is in non-decreasing key order |
| StableSort.SortStable | text_feature_analysis/utils.py:29-34 | for every key value, the elements with that key keep their input order (stability) |
| StableSort.InsertWithKey | text_feature_analysis/utils.py:29-34 | inserting an element places it before every element of equal key, and leaves the order of the others unchanged |
| StableSort.SortDistinct | text_feature_analysis/utils.py:29-34 | sorting a list without repetitions creates none |
| StableSort.SortKeepsTieOrder | text_feature_analysis/utils.py:56-66 | two output elements with equal keys appear in the order of their input positions |
| Tables.WithColumn | calculate_linguistic_features_from_liwc.py:27 | assigning a new column appends it at the end, and assigning an existing column keeps the column order |
| Tables.WithColumns | calculate_linguistic_features_from_liwc.py:27-47 | a run of assignments keeps the original columns first, in order, and adds exactly the assigned names |
| Tables.FirstMissing | calculate_linguistic_features_from_liwc.py:30-37 | reports a missing input column exactly when some input is absent, and names one that is absent |
| Tables.MapRows | calculate_linguistic_features_from_liwc.py:27-29 | a row-wise column succeeds exactly when every row does; each row then gains the cell computed from it and nothing else |
| Tables.Derive | calculate_linguistic_features_from_liwc.py:30-37 | a derived column succeeds exactly when all inputs exist and every row computes, and keeps the row count; with an input absent it raises the KeyError for the first absent input exactly when no row raised another error before reaching it |
| Tables.DeriveRows | calculate_linguistic_features_from_liwc.py:30-37 | every derived row is its input row with only the new cell assigned |
| Tables.AssignAll | calculate_linguistic_features_from_liwc.py:24-48 | running the assignments on a table keeps the rows and well-formedness and adds exactly the target columns |
| Tables.AssignAllSucceeds | calculate_linguistic_features_from_liwc.py:24-48 | the table run succeeds exactly when each step finds its columns among those present or made before, and every row passes every step |
| Tables.AssignAllRows | calculate_linguistic_features_from_liwc.py:24-48 | each row of the processed table is that row put through the steps on its own |
| Tables.ColumnsAvailableAppend | calculate_linguistic_features_from_liwc.py:24-48 | two runs in sequence find their columns exactly when the second finds them among the sheet's plus the first run's targets |
| Tables.AssignRowAppend | calculate_linguistic_features_from_liwc.py:24-48 | running two lists of steps on a row is running the first and then the second on its result |
| Tables.CopyChainRow | calculate_linguistic_features_from_liwc.py:43-47 | distinct copies that overwrite no source succeed on a row exactly when every source is present; then each target holds its source's cell, the row gains exactly the targets, and every other cell is unchanged |
| Tables.CopyChainFindColumns | calculate_linguistic_features_from_liwc.py:43-47 | such copies find their columns exactly when every source is present |
| Tables.Copies | calculate_linguistic_features_from_liwc.py:43-47 | the rename list pairs each target with its source, in order |
| Workbooks.ReadSheet | calculate_linguistic_features_from_liwc.py:25 | reading a sheet succeeds exactly for a name in the workbook, returns that sheet, and otherwise fails naming it |
| Workbooks.SheetsToProcess | calculate_linguistic_features_from_liwc.py:78 | a non-empty requested list is used as given; an absent or empty one falls back to all sheet names in workbook order |
| Workbooks.RunUntilFailure | calculate_linguistic_features_from_liwc.py:79-80 | the sheets saved are a prefix of the list, in order, each with its processed table; no error means all were saved, and an error is that of the first unsaved sheet |
| Workbooks.RunStopsAtFirstFailure | calculate_linguistic_features_from_liwc.py:79-80 | when sheet `k` is the first failure, exactly the sheets before it are saved and the run reports its error |
| Workbooks.Skipping | manipulation_feature_analysis/calculate_manipulation_features_from_liwc.py:121-123 | the sheets tried are the given sheets other than `source`, and every such sheet is tried |
| Workbooks.SkippingAppend | manipulation_feature_analysis/calculate_manipulation_features_from_liwc.py:121-123 | skipping works piecewise over consecutive parts of the list, so the order of the sheets is kept |
| Workbooks.SkippingNothing | manipulation_feature_analysis/calculate_manipulation_features_from_liwc.py:121-123 | without a sheet named `source` every sheet is tried |
| Workbooks.RunRecovering | manipulation_feature_analysis/calculate_manipulation_features_from_liwc.py:121-128 | one outcome per sheet tried, in order: written with its table when processing succeeds, reported broken with its error when it fails, and a failure does not stop the run |
| Formulas.FloatDivide | calculate_linguistic_features_from_liwc.py:30-37 | a float quotient is finite exactly for a non-zero divisor and then multiplies back to the dividend; `0/0` is NaN; `x/0` is an infinity with the sign of `x` |
| Formulas.Abstraction | calculate_linguistic_features_from_liwc.py:30-37 | the index is the weighted sum over the plain sum, finite exactly when the plain sum is non-zero, NaN when both sums are zero |
| Formulas.AbstractionBounds | calculate_linguistic_features_from_liwc.py:30-37 | non-negative counts with a positive total give an index in [1, 4] |
| Formulas.AbstractionOfNoCounts | calculate_linguistic_features_from_liwc.py:30-37 | non-negative counts are NaN exactly when all are zero, and never infinite |
| Formulas.AbstractionOnlyDescriptive | calculate_linguistic_features_from_liwc.py:30-37 | only descriptive action verbs give exactly 1 |
| Formulas.AbstractionOnlyAdjectives | calculate_linguistic_features_from_liwc.py:30-37 | only adjectives give exactly 4 |
| Formulas.AbstractionScaleInvariant | calculate_linguistic_features_from_liwc.py:30-37 | scaling the four counts by one positive factor leaves the index unchanged |
| Formulas.ReadingDifficulty | calculate_linguistic_features_from_liwc.py:39-42 | the index is finite exactly for a non-negative word count and a non-zero sentence count; it is NaN for a negative count or for `0/0`, and an infinity for a positive count over zero sentences |
| Formulas.ReadingDifficultyFloor | calculate_linguistic_features_from_liwc.py:39-42 | with sentences the index is at least 3.1291, with equality exactly when there are no long words |
| Formulas.ReadingDifficultyInverse | calculate_linguistic_features_from_liwc.py:39-42 | the long-word count is recovered from a finite index, so the formula loses nothing |
| Formulas.ReadingDifficultyMonotoneInWords | calculate_linguistic_features_from_liwc.py:39-42 | more long words never lower the index |
| Formulas.ReadingDifficultyAntitoneInSentences | calculate_linguistic_features_from_liwc.py:39-42 | the same long words over more sentences never raise the index |
| Formulas.ReadingDifficultyExample | calculate_linguistic_features_from_liwc.py:40-41 | four long words over two sentences give 34.4191 |
| Formulas.SqrtSign | calculate_linguistic_features_from_liwc.py:40 | the root is zero exactly at zero |
| Formulas.SqrtMonotone | calculate_linguistic_features_from_liwc.py:40 | the root is monotone |
| Formulas.Operand | calculate_linguistic_features_from_liwc.py:30-37 | a column operand fails with a KeyError when absent and a TypeError on a string; otherwise it carries the number, or nothing for NaN or infinity |
| Formulas.Quotient | calculate_linguistic_features_from_liwc.py:30-37 | `a / b` on cells raises exactly when neither side is NaN and a side is a string (a TypeError) or, on object columns, the divisor is zero (a ZeroDivisionError); on two numbers otherwise it is the IEEE quotient, and two infinities give NaN |
| Formulas.AbstractionCell | calculate_linguistic_features_from_liwc.py:30-37 | a row's abstraction is the index on four numbers and NaN on any other successful row; a failure is a KeyError, a TypeError naming a column that holds a string, or, on object columns only, a ZeroDivisionError on four numbers adding up to zero, which such a row always raises; an absent `DAV` or `IAV` raises its KeyError; a string beside a number in `DAV + 2 * IAV` raises a TypeError before `SV` is looked up; a NaN `DAV` or `IAV` makes the row NaN whatever the other one holds, once `SV` and `adj` exist |
| Formulas.AbstractionCellSucceeds | calculate_linguistic_features_from_liwc.py:30-37 | a row's abstraction succeeds exactly when the four inputs exist; taking them in order, the inputs up to the first one whose kind (string or not) differs from `DAV`'s contain a NaN or both infinities, and when all four are of one kind they are not strings; and, on object columns, they are not four numbers adding up to zero |
| Formulas.AnyHoldsTextIff | calculate_linguistic_features_from_liwc.py:30-37 | the sheet computes the formula on objects exactly when some row holds a string in `DAV`, `IAV`, `SV` or `adj` |
| Formulas.ZeroTotalOnObjects | calculate_linguistic_features_from_liwc.py:30-37 | on a sheet whose first row has a NaN `DAV` beside a string `IAV` and whose second row is all zeros, the first row gives NaN and the second raises ZeroDivisionError; on float columns the same zeros give NaN |
| Formulas.AbstractionErrorOrder | calculate_linguistic_features_from_liwc.py:30-37 | on a sheet without `SV`, the abstraction assignment raises a TypeError exactly when some row has a string beside a non-NaN non-string in `DAV` and `IAV`, and the KeyError for `SV` otherwise |
| Formulas.AbstractionCellFrame | calculate_linguistic_features_from_liwc.py:30-37 | assigning any other column leaves a row's abstraction unchanged |
| Formulas.ReadingCell | calculate_linguistic_features_from_liwc.py:39-42 | a row's reading difficulty succeeds exactly when the word and sentence columns exist and hold no string; it is the index on two numbers and NaN otherwise |
| Formulas.SentenceCell | calculate_linguistic_features_from_liwc.py:27-29 | `SENT` is the number of sentences of a string response; a missing or non-string response fails with the matching error |
| TextFeatures.StressCount | manipulation_feature_analysis/calculate_manipulation_features_from_liwc.py:36 | a pronunciation has no more stressed phonemes than phonemes |
| TextFeatures.MaxStress | manipulation_feature_analysis/calculate_manipulation_features_from_liwc.py:34-39 | the maximum is the stress count of some pronunciation and bounds all of them |
| TextFeatures.PolysyllabicIffSomePronunciation | manipulation_feature_analysis/calculate_manipulation_features_from_liwc.py:33-42 | a word is polysyllabic exactly when some pronunciation has at least three stressed phonemes |
| TextFeatures.CountPolysyllables | manipulation_feature_analysis/calculate_manipulation_features_from_liwc.py:28-43 | the loop's count is the number of polysyllabic tokens and never exceeds the token count |
| TextFeatures.PolysyllableCountCharacterized | manipulation_feature_analysis/calculate_manipulation_features_from_liwc.py:28-43 | the count equals the number of positions of polysyllabic tokens, all of them dictionary words |
| TextFeatures.PolysyllableCountAppend | manipulation_feature_analysis/calculate_manipulation_features_from_liwc.py:28-43 | the count of a concatenation is the sum of the counts |
| TextFeatures.UnknownTokenNotCounted | manipulation_feature_analysis/calculate_manipulation_features_from_liwc.py:31-32 | inserting a token missing from the dictionary leaves the count unchanged |
| TextFeatures.Lower | manipulation_feature_analysis/calculate_manipulation_features_from_liwc.py:46 | lower-casing keeps the length and maps each character on its own |
| TextFeatures.RunLength | manipulation_feature_analysis/calculate_manipulation_features_from_liwc.py:46 | the leading run of word characters is maximal |
| TextFeatures.WordsAreMaximalRuns | manipulation_feature_analysis/calculate_manipulation_features_from_liwc.py:46 | the `\b\w+\b` tokens are non-empty word-character runs that together spell the text's word characters in order, one token per run start |
| TextFeatures.WordPosition | manipulation_feature_analysis/calculate_manipulation_features_from_liwc.py:46 | the k-th token is the whole maximal run of word characters that starts after exactly k other runs have started |
| TextFeatures.WordsAtRuns | manipulation_feature_analysis/calculate_manipulation_features_from_liwc.py:46 | every token sits at its own maximal run, in the order of the runs |
| TextFeatures.WordsOfLeadingWord | manipulation_feature_analysis/calculate_manipulation_features_from_liwc.py:46 | a word followed by a separator or the end is one token |
| TextFeatures.WordsSkipSeparator | manipulation_feature_analysis/calculate_manipulation_features_from_liwc.py:46 | a leading separator produces no token |
| TextFeatures.UniqueWords | manipulation_feature_analysis/calculate_manipulation_features_from_liwc.py:50-52 | the unique count is at most the token count and zero exactly when there are no tokens |
| TextFeatures.NormalizedUniqueWords | manipulation_feature_analysis/calculate_manipulation_features_from_liwc.py:45-48 | the ratio is exactly 1.0 for a text without tokens and otherwise lies in (0, 1] |
| TextFeatures.NormalizedIsUniqueOverTotal | manipulation_feature_analysis/calculate_manipulation_features_from_liwc.py:45-52 | the unique count is the numerator of the ratio over the token count |
| TextFeatures.CountsIgnoreCase | manipulation_feature_analysis/calculate_manipulation_features_from_liwc.py:46-51 | texts that differ only in letter case have the same token, unique and normalised counts |
| TextFeatures.UpperIsSameIgnoringCase | manipulation_feature_analysis/calculate_manipulation_features_from_liwc.py:46-51 | upper-casing a text changes only letter case, so its counts are unchanged |
| LinguisticSheet.StepsTargets | calculate_linguistic_features_from_liwc.py:27-47 | processing assigns `SENT`, `abstraction`, `lexical diversity`, `reading difficulty` and the five renamed columns, in that order |
| LinguisticSheet.ProcessSheet | calculate_linguistic_features_from_liwc.py:24-48 | a processed sheet keeps its rows and original columns and appends the derived columns |
| LinguisticSheet.StepsFindColumns | calculate_linguistic_features_from_liwc.py:24-48 | every assignment finds its columns exactly when the sheet has every input column |
| LinguisticSheet.FormulaStepsOnRow | calculate_linguistic_features_from_liwc.py:27-42 | a row passes the formulas exactly when its response is a string, the abstraction inputs exist and evaluate (a string among them only where a NaN masks it, and on object columns no zero denominator), `unique_words_cnt` exists and `BigWords` exists and holds no string; the result is the row with the four formula cells |
| LinguisticSheet.CopyStepsOnRow | calculate_linguistic_features_from_liwc.py:43-47 | the renames pass a row exactly when it has `Analytic`, `ipron`, `certitude`, `emotion` and `Hedge`; each new column is then an exact copy and nothing else changes |
| LinguisticSheet.CopiesKeepFormulas | calculate_linguistic_features_from_liwc.py:38-47 | the renames neither overwrite nor read a formula result, so the formula cells survive them |
| LinguisticSheet.StepsOnRow | calculate_linguistic_features_from_liwc.py:24-48 | a row passes every step exactly when it has every input and can be processed (a string response, an abstraction that evaluates, on object columns to a non-zero denominator, a non-string `BigWords`); the result holds the sentence count, abstraction, a copy of `unique_words_cnt`, reading difficulty and the five copies, with every original cell unchanged |
| LinguisticSheet.ProcessSheetSucceeds | calculate_linguistic_features_from_liwc.py:24-48 | a sheet is processed exactly when it has every input column and every row can be processed, a blank beside a string in the abstraction inputs included; the formula runs on objects exactly when an abstraction input holds a string, and then a row of four numbers adding up to zero stops the sheet |
| LinguisticSheet.StepsSucceed | calculate_linguistic_features_from_liwc.py:24-48 | with the formula on objects or on floats, the steps get through a sheet exactly when it has every input column and each row can be processed that way |
| LinguisticSheet.ProcessSheetRows | calculate_linguistic_features_from_liwc.py:24-48 | each processed row is its input row with the derived cells described above |
| LinguisticSheet.ProcessNamed | calculate_linguistic_features_from_liwc.py:24-25 | processing a sheet by name fails for an unknown name and otherwise processes that sheet |
| LinguisticSheet.RunSavesEverySheet | calculate_linguistic_features_from_liwc.py:78-80 | when every chosen sheet exists and is processable the run ends without error; it saves the requested sheets in the requested order, and with no `--sheets` or an empty list every sheet of the workbook, in workbook order |
| ManipulationSheet.ResponseCell | manipulation_feature_analysis/calculate_manipulation_features_from_liwc.py:57 | a measure of the response succeeds exactly on a string response and is that measure of it; otherwise it fails with the matching error |
| ManipulationSheet.MeasureChainRow | manipulation_feature_analysis/calculate_manipulation_features_from_liwc.py:57-76 | the measure columns pass a row exactly when its response is a string; each then holds its measure of the response, and nothing else changes |
| ManipulationSheet.MeasureChainFindColumns | manipulation_feature_analysis/calculate_manipulation_features_from_liwc.py:57-76 | the measures find their columns exactly when there is a response column |
| ManipulationSheet.MeasureNames | manipulation_feature_analysis/calculate_manipulation_features_from_liwc.py:57-76 | `SENT`, `polysyllables` and the raw unique count are always measured, and `unique_words_cnt` exactly when the sheet lacks it |
| ManipulationSheet.AnalyticSource | manipulation_feature_analysis/calculate_manipulation_features_from_liwc.py:82-85 | `analytical` is copied from `analytic` exactly when that column exists, and otherwise from `Analytic`; the source exists exactly when either does |
| ManipulationSheet.StepsTargets | manipulation_feature_analysis/calculate_manipulation_features_from_liwc.py:57-88 | processing assigns the measures, then `lexical diversity` and `reading difficulty`, then the four renamed columns |
| ManipulationSheet.ProcessSheet | manipulation_feature_analysis/calculate_manipulation_features_from_liwc.py:54-90 | a processed sheet keeps its rows and original columns and appends the derived columns |
| ManipulationSheet.StepsFindColumns | manipulation_feature_analysis/calculate_manipulation_features_from_liwc.py:54-90 | every assignment finds its columns exactly when the sheet has a response column and the columns the renames read |
| ManipulationSheet.MeasuresOnRow | manipulation_feature_analysis/calculate_manipulation_features_from_liwc.py:57-76 | on one row the measures succeed exactly for a string response, and give the sentence, polysyllable and unique counts while keeping an existing `unique_words_cnt` |
| ManipulationSheet.MiddleOnRow | manipulation_feature_analysis/calculate_manipulation_features_from_liwc.py:78-81 | a row with the counts gets `lexical diversity` as a copy of `unique_words_cnt`, and reading difficulty from its polysyllable and sentence counts |
| ManipulationSheet.CopiesOnRow | manipulation_feature_analysis/calculate_manipulation_features_from_liwc.py:82-88 | the renames pass a row exactly when their sources exist; each target is then an exact copy and nothing else changes |
| ManipulationSheet.StagesOnRow | manipulation_feature_analysis/calculate_manipulation_features_from_liwc.py:54-90 | processing a row is measuring, then the two formulas, then the renames, and it stops at the first stage that fails |
| ManipulationSheet.StepsOnRowSucceeds | manipulation_feature_analysis/calculate_manipulation_features_from_liwc.py:54-90 | a row passes every step exactly when its response is a string and it has the columns the renames read |
| ManipulationSheet.StepsOnRow | manipulation_feature_analysis/calculate_manipulation_features_from_liwc.py:54-90 | a row that passes comes out with the measures of its response, `lexical diversity` equal to its unique count, its reading difficulty and the renamed copies, every other cell unchanged |
| ManipulationSheet.MiddleKeepsSources | manipulation_feature_analysis/calculate_manipulation_features_from_liwc.py:57-85 | the columns the renames read pass the earlier stages unchanged |
| ManipulationSheet.AssembleProcessed | manipulation_feature_analysis/calculate_manipulation_features_from_liwc.py:54-90 | the three stages together produce the processed row |
| ManipulationSheet.ProcessSheetSucceeds | manipulation_feature_analysis/calculate_manipulation_features_from_liwc.py:54-90 | a sheet is processed exactly when it has a response column and the renames' sources, and every response is a string |
| ManipulationSheet.ProcessSheetRows | manipulation_feature_analysis/calculate_manipulation_features_from_liwc.py:54-90 | each processed row is its input row, processed as above |
| ManipulationSheet.ReadingDifficultyOfRow | manipulation_feature_analysis/calculate_manipulation_features_from_liwc.py:79-81 | reading difficulty is finite exactly when the response has a sentence, and then at least 3.1291; with no sentence it is infinite exactly when some token is polysyllabic, and NaN otherwise |
| ManipulationSheet.ProcessNamed | manipulation_feature_analysis/calculate_manipulation_features_from_liwc.py:54-55 | processing a sheet by name fails for an unknown name and otherwise processes that sheet |
| ManipulationSheet.RunManipulation | manipulation_feature_analysis/calculate_manipulation_features_from_liwc.py:120-128 | every chosen sheet but `source` is tried once, in order; each is reported written with its processed table or broken with its error, and a broken sheet does not stop the run |
| ManipulationSheet.KeptSheetsWritten | manipulation_feature_analysis/calculate_manipulation_features_from_liwc.py:120-128 | when every chosen sheet but `source` exists and is processable, every one of them is written |
| GroupStats.LabelledIndices | text_feature_analysis/utils.py:10-11 | the selected positions are increasing and are exactly the rows carrying the label |
| GroupStats.FirstText | text_feature_analysis/utils.py:10-11 | a row has a string among the requested cells exactly when the float cast finds one |
| GroupStats.CastRows | text_feature_analysis/utils.py:10-11 | the float cast succeeds exactly when every requested cell of the selected rows is a number, and keeps the rows |
| GroupStats.SelectGroup | text_feature_analysis/utils.py:10-11 | a selected group carries exactly the requested columns |
| GroupStats.SelectGroupSucceeds | text_feature_analysis/utils.py:10-11 | the selection succeeds exactly when every requested cell of every labelled row is a number |
| GroupStats.SelectGroupRows | text_feature_analysis/utils.py:10-11 | the selected frame holds, in source order, the values of exactly the rows labelled with the group and no other |
| GroupStats.PrepareFrames | text_feature_analysis/utils.py:7-13 | a missing `gender` column or requested column is a KeyError; otherwise the female frame then the male frame, each of exactly the rows with its label, in source order, with exactly the requested columns |
| GroupStats.Dedup | text_feature_analysis/utils.py:19-27 | the dict keys are the requested features without repetition |
| GroupStats.DedupOrdered | text_feature_analysis/utils.py:19-27 | the dict keeps each feature at the position of its first request |
| GroupStats.FirstUntestable | text_feature_analysis/utils.py:21-27 | finds the first requested feature, by position, that a frame lacks or the test rejects, and none exactly when every feature can be tested |
| GroupStats.WilcoxonPValues | text_feature_analysis/utils.py:16-36 | the p-values are computed exactly when every requested feature is in both frames and accepted by the test; otherwise the first feature that is not raises: a KeyError when a frame lacks it, the test's ValueError otherwise |
| GroupStats.UnequalGroupsFail | text_feature_analysis/utils.py:21-27 | with groups of different sizes and a test that rejects unequal lengths, no p-value table comes out unless the feature list is empty, and the first feature raises |
| GroupStats.WilcoxonPValuesContents | text_feature_analysis/utils.py:21-27 | the keys are exactly the distinct requested features, each bound to the p-value the test gives for its female and male columns |
| GroupStats.WilcoxonPValuesSorted | text_feature_analysis/utils.py:29-34 | the p-values are in non-decreasing order |
| GroupStats.WilcoxonPValuesStable | text_feature_analysis/utils.py:29-34 | equal p-values keep the order of the requested features |
| GroupStats.CombinedRange | text_feature_analysis/utils.py:48-51 | the combined range of two non-empty groups is never negative |
| GroupStats.NormalizedDifference | text_feature_analysis/utils.py:42-53 | the value is undefined exactly for an empty group or a zero combined range, and otherwise is the male-minus-female mean difference over the combined range |
| GroupStats.MeanDifferenceWithinRange | text_feature_analysis/utils.py:42-51 | the mean difference never exceeds the combined range in magnitude |
| GroupStats.NormalizedDifferenceBounds | text_feature_analysis/utils.py:42-53 | a defined normalised difference lies in [-1, 1] and has the sign of the male-minus-female mean difference |
| GroupStats.ZeroRangeZeroDifference | text_feature_analysis/utils.py:46-62 | on reals, a zero combined range forces equal means, so the value is `0/0` and is dropped, never an infinity that would be kept |
| GroupStats.DefinedEntries | text_feature_analysis/utils.py:58-62 | exactly the features with a defined value are kept, each with that value |
| GroupStats.DefinedEntriesOrdered | text_feature_analysis/utils.py:58-62 | the kept features stay in requested order |
| GroupStats.MeanDifferences | text_feature_analysis/utils.py:39-68 | the differences are computed exactly when every requested feature is in both frames and labels one column of each; an absent feature raises its KeyError before anything else, and otherwise a feature labelling several columns raises the ValueError of `max` at line 49 |
| GroupStats.RepeatedFeatureFails | text_feature_analysis/utils.py:10-53 | frames prepared from a feature list that names a feature twice make the mean differences raise the ValueError, naming a repeated feature |
| GroupStats.MeanDifferencesContents | text_feature_analysis/utils.py:46-66 | the result is a permutation of the defined entries: a feature appears once exactly when it was requested and its value is defined, with that value |
| GroupStats.MeanDifferencesSorted | text_feature_analysis/utils.py:56-66 | the values are in non-increasing absolute value |
| GroupStats.MeanDifferencesStable | text_feature_analysis/utils.py:56-66 | values of equal magnitude keep the order of the requested features |
| GroupStats.MeanDifferencesBounded | text_feature_analysis/utils.py:42-66 | every reported value lies in [-1, 1] and is positive (negative) exactly when the male mean of its feature is above (below) the female mean |
| PlotLayout.CeilDiv | text_feature_analysis/plots.py:22 | the row count is the least number of rows of the given width that holds every item |
| PlotLayout.CeilDivLeast | text_feature_analysis/plots.py:22 | no smaller row count holds every item |
| PlotLayout.CeilDivIsCeiling | text_feature_analysis/plots.py:22 | the row count is the ceiling of the real quotient |
| PlotLayout.GridLayout | text_feature_analysis/plots.py:20-27 | the grid exists exactly for at least one feature and a positive column limit; with a non-negative limit, zero features or a zero limit divide by zero, and a negative limit gives a non-positive grid that plotting rejects; the columns are the smaller of limit and feature count; every feature gets an axis and no row is empty; the figure is columns times base width by rows times base height |
| PlotLayout.GridRowsLeast | text_feature_analysis/plots.py:20-22 | no grid with fewer rows gives every feature an axis |
| PlotLayout.HiddenFewerThanRow | text_feature_analysis/plots.py:52-53 | fewer than one row of axes is hidden |
| PlotLayout.AxisAt | text_feature_analysis/plots.py:36 | flattening maps flat axis `k` to a grid position in row-major order |
| PlotLayout.AxisRoundTrip | text_feature_analysis/plots.py:36 | flattening is a bijection between grid positions and flat indices |
| PlotLayout.HiddenInLastRow | text_feature_analysis/plots.py:39-53 | every hidden axis lies in the last row |
| PlotLayout.BarColours | text_feature_analysis/plots.py:65 | one colour per value, in order: sky blue exactly for a positive value, hot pink otherwise (zero included) |
| PlotLayout.BarColourBySign | text_feature_analysis/plots.py:65 | the mean-difference plot has one bar per reported feature, in order, and a bar is sky blue exactly when the male mean of its feature exceeds the female mean |

## Left out

- Excel and CSV I/O, `mkdir`, closing the workbook, argparse and the path and extension checks are left out: they are file-system plumbing. A workbook is a value.
- nltk's `sent_tokenize` and `word_tokenize`, and the CMU pronouncing dictionary (with its download), are parameters. They are external libraries. The dictionary is constrained (`WellFormedDict`): every word has at least one pronunciation and no phoneme is empty, as in the CMU data.
- scipy's Wilcoxon signed-rank test is a parameter from two columns to a p-value or a rejection, which stands for its ValueError. It is an external library; `RejectsUnequalLengths` states the one rejection the model relies on.
- Tables.Derive: when every input exists and several rows fail, the error is the first failing row's. pandas evaluates each operation over the whole column, so it raises the TypeError of the earliest failing operation, which can come from a later row. Both are TypeErrors, but the column a `NotNumeric` error names can differ.
- The square root is a parameter, constrained to the non-negative root. Real arithmetic replaces floating point, so IEEE rounding and signed zero are not modelled.
- Formulas.ReadingCell: an infinite word count or sentence count gives NaN here, whereas the source can give an infinity or a finite value. Non-finite input cells are treated as missing values.
- GroupStats.NormalizedDifference: with exact real arithmetic a zero combined range forces equal means, so the value is undefined and dropped. In float64 the means can differ by rounding over a zero range, and the source then keeps an infinity and sorts it first. For example, a constant 0.1 column with three male rows and one female row gives means one ulp apart. This case is not modelled.
- TextFeatures.Lower: only ASCII letters change case, and `\w` is ASCII letters, digits and `_`. Unicode case mapping and Unicode word characters are not modelled.
- GroupStats.PrepareFrames: requires complete columns (no NaN or infinite cell among the requested columns). pandas would skip NaN in `mean`, `min` and `max`, and that skipping is not modelled.
- GroupStats.CastRows: every string cell makes the float cast fail. pandas would also cast a string that spells a number, such as `"3.5"`.
- GroupStats.WilcoxonPValues: the test's p-value is a real. A NaN p-value, and Python's ordering of NaN in `sorted`, are not modelled.
- GroupStats.WilcoxonPValues: a frame in which a feature name labels several columns is read as one column. In the source the test then gets two-dimensional arrays and its p-value is an array, and `sorted` at utils.py:31-33 raises a ValueError once there are two features. The model's frame rows hold one value per name, so they cannot carry the second column.
- The "is broken" message and `print(e)` of the manipulation script are represented by the `Broken` outcome carrying the error. The text printed is not modelled.
- PlotLayout.GridLayout: base width and base height are natural numbers, and the default arguments (5, 3, 3) are not fixed. Non-positive sizes that matplotlib rejects are not modelled.
- All rendering in `plots.py` is left out: KDE plots, bars, legends, titles, `tight_layout`, `savefig` and `show`. Line 99 calls `savefig()` without a path, but saving is outside this model.
- The commented-out abstraction and `hedges` code of the manipulation script (lines 62-69 and 89) does not run and is not modelled.

=== FILE: formulas.dfy ===
/** The per-row feature formulas of the two LIWC sheet processors
    (calculate_linguistic_features_from_liwc.py and
    manipulation_feature_analysis/calculate_manipulation_features_from_liwc.py):
    the abstraction index, the reading-difficulty index and the sentence
    count, on floats and lifted to table cells.

    Division on float columns follows IEEE 754: a finite non-zero number
    over zero is an infinity of the numerator's sign, and zero over zero is
    NaN. A column that holds a string has dtype object, and arithmetic on it
    is Python's, where a zero divisor raises ZeroDivisionError.
    Rounding is not modelled: arithmetic is exact on reals. */
module Formulas {
  import opened Wrappers
  import opened Tables
  import Stats
  import RealArith

  /** `a / b` on floats. */
  function FloatDivide(a: real, b: real): (r: Cell)
    ensures !r.Text?
    ensures r.Num? <==> b != 0.0
    ensures r == NaN <==> b == 0.0 && a == 0.0
    ensures r.Inf? <==> b == 0.0 && a != 0.0
    ensures r.Inf? ==> (r.positive <==> a > 0.0)
    ensures r.Num? ==> r.x * b == a
  {
    if b != 0.0 then Num(a / b)
    else if a == 0.0 then NaN
    else Inf(a > 0.0)
  }

  // ---------------------------------------------------------------------
  // Abstraction: (DAV + 2 IAV + 3 SV + 4 adj) / (DAV + IAV + SV + adj)
  // ---------------------------------------------------------------------

  /** The weighted count: descriptive action verbs weigh 1, interpretive
      action verbs 2, state verbs 3 and adjectives 4. */
  function Weighted(dav: real, iav: real, sv: real, adj: real): real {
    dav + 2.0 * iav + 3.0 * sv + 4.0 * adj
  }

  function Total(dav: real, iav: real, sv: real, adj: real): real {
    dav + iav + sv + adj
  }

  /** The abstraction index: the mean weight of the four categories. */
  function Abstraction(dav: real, iav: real, sv: real, adj: real): (r: Cell)
    ensures !r.Text?
    ensures r.Num? <==> Total(dav, iav, sv, adj) != 0.0
    ensures r == NaN <==> Total(dav, iav, sv, adj) == 0.0 && Weighted(dav, iav, sv, adj) == 0.0
    ensures r.Num? ==> r.x * Total(dav, iav, sv, adj) == Weighted(dav, iav, sv, adj)
  {
    FloatDivide(Weighted(dav, iav, sv, adj), Total(dav, iav, sv, adj))
  }

  /** For non-negative counts with a positive total the index lies between
      the lightest and the heaviest weight. */
  lemma AbstractionBounds(dav: real, iav: real, sv: real, adj: real)
    requires 0.0 <= dav && 0.0 <= iav && 0.0 <= sv && 0.0 <= adj
    requires Total(dav, iav, sv, adj) > 0.0
    ensures Abstraction(dav, iav, sv, adj).Num?
    ensures 1.0 <= Abstraction(dav, iav, sv, adj).x <= 4.0
  {
    var t := Total(dav, iav, sv, adj);
    Stats.DivideBounds(Weighted(dav, iav, sv, adj), t, 1.0, 4.0);
  }

  /** Non-negative counts that are all zero give NaN, never an infinity. */
  lemma AbstractionOfNoCounts(dav: real, iav: real, sv: real, adj: real)
    requires 0.0 <= dav && 0.0 <= iav && 0.0 <= sv && 0.0 <= adj
    ensures Abstraction(dav, iav, sv, adj) == NaN <==> Total(dav, iav, sv, adj) == 0.0
    ensures !Abstraction(dav, iav, sv, adj).Inf?
  {
  }

  /** Only descriptive action verbs: the index is exactly 1. */
  lemma AbstractionOnlyDescriptive(dav: real)
    requires dav != 0.0
    ensures Abstraction(dav, 0.0, 0.0, 0.0) == Num(1.0)
  {
    var q := dav / dav;
    RealArith.MulCancel(q, 1.0, dav);
  }

  /** Only adjectives: the index is exactly 4. */
  lemma AbstractionOnlyAdjectives(adj: real)
    requires adj != 0.0
    ensures Abstraction(0.0, 0.0, 0.0, adj) == Num(4.0)
  {
    var q := (4.0 * adj) / adj;
    RealArith.MulCancel(q, 4.0, adj);
  }

  /** Scaling all four counts by the same positive factor (for instance
      percentages versus raw counts) leaves the index unchanged. */
  lemma AbstractionScaleInvariant(dav: real, iav: real, sv: real, adj: real, k: real)
    requires k > 0.0
    ensures Abstraction(k * dav, k * iav, k * sv, k * adj) == Abstraction(dav, iav, sv, adj)
  {
    var t, w := Total(dav, iav, sv, adj), Weighted(dav, iav, sv, adj);
    assert Total(k * dav, k * iav, k * sv, k * adj) == k * t;
    assert Weighted(k * dav, k * iav, k * sv, k * adj) == k * w;
    if t != 0.0 {
      var q := w / t;
      assert q * t == w;
      assert q * (k * t) == k * w;
    } else if w != 0.0 {
      assert (k * w > 0.0) <==> (w > 0.0);
    }
  }

  // ---------------------------------------------------------------------
  // Reading difficulty: 1.043 * sqrt(words) * 30 / sentences + 3.1291
  // ---------------------------------------------------------------------

  const ReadingScale: real := 1.043
  const SampleSentences: real := 30.0
  const ReadingOffset: real := 3.1291

  /** The square root `pow(1.0 / 2)` stands for, given as a parameter. */
  type Sqrt = real -> real

  ghost predicate IsSqrt(sqrt: Sqrt) {
    forall x :: 0.0 <= x ==> 0.0 <= sqrt(x) && sqrt(x) * sqrt(x) == x
  }

  lemma SqrtSign(sqrt: Sqrt, x: real)
    requires IsSqrt(sqrt) && 0.0 <= x
    ensures sqrt(x) == 0.0 <==> x == 0.0
  {
    var s := sqrt(x);
    if x == 0.0 {
      RealArith.SquareInjective(s, 0.0);
    }
  }

  lemma {:induction false} SqrtMonotone(sqrt: Sqrt, a: real, b: real)
    requires IsSqrt(sqrt) && 0.0 <= a <= b
    ensures sqrt(a) <= sqrt(b)
  {
    var sa, sb := sqrt(a), sqrt(b);
    if sb < sa {
      RealArith.SquareLess(sb, sa);
    }
  }

  /** The index for `words` long words (a LIWC percentage or a polysyllable
      count) over `sentences` sentences. A negative word count has no real
      square root (NaN); a zero sentence count divides by zero. */
  function ReadingDifficulty(words: real, sentences: real, sqrt: Sqrt): (r: Cell)
    requires IsSqrt(sqrt)
    ensures !r.Text?
    ensures r.Num? <==> 0.0 <= words && sentences != 0.0
    ensures r == NaN <==> words < 0.0 || (words == 0.0 && sentences == 0.0)
    ensures r.Inf? <==> 0.0 < words && sentences == 0.0
  {
    if words < 0.0 then NaN
    else
      SqrtSign(sqrt, words);
      match FloatDivide(ReadingScale * sqrt(words) * SampleSentences, sentences)
      case Num(q) => Num(q + ReadingOffset)
      case other => other
  }

  /** The grade is at least the offset, and equals it exactly when there
      are no long words. */
  lemma ReadingDifficultyFloor(words: real, sentences: real, sqrt: Sqrt)
    requires IsSqrt(sqrt) && 0.0 <= words && sentences > 0.0
    ensures ReadingDifficulty(words, sentences, sqrt).x >= ReadingOffset
    ensures ReadingDifficulty(words, sentences, sqrt).x == ReadingOffset <==> words == 0.0
  {
    SqrtSign(sqrt, words);
    var a := ReadingScale * sqrt(words) * SampleSentences;
    var q := a / sentences;
    assert q * sentences == a;
  }

  /** The long-word count can be read back from a finite index. */
  lemma ReadingDifficultyInverse(words: real, sentences: real, sqrt: Sqrt)
    requires IsSqrt(sqrt) && 0.0 <= words && sentences != 0.0
    ensures var g := (ReadingDifficulty(words, sentences, sqrt).x - ReadingOffset) * sentences
                     / (ReadingScale * SampleSentences);
            g >= 0.0 && g * g == words
  {
    var s := sqrt(words);
    var a := ReadingScale * s * SampleSentences;
    var q := a / sentences;
    assert q * sentences == a;
    var g := q * sentences / (ReadingScale * SampleSentences);
    assert g == s;
  }

  /** More long words over the same sentences never lower the index. */
  lemma ReadingDifficultyMonotoneInWords(w1: real, w2: real, sentences: real, sqrt: Sqrt)
    requires IsSqrt(sqrt) && 0.0 <= w1 <= w2 && sentences > 0.0
    ensures ReadingDifficulty(w1, sentences, sqrt).x <= ReadingDifficulty(w2, sentences, sqrt).x
  {
    SqrtMonotone(sqrt, w1, w2);
    var a1 := ReadingScale * sqrt(w1) * SampleSentences;
    var a2 := ReadingScale * sqrt(w2) * SampleSentences;
    Stats.DivideBounds(a1, sentences, a1 / sentences, a2 / sentences);
  }

  /** The same long words spread over more sentences never raise the index. */
  lemma ReadingDifficultyAntitoneInSentences(words: real, s1: real, s2: real, sqrt: Sqrt)
    requires IsSqrt(sqrt) && 0.0 <= words && 0.0 < s1 <= s2
    ensures ReadingDifficulty(words, s2, sqrt).x <= ReadingDifficulty(words, s1, sqrt).x
  {
    SqrtSign(sqrt, words);
    var a := ReadingScale * sqrt(words) * SampleSentences;
    var q1 := a / s1;
    assert q1 * s1 == a;
    RealArith.DivideNonNegative(a, s1);
    RealArith.MulMonotone(s1, s2, q1);
    Stats.DivideBounds(a, s2, 0.0, q1);
  }

  /** Four long words over two sentences: 1.043 * 2 * 30 / 2 + 3.1291. */
  lemma ReadingDifficultyExample(sqrt: Sqrt)
    requires IsSqrt(sqrt)
    ensures ReadingDifficulty(4.0, 2.0, sqrt) == Num(34.4191)
  {
    RealArith.SquareInjective(sqrt(4.0), 2.0);
  }

  // ---------------------------------------------------------------------
  // The formulas on table cells
  // ---------------------------------------------------------------------

  /** One operand of a column expression: a KeyError when the column is
      absent, a TypeError on a string, and `None` on a missing or infinite
      value. */
  function Operand(row: Row, c: string): (r: Result<Option<real>, Error>)
    ensures r.Failure? <==> c !in row || row[c].Text?
    ensures r.Failure? ==> r.error == (if c in row then NotNumeric(c) else MissingColumn(c))
    ensures r.Success? ==> (r.value.Some? <==> row[c].Num?)
    ensures r.Success? && r.value.Some? ==> r.value.value == row[c].x
  {
    if c !in row then Failure(MissingColumn(c))
    else match row[c]
      case Text(_) => Failure(NotNumeric(c))
      case Num(x) => Success(Some(x))
      case _ => Success(None)
  }

  const AbstractionInputs: seq<string> := ["DAV", "IAV", "SV", "adj"]

  // Arithmetic on the cells of a column that holds strings is done on
  // Python objects. When an element raises a TypeError, pandas redoes the
  // operation on the rows where neither side is NaN and gives NaN on the
  // others, so a NaN operand never raises. A ZeroDivisionError is not
  // retried.

  /** `k * v` for a positive integer literal `k`: a string is repeated, NaN
      and the infinities are unchanged. */
  function Times(k: nat, v: Cell): (r: Cell)
    requires k > 0
    ensures r.Text? == v.Text? && r.NaN? == v.NaN?
    ensures !v.Num? && !v.Text? ==> r == v
    ensures v.Num? ==> r == Num(k as real * v.x)
  {
    match v
    case Num(x) => Num(k as real * x)
    case Text(s) => Text(Repeat(s, k))
    case _ => v
  }

  function Repeat(s: string, k: nat): string {
    if k == 0 then "" else s + Repeat(s, k - 1)
  }

  /** `a + b` on two cells, where `aCol` and `bCol` name the columns the
      two sides come from: NaN on either side gives NaN, two strings
      concatenate, a string beside anything else raises a TypeError named
      after the string side, and numbers add as IEEE floats. */
  function Plus(a: Cell, aCol: string, b: Cell, bCol: string): (r: Result<Cell, Error>)
    ensures r.Failure? <==> !a.NaN? && !b.NaN? && a.Text? != b.Text?
    ensures r.Failure? ==> r.error == NotNumeric(if a.Text? then aCol else bCol)
    ensures r.Success? ==>
              (r.value.NaN? <==> a.NaN? || b.NaN? || (a.Inf? && b.Inf? && a.positive != b.positive))
    ensures r.Success? && !r.value.NaN? ==>
              && (r.value.Text? <==> a.Text?)
              && (r.value.Inf? <==> a.Inf? || b.Inf?)
              && (r.value.Inf? ==> r.value == a || r.value == b)
    ensures a.Num? && b.Num? ==> r == Success(Num(a.x + b.x))
  {
    if a.NaN? || b.NaN? then Success(NaN)
    else if a.Text? && b.Text? then Success(Text(a.s + b.s))
    else if a.Text? then Failure(NotNumeric(aCol))
    else if b.Text? then Failure(NotNumeric(bCol))
    else if a.Num? && b.Num? then Success(Num(a.x + b.x))
    else if a.Inf? && b.Inf? && a.positive != b.positive then Success(NaN)
    else if a.Inf? then Success(a)
    else Success(b)
  }

  /** `a / b` on two cells: NaN on either side gives NaN and a string on
      either side raises a TypeError named after `col`. Otherwise, on float
      columns, IEEE division, zero being taken as positive zero; on object
      columns (`objects`), Python's division, which raises on a zero
      divisor. */
  function Quotient(a: Cell, b: Cell, col: string, objects: bool): (r: Result<Cell, Error>)
    ensures r.Failure? <==> !a.NaN? && !b.NaN? && (a.Text? || b.Text? || (objects && b == Num(0.0)))
    ensures r.Failure? ==> r.error == if a.Text? || b.Text? then NotNumeric(col) else ZeroDivision
    ensures r.Success? ==> !r.value.Text?
    ensures a.Num? && b.Num? && !(objects && b.x == 0.0) ==> r == Success(FloatDivide(a.x, b.x))
    ensures a.Inf? && b.Inf? ==> r == Success(NaN)
  {
    if a.NaN? || b.NaN? then Success(NaN)
    else if a.Text? || b.Text? then Failure(NotNumeric(col))
    else if objects && b == Num(0.0) then Failure(ZeroDivision)
    else match (a, b)
      case (Num(x), Num(y)) => Success(FloatDivide(x, y))
      case (Inf(_), Inf(_)) => Success(NaN)
      case (Inf(p), Num(y)) => Success(Inf(p == (y >= 0.0)))
      case (_, _) => Success(Num(0.0))
  }

  /** The abstraction inputs of a row, in the formula's order. */
  function InputCells(row: Row): (vs: seq<Cell>)
    requires forall c :: c in AbstractionInputs ==> c in row
    ensures |vs| == 4 && forall k :: 0 <= k < 4 ==> vs[k] == row[AbstractionInputs[k]]
  {
    [row["DAV"], row["IAV"], row["SV"], row["adj"]]
  }

  /** A float sum over these cells is NaN: one is NaN, or both infinities
      occur. */
  predicate Poisoned(vs: seq<Cell>) {
    NaN in vs || (Inf(true) in vs && Inf(false) in vs)
  }

  /** When the abstraction formula of a row raises no TypeError. Walking
      the inputs from `DAV`, take the first whose kind (string or not)
      differs from `DAV`'s: the formula evaluates exactly when the inputs up
      to it make the sum NaN, which masks the mixed addition. When all four
      are of one kind, it evaluates exactly when they are not strings. */
  predicate AbstractionEvaluates(row: Row)
    requires forall c :: c in AbstractionInputs ==> c in row
  {
    Evaluates(InputCells(row))
  }

  predicate Evaluates(vs: seq<Cell>)
    requires |vs| == 4
  {
    if vs[1].Text? != vs[0].Text? then Poisoned(vs[..2])
    else if vs[2].Text? != vs[0].Text? then Poisoned(vs[..3])
    else if vs[3].Text? != vs[0].Text? then Poisoned(vs)
    else !vs[0].Text?
  }

  /** The denominator `DAV + IAV + SV + adj` on cells. */
  function CellTotal(dav: Cell, iav: Cell, sv: Cell, adj: Cell): (r: Result<Cell, Error>)
    ensures r.Failure? ==> r.error.NotNumeric?
    ensures r.Failure? ==> || (r.error.column == "DAV" && dav.Text?) || (r.error.column == "IAV" && iav.Text?)
                           || (r.error.column == "SV" && sv.Text?) || (r.error.column == "adj" && adj.Text?)
    ensures dav.Num? && iav.Num? && sv.Num? && adj.Num? ==> r == Success(Num(Total(dav.x, iav.x, sv.x, adj.x)))
  {
    var t1 :- Plus(dav, "DAV", iav, "IAV");
    var t2 :- Plus(t1, "DAV", sv, "SV");
    Plus(t2, "DAV", adj, "adj")
  }

  /** The four inputs are numbers adding up to zero: the denominator is a
      zero, not a NaN. */
  predicate ZeroTotal(row: Row) {
    && "DAV" in row && "IAV" in row && "SV" in row && "adj" in row
    && row["DAV"].Num? && row["IAV"].Num? && row["SV"].Num? && row["adj"].Num?
    && Total(row["DAV"].x, row["IAV"].x, row["SV"].x, row["adj"].x) == 0.0
  }

  /** The four inputs are there, the formula evaluates, and on object
      columns the denominator is not zero. */
  predicate AbstractionReady(row: Row, objects: bool) {
    && (forall c :: c in AbstractionInputs ==> c in row)
    && AbstractionEvaluates(row)
    && !(objects && ZeroTotal(row))
  }

  /** A string in a row's abstraction inputs. */
  predicate HoldsText(row: Row) {
    HasText(row, "DAV") || HasText(row, "IAV") || HasText(row, "SV") || HasText(row, "adj")
  }

  /** Some row holds a string in an abstraction input. */
  predicate AnyHoldsText(rows: seq<Row>) {
    |rows| > 0 && (HoldsText(rows[0]) || AnyHoldsText(rows[1..]))
  }

  /** Some abstraction input column of the sheet holds a string, so pandas
      gives that column dtype object and evaluates the formula on Python
      objects. */
  predicate ObjectInputs(t: Table) {
    AnyHoldsText(t.rows)
  }

  /** The sheet computes on objects exactly when one of its rows has a
      string in one of the four input columns. */
  lemma {:induction false} AnyHoldsTextIff(rows: seq<Row>)
    ensures AnyHoldsText(rows) <==>
              exists i, c :: 0 <= i < |rows| && c in AbstractionInputs && HasText(rows[i], c)
    decreases |rows|
  {
    if |rows| > 0 {
      AnyHoldsTextIff(rows[1..]);
      if HoldsText(rows[0]) {
        var c :| c in AbstractionInputs && HasText(rows[0], c);
        assert 0 < |rows| && HasText(rows[0], c);
      } else if AnyHoldsText(rows[1..]) {
        var i, c :| 0 <= i < |rows[1..]| && c in AbstractionInputs && HasText(rows[1..][i], c);
        assert HasText(rows[i + 1], c);
      } else {
        forall i, c | 0 <= i < |rows| && c in AbstractionInputs
          ensures !HasText(rows[i], c)
        {
          if i > 0 {
            assert rows[i] == rows[1..][i - 1];
          }
        }
      }
    }
  }

  /** The `abstraction` cell of a row, evaluated as pandas does: the
      numerator `DAV + 2 * IAV + 3 * SV + 4 * adj` left to right, each
      column looked up as it is reached, then the denominator, then the
      quotient. A string beside a number raises at the addition that meets
      it, unless a NaN masks it; four strings concatenate and raise at the
      division. On object columns (`objects`) a zero denominator raises. */
  function AbstractionCell(row: Row, objects: bool): (r: Result<Cell, Error>)
    ensures r.Success? ==> forall c :: c in AbstractionInputs ==> c in row
    ensures r.Success? && (forall c :: c in AbstractionInputs ==> row[c].Num?) ==>
              r.value == Abstraction(row["DAV"].x, row["IAV"].x, row["SV"].x, row["adj"].x)
    ensures r.Success? && (exists c :: c in AbstractionInputs && !row[c].Num?) ==> r.value == NaN
    ensures r.Failure? ==>
              || r.error.MissingColumn?
              || (r.error.NotNumeric? && HasText(row, r.error.column))
              || (r.error == ZeroDivision && objects && ZeroTotal(row))
    ensures objects && ZeroTotal(row) ==> r == Failure(ZeroDivision)
    ensures "DAV" !in row ==> r == Failure(MissingColumn("DAV"))
    ensures "DAV" in row && "IAV" !in row ==> r == Failure(MissingColumn("IAV"))
    ensures "DAV" in row && "IAV" in row && !row["DAV"].NaN? && !row["IAV"].NaN? &&
            row["DAV"].Text? != row["IAV"].Text? ==>
              r.Failure? && r.error.NotNumeric?
    ensures "DAV" in row && "IAV" in row && (row["DAV"].NaN? || row["IAV"].NaN?) ==>
              r == if "SV" !in row then Failure(MissingColumn("SV"))
                   else if "adj" !in row then Failure(MissingColumn("adj"))
                   else Success(NaN)
  {
    var dav :- Get(row, "DAV");
    var iav :- Get(row, "IAV");
    var w1 :- Plus(dav, "DAV", Times(2, iav), "IAV");
    var sv :- Get(row, "SV");
    var w2 :- Plus(w1, "DAV", Times(3, sv), "SV");
    var adj :- Get(row, "adj");
    var w3 :- Plus(w2, "DAV", Times(4, adj), "adj");
    match CellTotal(dav, iav, sv, adj)
    case Failure(e) => Failure(e)
    case Success(t) => Quotient(w3, t, "DAV", objects)
  }

  /** What a partial sum `s` of the cells `p` is, as far as its kind
      goes: NaN exactly when `p` poisons the sum, otherwise a string
      exactly when every cell of `p` is one, and an infinity exactly when
      one of `p` is, and then that one. */
  predicate SumOf(s: Cell, p: seq<Cell>) {
    && |p| > 0
    && (s.NaN? <==> Poisoned(p))
    && (!s.NaN? ==> (s.Text? <==> p[0].Text?) && forall v :: v in p ==> v.Text? == p[0].Text?)
    && (s.Inf? ==> s in p)
    && (!s.NaN? && (Inf(true) in p || Inf(false) in p) ==> s.Inf?)
  }

  /** Adding one more cell `v`, scaled to `b`, to a partial sum: it raises
      exactly when the sum is not masked and the kinds differ, and the
      result is a partial sum of the longer list. */
  lemma PlusStep(s: Cell, p: seq<Cell>, b: Cell, v: Cell, col: string)
    requires SumOf(s, p) && Scaled(b, v)
    ensures Plus(s, "DAV", b, col).Failure? <==> !Poisoned(p + [v]) && v.Text? != p[0].Text?
    ensures Plus(s, "DAV", b, col).Success? ==> SumOf(Plus(s, "DAV", b, col).value, p + [v])
  {
    var q := p + [v];
    assert forall x :: x in q <==> x in p || x == v;
  }

  /** `b` is `v` times a positive constant, as far as its kind goes. */
  predicate Scaled(b: Cell, v: Cell) {
    b.Text? == v.Text? && b.NaN? == v.NaN? && (b.Inf? || v.Inf? ==> b == v)
  }

  /** Every addition of a sum over the four cells `vs` that meets a string
      beside a non-string is masked by a NaN. */
  predicate AddsCleanly(vs: seq<Cell>)
    requires |vs| == 4
  {
    forall j :: 1 <= j < 4 && vs[j].Text? != vs[0].Text? ==> Poisoned(vs[..j + 1])
  }

  /** A sum over four cells, each but the first scaled by a positive
      constant, gets through exactly when every addition is clean, and is
      then a partial sum of the four. */
  lemma CellTotalSucceeds(vs: seq<Cell>, b: Cell, c: Cell, d: Cell)
    requires |vs| == 4 && Scaled(b, vs[1]) && Scaled(c, vs[2]) && Scaled(d, vs[3])
    ensures CellTotal(vs[0], b, c, d).Success? <==> AddsCleanly(vs)
    ensures CellTotal(vs[0], b, c, d).Success? ==> SumOf(CellTotal(vs[0], b, c, d).value, vs)
  {
    var a := vs[0];
    AddsCleanlySteps(vs);
    assert vs[..1] == [a] && vs[..2] == [a, vs[1]] && vs[..3] == [a, vs[1], vs[2]];
    assert SumOf(a, vs[..1]);
    PlusStep(a, vs[..1], b, vs[1], "IAV");
    assert vs[..1] + [vs[1]] == vs[..2];
    var s1 := Plus(a, "DAV", b, "IAV");
    if s1.Failure? {
      assert CellTotal(a, b, c, d) == Failure(s1.error);
    } else {
      PlusStep(s1.value, vs[..2], c, vs[2], "SV");
      assert vs[..2] + [vs[2]] == vs[..3];
      var s2 := Plus(s1.value, "DAV", c, "SV");
      if s2.Failure? {
        assert CellTotal(a, b, c, d) == Failure(s2.error);
      } else {
        PlusStep(s2.value, vs[..3], d, vs[3], "adj");
        assert vs[..3] + [vs[3]] == vs;
        assert CellTotal(a, b, c, d) == Plus(s2.value, "DAV", d, "adj");
      }
    }
  }

  /** The three additions of a four-cell sum, one by one. */
  lemma AddsCleanlySteps(vs: seq<Cell>)
    requires |vs| == 4
    ensures AddsCleanly(vs) <==>
              && (vs[1].Text? != vs[0].Text? ==> Poisoned(vs[..2]))
              && (vs[2].Text? != vs[0].Text? ==> Poisoned(vs[..3]))
              && (vs[3].Text? != vs[0].Text? ==> Poisoned(vs[..4]))
  {
  }


  /** The formula evaluates exactly when both sums add cleanly and the
      division does not meet two strings. */
  lemma EvaluatesIff(vs: seq<Cell>)
    requires |vs| == 4
    ensures Evaluates(vs) <==> AddsCleanly(vs) && (Poisoned(vs) || !vs[0].Text?)
  {
    assert vs[..2] <= vs[..3] <= vs;
    assert forall x :: x in vs[..2] ==> x in vs[..3];
    assert forall x :: x in vs[..3] ==> x in vs;
  }

  /** A partial sum of four cells that is a number adds four numbers. */
  lemma SumOfNumbers(s: Cell, vs: seq<Cell>)
    requires |vs| == 4 && SumOf(s, vs) && s.Num?
    ensures forall k :: 0 <= k < 4 ==> vs[k].Num?
  {
    forall k | 0 <= k < 4
      ensures vs[k].Num?
    {
      assert vs[k] in vs;
    }
  }

  /** The abstraction formula of a row gets through exactly when the four
      inputs are there and evaluate (a NaN beside a string masks it) and,
      on object columns, they do not add up to zero. */
  lemma AbstractionCellSucceeds(row: Row, objects: bool)
    ensures AbstractionCell(row, objects).Success? <==> AbstractionReady(row, objects)
  {
    if forall c :: c in AbstractionInputs ==> c in row {
      var vs := InputCells(row);
      var a, b, c, d := vs[0], vs[1], vs[2], vs[3];
      var w, t := CellTotal(a, Times(2, b), Times(3, c), Times(4, d)), CellTotal(a, b, c, d);
      CellTotalSucceeds(vs, Times(2, b), Times(3, c), Times(4, d));
      CellTotalSucceeds(vs, b, c, d);
      EvaluatesIff(vs);
      AbstractionCellSums(row, objects);
      if w.Success? && t.Success? {
        QuotientOfSums(w.value, t.value, vs, objects);
        assert ZeroTotal(row) <==> a.Num? && b.Num? && c.Num? && d.Num? && Total(a.x, b.x, c.x, d.x) == 0.0;
      }
    }
  }

  /** With its inputs there, the abstraction formula is the quotient of the
      weighted and the plain sum, each raising first if it raises. */
  lemma AbstractionCellSums(row: Row, objects: bool)
    requires forall c :: c in AbstractionInputs ==> c in row
    ensures var vs := InputCells(row);
            var w := CellTotal(vs[0], Times(2, vs[1]), Times(3, vs[2]), Times(4, vs[3]));
            var t := CellTotal(vs[0], vs[1], vs[2], vs[3]);
            AbstractionCell(row, objects).Success? <==>
              w.Success? && t.Success? && Quotient(w.value, t.value, "DAV", objects).Success?
  {
  }

  /** The quotient of two partial sums of the same four cells: it raises
      on two strings, and on object columns on a zero sum of four
      numbers. */
  lemma QuotientOfSums(w: Cell, t: Cell, vs: seq<Cell>, objects: bool)
    requires |vs| == 4 && SumOf(w, vs) && SumOf(t, vs)
    requires vs[0].Num? && vs[1].Num? && vs[2].Num? && vs[3].Num? ==>
               t == Num(Total(vs[0].x, vs[1].x, vs[2].x, vs[3].x))
    ensures Quotient(w, t, "DAV", objects).Success? <==>
              && (Poisoned(vs) || !vs[0].Text?)
              && !(objects && vs[0].Num? && vs[1].Num? && vs[2].Num? && vs[3].Num? &&
                   Total(vs[0].x, vs[1].x, vs[2].x, vs[3].x) == 0.0)
  {
    if t.Num? {
      SumOfNumbers(t, vs);
    }
  }


  const SentenceColumn := "SENT"

  /** The `reading difficulty` cell of a row, from the column `words` and
      the sentence count. */
  function ReadingCell(row: Row, words: string, sqrt: Sqrt): (r: Result<Cell, Error>)
    requires IsSqrt(sqrt)
    ensures r.Success? <==>
              words in row && !row[words].Text? && SentenceColumn in row && !row[SentenceColumn].Text?
    ensures r.Success? && row[words].Num? && row[SentenceColumn].Num? ==>
              r.value == ReadingDifficulty(row[words].x, row[SentenceColumn].x, sqrt)
    ensures r.Success? && !(row[words].Num? && row[SentenceColumn].Num?) ==> r.value == NaN
  {
    var w :- Operand(row, words);
    var s :- Operand(row, SentenceColumn);
    if w.Some? && s.Some? then Success(ReadingDifficulty(w.value, s.value, sqrt))
    else Success(NaN)
  }

  /** Splits a text into sentences (`sent_tokenize`), given as a parameter. */
  type SentenceSplitter = string -> seq<string>

  const ResponseColumn := "response"

  /** The `SENT` cell: the number of sentences of the response; a TypeError
      when the response is not a string. */
  function SentenceCell(row: Row, split: SentenceSplitter): (r: Result<Cell, Error>)
    ensures r.Success? <==> ResponseColumn in row && row[ResponseColumn].Text?
    ensures r.Success? ==> r.value == Num(|split(row[ResponseColumn].s)| as real)
    ensures r.Failure? ==> r.error == (if ResponseColumn in row then NotText(ResponseColumn) else MissingColumn(ResponseColumn))
  {
    if ResponseColumn !in row then Failure(MissingColumn(ResponseColumn))
    else match row[ResponseColumn]
      case Text(s) => Success(Num(|split(s)| as real))
      case _ => Failure(NotText(ResponseColumn))
  }

  /** Assigning a column that is not an input of the abstraction formula
      does not change the formula's value. */
  lemma AbstractionCellFrame(row: Row, c: string, v: Cell, objects: bool)
    requires c !in AbstractionInputs
    ensures AbstractionCell(row[c := v], objects) == AbstractionCell(row, objects)
  {
    assert forall d :: d in AbstractionInputs ==> (d in row[c := v] <==> d in row);
    assert forall d :: d in AbstractionInputs && d in row ==> row[c := v][d] == row[d];
  }

  // ---------------------------------------------------------------------
  // The formulas as column assignments
  // ---------------------------------------------------------------------

  /** `df["SENT"] = df["response"].apply(lambda x: len(sent_tokenize(x)))`. */
  function SentenceStep(split: SentenceSplitter): (a: Assignment)
    ensures a.name == SentenceColumn && a.needed == [ResponseColumn]
    ensures forall row :: a.f(row) == SentenceCell(row, split)
  {
    Assignment(SentenceColumn, [ResponseColumn], row => SentenceCell(row, split))
  }

  /** `df["abstraction"] = (DAV + 2 IAV + 3 SV + 4 adj) / (DAV + IAV + SV + adj)`,
      on object columns when `objects`. */
  function AbstractionStep(objects: bool): (a: Assignment)
    ensures a.name == "abstraction" && a.needed == AbstractionInputs
    ensures forall row :: a.f(row) == AbstractionCell(row, objects)
  {
    Assignment("abstraction", AbstractionInputs, row => AbstractionCell(row, objects))
  }

  /** On a sheet with `DAV` and `IAV` but no `SV` column the abstraction
      assignment fails either way; it raises the TypeError of a row that
      mixes a string and a number in `DAV + 2 * IAV`, neither of them NaN,
      when there is one, and the KeyError for `SV` only otherwise. */
  lemma AbstractionErrorOrder(t: Table)
    requires WellFormed(t) && "DAV" in t.columns && "IAV" in t.columns && "SV" !in t.columns
    ensures var a := AbstractionStep(ObjectInputs(t));
      var r := Derive(t, a.name, a.needed, a.f);
      && r.Failure?
      && (r.error.NotNumeric? <==>
            exists i :: 0 <= i < |t.rows| && MixedPair(t.rows[i]["DAV"], t.rows[i]["IAV"]))
      && (!r.error.NotNumeric? ==> r.error == MissingColumn("SV"))
  {
    AbstractionErrorOrderAs(t, ObjectInputs(t));
  }

  /** The same, the formula running on objects or not as `objects` says. */
  lemma AbstractionErrorOrderAs(t: Table, objects: bool)
    requires WellFormed(t) && "DAV" in t.columns && "IAV" in t.columns && "SV" !in t.columns
    ensures var a := AbstractionStep(objects);
      var r := Derive(t, a.name, a.needed, a.f);
      && r.Failure?
      && (r.error.NotNumeric? <==>
            exists i :: 0 <= i < |t.rows| && MixedPair(t.rows[i]["DAV"], t.rows[i]["IAV"]))
      && (!r.error.NotNumeric? ==> r.error == MissingColumn("SV"))
  {
    var a := AbstractionStep(objects);
    var ins := AbstractionInputs;
    assert ins[0] == "DAV" && ins[1..][0] == "IAV" && ins[1..][1..][0] == "SV";
    assert FirstMissing(t.columns, ins[1..][1..]) == Some("SV");
    assert FirstMissing(t.columns, a.needed) == Some("SV");
    forall i | 0 <= i < |t.rows|
      ensures "DAV" in t.rows[i] && "IAV" in t.rows[i]
      ensures a.f(t.rows[i]) ==
                if MixedPair(t.rows[i]["DAV"], t.rows[i]["IAV"])
                then Failure(NotNumeric(if t.rows[i]["DAV"].Text? then "DAV" else "IAV"))
                else Failure(MissingColumn("SV"))
    {
      assert "DAV" in Names(t.columns) && "IAV" in Names(t.columns) && "SV" !in Names(t.columns);
      AbstractionCellWithoutSV(t.rows[i], objects);
    }
    var e := FirstEarlyError(t.rows, a.f);
    var r := Derive(t, a.name, a.needed, a.f);
    assert r == if e.Some? then Failure(e.value) else Failure(MissingColumn("SV"));
    if e.Some? {
      var i :| 0 <= i < |t.rows| && a.f(t.rows[i]) == Failure(e.value);
      assert MixedPair(t.rows[i]["DAV"], t.rows[i]["IAV"]);
    } else {
      forall i | 0 <= i < |t.rows|
        ensures !MixedPair(t.rows[i]["DAV"], t.rows[i]["IAV"])
      {
        assert a.f(t.rows[i]).Failure?;
      }
    }
  }


  /** A row with `DAV` and `IAV` but no `SV`: the TypeError of a mixed pair
      in `DAV + 2 * IAV`, and the KeyError for `SV` otherwise. */
  lemma AbstractionCellWithoutSV(row: Row, objects: bool)
    requires "DAV" in row && "IAV" in row && "SV" !in row
    ensures AbstractionCell(row, objects) ==
              if MixedPair(row["DAV"], row["IAV"])
              then Failure(NotNumeric(if row["DAV"].Text? then "DAV" else "IAV"))
              else Failure(MissingColumn("SV"))
  {
  }

  /** A sheet whose first row has a string masked by a NaN and whose second
      row is all zeros: the string makes the columns objects, so the second
      row's zero denominator raises; without the string the same zeros give
      NaN. */
  lemma ZeroTotalOnObjects()
    ensures var masked: Row := map["DAV" := NaN, "IAV" := Text("x"), "SV" := Num(1.0), "adj" := Num(1.0)];
            var zeros: Row := map["DAV" := Num(0.0), "IAV" := Num(0.0), "SV" := Num(0.0), "adj" := Num(0.0)];
            var t := Table(AbstractionInputs, [masked, zeros]);
            && ObjectInputs(t)
            && AbstractionCell(masked, true) == Success(NaN)
            && AbstractionCell(zeros, true) == Failure(ZeroDivision)
            && AbstractionCell(zeros, false) == Success(NaN)
  {
    var masked: Row := map["DAV" := NaN, "IAV" := Text("x"), "SV" := Num(1.0), "adj" := Num(1.0)];
    var zeros: Row := map["DAV" := Num(0.0), "IAV" := Num(0.0), "SV" := Num(0.0), "adj" := Num(0.0)];
    var t := Table(AbstractionInputs, [masked, zeros]);
    assert HoldsText(t.rows[0]);
    assert ZeroTotal(zeros);
  }

  /** `dav + 2 * iav` raises: one side is a string, the other a number or
      an infinity. */
  predicate MixedPair(dav: Cell, iav: Cell) {
    !dav.NaN? && !iav.NaN? && dav.Text? != iav.Text?
  }

  /** `df["reading difficulty"] = 1.043 * df[words].pow(1.0 / 2) * 30 / df["SENT"] + 3.1291`. */
  function ReadingStep(words: string, sqrt: Sqrt): (a: Assignment)
    requires IsSqrt(sqrt)
    ensures a.name == "reading difficulty" && a.needed == [words, SentenceColumn]
    ensures forall row :: a.f(row) == ReadingCell(row, words, sqrt)
  {
    Assignment("reading difficulty", [words, SentenceColumn], row => ReadingCell(row, words, sqrt))
  }
}

=== FILE: group_stats.dfy ===
/** The statistical post-processing of text_feature_analysis/utils.py:
    splitting a feature table by the `gender` group, per-feature Wilcoxon
    p-values sorted ascending, and normalised male-minus-female mean
    differences ranked by magnitude.

    An ordered Python dict is a sequence of `Entry` values with distinct
    features. The Wilcoxon signed-rank test itself is a parameter. */
module GroupStats {
  import opened Wrappers
  import opened Tables
  import opened Stats
  import opened StableSort

  /** A float-typed frame, the result of `df[cols].astype("float")`. */
  datatype Frame = Frame(columns: seq<string>, rows: seq<map<string, real>>)

  predicate FrameWellFormed(f: Frame) {
    forall i :: 0 <= i < |f.rows| ==> f.rows[i].Keys == Names(f.columns)
  }

  /** The values of one column, top to bottom (`np.array(df[c])`). */
  function Column(f: Frame, c: string): (col: seq<real>)
    requires FrameWellFormed(f) && c in f.columns
    ensures |col| == |f.rows|
    ensures forall i :: 0 <= i < |f.rows| ==> col[i] == f.rows[i][c]
  {
    seq(|f.rows|, i requires 0 <= i < |f.rows| => f.rows[i][c])
  }

  /** One key/value pair of an ordered dict from feature name to statistic. */
  datatype Entry = Entry(feature: string, value: real)

  function Features(d: seq<Entry>): (r: seq<string>)
    ensures |r| == |d|
    ensures forall k :: 0 <= k < |d| ==> r[k] == d[k].feature
  {
    seq(|d|, k requires 0 <= k < |d| => d[k].feature)
  }

  // ---------------------------------------------------------------------
  // prepare_dfs
  // ---------------------------------------------------------------------

  const GenderColumn := "gender"

  predicate Labelled(r: Row, group: string) {
    GenderColumn in r && r[GenderColumn] == Text(group)
  }

  /** The positions, in increasing order, of the first `n` rows carrying
      `group` (the boolean mask `df["gender"] == group`). */
  function LabelledIndices(rows: seq<Row>, group: string, n: nat): (r: seq<nat>)
    requires n <= |rows|
    ensures forall k :: 0 <= k < |r| ==> r[k] < n
    ensures forall k, l :: 0 <= k < l < |r| ==> r[k] < r[l]
    ensures forall i :: 0 <= i < n ==> (i in r <==> Labelled(rows[i], group))
  {
    if n == 0 then []
    else
      var prefix := LabelledIndices(rows, group, n - 1);
      if Labelled(rows[n - 1], group) then prefix + [n - 1] else prefix
  }

  /** Every requested cell is a number or a string: no missing or infinite
      values (the model covers complete, finite columns). */
  predicate Complete(t: Table, cols: seq<string>) {
    forall i, c :: 0 <= i < |t.rows| && c in cols && c in t.rows[i] ==> Defined(t.rows[i][c])
  }

  /** The row restricted to `cols`, as floats. */
  function Project(r: Row, cols: seq<string>): (p: map<string, real>)
    requires forall c :: c in cols ==> c in r && r[c].Num?
    ensures p.Keys == Names(cols)
    ensures forall c :: c in cols ==> p[c] == r[c].x
  {
    map c | c in Names(cols) :: r[c].x
  }

  /** The first of `cols` holding a string in row `r`, if any. */
  function FirstText(r: Row, cols: seq<string>): (c: Option<string>)
    requires forall c :: c in cols ==> c in r && Defined(r[c])
    ensures c.None? <==> forall c :: c in cols ==> r[c].Num?
  {
    if |cols| == 0 then None
    else if r[cols[0]].Text? then Some(cols[0])
    else
      assert Defined(r[cols[0]]);
      FirstText(r, cols[1..])
  }

  /** `.astype("float")` on the selected rows. */
  function CastRows(rows: seq<Row>, cols: seq<string>): (r: Result<seq<map<string, real>>, Error>)
    requires forall k, c :: 0 <= k < |rows| && c in cols ==> c in rows[k] && Defined(rows[k][c])
    ensures r.Success? <==> forall k, c :: 0 <= k < |rows| && c in cols ==> rows[k][c].Num?
    ensures r.Success? ==> |r.value| == |rows|
    ensures r.Success? ==> forall k :: 0 <= k < |rows| ==> r.value[k] == Project(rows[k], cols)
  {
    if |rows| == 0 then Success([])
    else match FirstText(rows[0], cols)
      case Some(c) => Failure(NotNumeric(c))
      case None =>
        var rest :- CastRows(rows[1..], cols);
        assert forall k :: 1 <= k < |rows| ==> rows[1..][k - 1] == rows[k];
        Success([Project(rows[0], cols)] + rest)
  }

  /** `df[df["gender"] == group][cols].astype("float")`: the float cast fails
      on a string cell of a selected row. */
  function SelectGroup(t: Table, cols: seq<string>, group: string): (r: Result<Frame, Error>)
    requires WellFormed(t) && Complete(t, cols)
    requires GenderColumn in t.columns && forall c :: c in cols ==> c in t.columns
    ensures r.Success? ==> FrameWellFormed(r.value) && r.value.columns == cols
  {
    var idx := LabelledIndices(t.rows, group, |t.rows|);
    var selected: seq<Row> := seq(|idx|, k requires 0 <= k < |idx| => t.rows[idx[k]]);
    var rows :- CastRows(selected, cols);
    Success(Frame(cols, rows))
  }

  /** Every requested cell of a row labelled `group` is a number. */
  predicate NumericGroup(t: Table, cols: seq<string>, group: string)
    requires WellFormed(t) && forall c :: c in cols ==> c in t.columns
  {
    forall k, c :: 0 <= k < |t.rows| && Labelled(t.rows[k], group) && c in cols ==> t.rows[k][c].Num?
  }

  lemma SelectGroupSucceeds(t: Table, cols: seq<string>, group: string)
    requires WellFormed(t) && Complete(t, cols)
    requires GenderColumn in t.columns && forall c :: c in cols ==> c in t.columns
    ensures SelectGroup(t, cols, group).Success? <==> NumericGroup(t, cols, group)
  {
    var idx := LabelledIndices(t.rows, group, |t.rows|);
    var selected: seq<Row> := seq(|idx|, k requires 0 <= k < |idx| => t.rows[idx[k]]);
    if NumericGroup(t, cols, group) {
      forall k, c | 0 <= k < |selected| && c in cols ensures selected[k][c].Num? {
        assert Labelled(t.rows[idx[k]], group);
      }
    } else {
      var k, c :| 0 <= k < |t.rows| && Labelled(t.rows[k], group) && c in cols && !t.rows[k][c].Num?;
      assert k in idx;
      var j :| 0 <= j < |idx| && idx[j] == k;
      assert !selected[j][c].Num?;
    }
  }

  /** prepare_dfs: the female frame, then the male frame. */
  function PrepareFrames(t: Table, cols: seq<string>): (r: Result<(Frame, Frame), Error>)
    requires WellFormed(t) && Complete(t, cols)
    ensures GenderColumn !in t.columns ==> r == Failure(MissingColumn(GenderColumn))
    ensures GenderColumn in t.columns && (exists c :: c in cols && c !in t.columns) ==>
              r.Failure? && r.error.MissingColumn? && r.error.name in cols && r.error.name !in t.columns
    ensures r.Success? <==>
              && GenderColumn in t.columns
              && (forall c :: c in cols ==> c in t.columns)
              && NumericGroup(t, cols, "female") && NumericGroup(t, cols, "male")
    ensures r.Success? ==> FrameWellFormed(r.value.0) && FrameWellFormed(r.value.1)
    ensures r.Success? ==> r.value.0.columns == cols && r.value.1.columns == cols
    ensures r.Success? ==> GroupOf(t, cols, "female", r.value.0) && GroupOf(t, cols, "male", r.value.1)
  {
    if GenderColumn !in t.columns then Failure(MissingColumn(GenderColumn))
    else match FirstMissing(t.columns, cols)
      case Some(c) => Failure(MissingColumn(c))
      case None =>
        SelectGroupSucceeds(t, cols, "female");
        SelectGroupSucceeds(t, cols, "male");
        var female :- SelectGroup(t, cols, "female");
        var male :- SelectGroup(t, cols, "male");
        SelectGroupRows(t, cols, "female");
        SelectGroupRows(t, cols, "male");
        Success((female, male))
  }

  /** `f` holds, in source order, the projections of exactly the rows of `t`
      labelled `group`: there is a strictly increasing list of source
      positions, containing every labelled position and no other. */
  ghost predicate GroupOf(t: Table, cols: seq<string>, group: string, f: Frame) {
    exists idx: seq<nat> ::
      && |idx| == |f.rows|
      && (forall k, l :: 0 <= k < l < |idx| ==> idx[k] < idx[l])
      && (forall k :: 0 <= k < |idx| ==> idx[k] < |t.rows|)
      && (forall i :: 0 <= i < |t.rows| ==> (i in idx <==> Labelled(t.rows[i], group)))
      && (forall k, c :: 0 <= k < |idx| && c in cols ==>
            c in t.rows[idx[k]] && c in f.rows[k] && t.rows[idx[k]][c] == Num(f.rows[k][c]))
  }

  lemma SelectGroupRows(t: Table, cols: seq<string>, group: string)
    requires WellFormed(t) && Complete(t, cols)
    requires GenderColumn in t.columns && forall c :: c in cols ==> c in t.columns
    requires SelectGroup(t, cols, group).Success?
    ensures GroupOf(t, cols, group, SelectGroup(t, cols, group).value)
  {
    var idx := LabelledIndices(t.rows, group, |t.rows|);
    var selected: seq<Row> := seq(|idx|, k requires 0 <= k < |idx| => t.rows[idx[k]]);
    var f := SelectGroup(t, cols, group).value;
    var cast := CastRows(selected, cols);
    assert f.rows == cast.value;
    forall k, c | 0 <= k < |idx| && c in cols
      ensures c in t.rows[idx[k]] && c in f.rows[k] && t.rows[idx[k]][c] == Num(f.rows[k][c])
    {
      assert selected[k] == t.rows[idx[k]];
      assert f.rows[k] == Project(selected[k], cols);
    }
    GroupWitness(t, cols, group, f, idx);
  }

  /** `idx` witnesses `GroupOf`. */
  lemma GroupWitness(t: Table, cols: seq<string>, group: string, f: Frame, idx: seq<nat>)
    requires |idx| == |f.rows|
    requires forall k, l :: 0 <= k < l < |idx| ==> idx[k] < idx[l]
    requires forall k :: 0 <= k < |idx| ==> idx[k] < |t.rows|
    requires forall i :: 0 <= i < |t.rows| ==> (i in idx <==> Labelled(t.rows[i], group))
    requires forall k, c :: 0 <= k < |idx| && c in cols ==>
               c in t.rows[idx[k]] && c in f.rows[k] && t.rows[idx[k]][c] == Num(f.rows[k][c])
    ensures GroupOf(t, cols, group, f)
  {
  }

  // ---------------------------------------------------------------------
  // Feature order: dict keys in first-insertion order
  // ---------------------------------------------------------------------

  /** The distinct names of `s`, each at its first occurrence: the key order
      of a dict filled by `for feature in s: d[feature] = ...`. */
  function Dedup(s: seq<string>): (r: seq<string>)
    ensures Distinct(r)
    ensures forall x :: x in r <==> x in s
    decreases |s|
  {
    if |s| == 0 then []
    else
      var prefix := Dedup(s[..|s| - 1]);
      assert forall x :: x in s <==> x in s[..|s| - 1] || x == s[|s| - 1] by {
        assert s == s[..|s| - 1] + [s[|s| - 1]];
      }
      if s[|s| - 1] in prefix then prefix else prefix + [s[|s| - 1]]
  }

  /** Every name of `fs` occurs in `cols`, and `fs` lists them by strictly
      increasing first position in `cols`. */
  predicate OrderedAsIn(fs: seq<string>, cols: seq<string>) {
    && (forall a :: 0 <= a < |fs| ==> fs[a] in cols)
    && (forall a, b :: 0 <= a < b < |fs| ==> IndexOf(cols, fs[a]) < IndexOf(cols, fs[b]))
  }

  lemma IndexOfPrefix(s: seq<string>, n: nat, x: string)
    requires n <= |s| && x in s[..n]
    ensures IndexOf(s, x) == IndexOf(s[..n], x)
  {
    var i := IndexOf(s[..n], x);
    assert s[i] == x;
  }

  /** The dict keeps each feature at the position of its first insertion. */
  lemma {:induction false} DedupOrdered(s: seq<string>)
    ensures OrderedAsIn(Dedup(s), s)
    decreases |s|
  {
    if |s| > 0 {
      var n := |s| - 1;
      DedupOrdered(s[..n]);
      OrderedInLonger(Dedup(s[..n]), s, n);
      if s[n] !in Dedup(s[..n]) {
        OrderedAppendNew(Dedup(s[..n]), s);
      }
    }
  }

  /** Ordering by first position in a prefix of `s` is ordering in `s`. */
  lemma OrderedInLonger(fs: seq<string>, s: seq<string>, n: nat)
    requires n <= |s| && OrderedAsIn(fs, s[..n])
    ensures OrderedAsIn(fs, s)
    ensures forall a :: 0 <= a < |fs| ==> IndexOf(s, fs[a]) < n
  {
    forall a | 0 <= a < |fs| ensures fs[a] in s && IndexOf(s, fs[a]) == IndexOf(s[..n], fs[a]) {
      IndexOfPrefix(s, n, fs[a]);
    }
  }

  lemma FreshLastIndex(s: seq<string>)
    requires |s| > 0 && s[|s| - 1] !in s[..|s| - 1]
    ensures IndexOf(s, s[|s| - 1]) == |s| - 1
  {
  }

  /** Appending the last name of `s`, absent so far, keeps the order. */
  lemma OrderedAppendNew(fs: seq<string>, s: seq<string>)
    requires |s| > 0 && s[|s| - 1] !in s[..|s| - 1]
    requires OrderedAsIn(fs, s)
    requires forall a :: 0 <= a < |fs| ==> IndexOf(s, fs[a]) < |s| - 1
    ensures OrderedAsIn(fs + [s[|s| - 1]], s)
  {
    FreshLastIndex(s);
    OrderedAppend(fs, s[|s| - 1], s);
  }

  /** A name placed after every name of `fs` may be appended to it. */
  lemma OrderedAppend(fs: seq<string>, x: string, s: seq<string>)
    requires OrderedAsIn(fs, s) && x in s
    requires forall a :: 0 <= a < |fs| ==> IndexOf(s, fs[a]) < IndexOf(s, x)
    ensures OrderedAsIn(fs + [x], s)
  {
    var r := fs + [x];
    assert forall a :: 0 <= a < |fs| ==> r[a] == fs[a];
    assert r[|fs|] == x;
  }

  // ---------------------------------------------------------------------
  // compute_wilcoxon_pvalues
  // ---------------------------------------------------------------------

  /** A two-sided paired test (scipy's `wilcoxon`): the p-value, or None
      when the test raises a ValueError, as it does for samples of unequal
      length. */
  type PairedTest = (seq<real>, seq<real>) -> Option<real>

  /** The test rejects every pair of samples of unequal length. */
  ghost predicate RejectsUnequalLengths(test: PairedTest) {
    forall x, y :: |x| != |y| ==> test(x, y).None?
  }

  /** Feature `c` is in both frames and the test accepts its two columns. */
  predicate Testable(female: Frame, male: Frame, c: string, test: PairedTest)
    requires FrameWellFormed(female) && FrameWellFormed(male)
  {
    c in female.columns && c in male.columns && test(Column(female, c), Column(male, c)).Some?
  }

  /** The first feature of `cols`, by position, that cannot be tested. */
  function FirstUntestable(female: Frame, male: Frame, cols: seq<string>, test: PairedTest): (r: Option<nat>)
    requires FrameWellFormed(female) && FrameWellFormed(male)
    ensures r.None? <==> forall c :: c in cols ==> Testable(female, male, c, test)
    ensures r.Some? ==> r.value < |cols| && !Testable(female, male, cols[r.value], test)
    ensures r.Some? ==> forall j :: 0 <= j < r.value ==> Testable(female, male, cols[j], test)
  {
    if |cols| == 0 then None
    else if !Testable(female, male, cols[0], test) then Some(0)
    else match FirstUntestable(female, male, cols[1..], test)
      case None => None
      case Some(k) => Some(k + 1)
  }

  /** The exception feature `c` raises when it cannot be tested: a KeyError
      from a frame that lacks it, otherwise the test's ValueError. */
  function TestError(female: Frame, male: Frame, c: string): Error {
    if c in female.columns && c in male.columns then InvalidSample(c) else MissingColumn(c)
  }

  function PValueEntries(female: Frame, male: Frame, feats: seq<string>, test: PairedTest): (d: seq<Entry>)
    requires FrameWellFormed(female) && FrameWellFormed(male)
    requires forall c :: c in feats ==> Testable(female, male, c, test)
    ensures Features(d) == feats
    ensures forall e :: e in d ==>
              e.feature in female.columns && e.feature in male.columns
              && test(Column(female, e.feature), Column(male, e.feature)) == Some(e.value)
  {
    assert forall k :: 0 <= k < |feats| ==> Testable(female, male, feats[k], test) by {
      forall k | 0 <= k < |feats| ensures Testable(female, male, feats[k], test) {
        assert feats[k] in feats;
      }
    }
    var d := seq(|feats|, k requires 0 <= k < |feats| =>
      Entry(feats[k], test(Column(female, feats[k]), Column(male, feats[k])).value));
    assert Features(d) == feats;
    d
  }

  function PValueKey(e: Entry): real {
    e.value
  }

  /** compute_wilcoxon_pvalues: features are tested in the requested order;
      the first one absent from a frame raises a KeyError and the first one
      the test rejects raises its ValueError. Otherwise every feature's
      p-value, stably sorted ascending. */
  function WilcoxonPValues(female: Frame, male: Frame, cols: seq<string>, test: PairedTest): (r: Result<seq<Entry>, Error>)
    requires FrameWellFormed(female) && FrameWellFormed(male)
    ensures r.Success? <==> forall c :: c in cols ==> Testable(female, male, c, test)
    ensures r.Failure? ==>
              exists k :: 0 <= k < |cols| && !Testable(female, male, cols[k], test)
                && (forall j :: 0 <= j < k ==> Testable(female, male, cols[j], test))
                && (cols[k] in female.columns && cols[k] in male.columns ==> r.error == InvalidSample(cols[k]))
                && (cols[k] !in female.columns || cols[k] !in male.columns ==> r.error == MissingColumn(cols[k]))
  {
    match FirstUntestable(female, male, cols, test)
    case Some(k) => Failure(TestError(female, male, cols[k]))
    case None => Success(SortBy(PValueEntries(female, male, Dedup(cols), test), PValueKey))
  }

  /** A test that rejects samples of unequal length fails on groups of
      different sizes: the first requested feature raises, so a p-value
      table comes out only for an empty feature list. */
  lemma UnequalGroupsFail(female: Frame, male: Frame, cols: seq<string>, test: PairedTest)
    requires FrameWellFormed(female) && FrameWellFormed(male)
    requires RejectsUnequalLengths(test) && |female.rows| != |male.rows|
    ensures WilcoxonPValues(female, male, cols, test).Success? <==> |cols| == 0
    ensures |cols| > 0 ==>
              WilcoxonPValues(female, male, cols, test).error
                == if cols[0] in female.columns && cols[0] in male.columns
                   then InvalidSample(cols[0]) else MissingColumn(cols[0])
  {
    if |cols| > 0 {
      var c := cols[0];
      if c in female.columns && c in male.columns {
        assert |Column(female, c)| != |Column(male, c)|;
      }
      assert !Testable(female, male, c, test);
    }
  }

  /** The keys are exactly the distinct requested features, each bound to the
      p-value the test gives for its female and male columns. */
  lemma WilcoxonPValuesContents(female: Frame, male: Frame, cols: seq<string>, test: PairedTest)
    requires FrameWellFormed(female) && FrameWellFormed(male)
    requires WilcoxonPValues(female, male, cols, test).Success?
    ensures var r := WilcoxonPValues(female, male, cols, test).value;
      && Distinct(Features(r))
      && (forall f :: f in Features(r) <==> f in cols)
      && (forall k :: 0 <= k < |r| ==>
            && r[k].feature in female.columns && r[k].feature in male.columns
            && test(Column(female, r[k].feature), Column(male, r[k].feature)) == Some(r[k].value))
  {
    var d := PValueEntries(female, male, Dedup(cols), test);
    var r := SortBy(d, PValueKey);
    PermutationMembers(r, d);
    FeaturesOfMembers(r, d);
    DistinctFeatures(d);
    SortDistinct(d, PValueKey);
    PermutationKeepsFeatures(r, d);
    forall k | 0 <= k < |r|
      ensures && r[k].feature in female.columns && r[k].feature in male.columns
              && test(Column(female, r[k].feature), Column(male, r[k].feature)) == Some(r[k].value)
    {
      assert r[k] in r;
    }
  }

  /** A permutation has the same members. */
  lemma PermutationMembers<T>(r: seq<T>, d: seq<T>)
    requires multiset(r) == multiset(d)
    ensures forall e :: e in r <==> e in d
  {
    forall e ensures e in r <==> e in d {
      assert e in r <==> e in multiset(r);
      assert e in d <==> e in multiset(d);
    }
  }

  /** Entry lists with the same members have the same features. */
  lemma FeaturesOfMembers(r: seq<Entry>, d: seq<Entry>)
    requires forall e :: e in r <==> e in d
    ensures forall f :: f in Features(r) <==> f in Features(d)
  {
    forall f | f in Features(r) ensures f in Features(d) {
      var k :| 0 <= k < |r| && Features(r)[k] == f;
      assert r[k] in r;
      var j :| 0 <= j < |d| && d[j] == r[k];
      assert Features(d)[j] == f;
    }
    forall f | f in Features(d) ensures f in Features(r) {
      var k :| 0 <= k < |d| && Features(d)[k] == f;
      assert d[k] in d;
      var j :| 0 <= j < |r| && r[j] == d[k];
      assert Features(r)[j] == f;
    }
  }

  /** Distinct features make distinct entries. */
  lemma DistinctFeatures(d: seq<Entry>)
    requires Distinct(Features(d))
    ensures Distinct(d)
  {
    forall a, b | 0 <= a < b < |d| ensures d[a] != d[b] {
      assert Features(d)[a] != Features(d)[b];
    }
  }

  /** A permutation of entries with distinct features has distinct features. */
  lemma PermutationKeepsFeatures(r: seq<Entry>, d: seq<Entry>)
    requires multiset(r) == multiset(d) && Distinct(Features(d)) && Distinct(r)
    ensures Distinct(Features(r))
  {
    forall a, b | 0 <= a < b < |r| ensures r[a].feature != r[b].feature {
      assert r[a] in multiset(d) && r[b] in multiset(d);
      var i :| 0 <= i < |d| && d[i] == r[a];
      var j :| 0 <= j < |d| && d[j] == r[b];
      if i != j {
        assert Features(d)[i] != Features(d)[j];
      }
    }
  }

  /** The p-values are in non-decreasing order. */
  lemma WilcoxonPValuesSorted(female: Frame, male: Frame, cols: seq<string>, test: PairedTest)
    requires FrameWellFormed(female) && FrameWellFormed(male)
    requires WilcoxonPValues(female, male, cols, test).Success?
    ensures var r := WilcoxonPValues(female, male, cols, test).value;
      forall i, j :: 0 <= i < j < |r| ==> r[i].value <= r[j].value
  {
    var d := PValueEntries(female, male, Dedup(cols), test);
    SortSorted(d, PValueKey);
    var r := SortBy(d, PValueKey);
    assert forall i, j :: 0 <= i < j < |r| ==> PValueKey(r[i]) <= PValueKey(r[j]);
  }

  /** Equal p-values keep the order of the requested feature list. */
  lemma WilcoxonPValuesStable(female: Frame, male: Frame, cols: seq<string>, test: PairedTest)
    requires FrameWellFormed(female) && FrameWellFormed(male)
    ensures WilcoxonPValues(female, male, cols, test).Success? ==>
      var r := WilcoxonPValues(female, male, cols, test).value;
      forall i, j :: 0 <= i < j < |r| && r[i].value == r[j].value ==>
        r[i].feature in cols && r[j].feature in cols
        && IndexOf(cols, r[i].feature) < IndexOf(cols, r[j].feature)
  {
    if WilcoxonPValues(female, male, cols, test).Success? {
      var feats := Dedup(cols);
      DedupOrdered(cols);
      var d := PValueEntries(female, male, feats, test);
      var r := SortBy(d, PValueKey);
      forall i, j | 0 <= i < j < |r| && r[i].value == r[j].value
        ensures r[i].feature in cols && r[j].feature in cols
        ensures IndexOf(cols, r[i].feature) < IndexOf(cols, r[j].feature)
      {
        TieOrderThroughFeatures(d, PValueKey, cols, i, j);
      }
    }
  }

  /** Ties of a stable sort keep the column order of the features. */
  lemma TieOrderThroughFeatures(d: seq<Entry>, key: Entry -> real, cols: seq<string>, i: nat, j: nat)
    requires OrderedAsIn(Features(d), cols)
    ensures var r := SortBy(d, key);
      i < j < |r| && key(r[i]) == key(r[j]) ==>
        r[i].feature in cols && r[j].feature in cols
        && IndexOf(cols, r[i].feature) < IndexOf(cols, r[j].feature)
  {
    var r := SortBy(d, key);
    if i < j < |r| && key(r[i]) == key(r[j]) {
      forall a, b | 0 <= a < b < |d| ensures d[a] != d[b] {
        assert Features(d)[a] != Features(d)[b];
      }
      SortKeepsTieOrder(d, key, i, j);
      var a, b := IndexOf(d, r[i]), IndexOf(d, r[j]);
      assert Features(d)[a] == r[i].feature && Features(d)[b] == r[j].feature;
    }
  }

  // ---------------------------------------------------------------------
  // compute_mean_differences
  // ---------------------------------------------------------------------

  function RealMax(a: real, b: real): real {
    if a >= b then a else b
  }

  function RealMin(a: real, b: real): real {
    if a <= b then a else b
  }

  function Abs(x: real): (r: real)
    ensures r >= 0.0 && (r == x || r == -x)
  {
    if x >= 0.0 then x else -x
  }

  /** `max(female.max(), male.max()) - min(female.min(), male.min())`. */
  function CombinedRange(male: seq<real>, female: seq<real>): (r: real)
    requires |male| > 0 && |female| > 0
    ensures r >= 0.0
  {
    RealMax(Max(female), Max(male)) - RealMin(Min(female), Min(male))
  }

  /** The normalised difference of one feature; `None` where the source gets
      NaN: an empty group (the mean of no values), or a zero combined range. */
  function NormalizedDifference(male: seq<real>, female: seq<real>): (r: Option<real>)
    ensures r.None? <==> |male| == 0 || |female| == 0 || CombinedRange(male, female) == 0.0
    ensures r.Some? ==> r.value == Divide(Mean(male) - Mean(female), CombinedRange(male, female))
  {
    if |male| == 0 || |female| == 0 then None
    else
      var range := CombinedRange(male, female);
      if range == 0.0 then None
      else Some(Divide(Mean(male) - Mean(female), range))
  }

  /** Real division, characterised by multiplication. */
  function Divide(d: real, range: real): (q: real)
    requires range != 0.0
    ensures q * range == d
  {
    d / range
  }

  /** A quotient whose numerator is bounded by its positive denominator lies
      in [-1, 1] and has the numerator's sign. */
  lemma RatioBounds(range: real, d: real)
    requires range > 0.0 && -range <= d <= range
    ensures -1.0 <= Divide(d, range) <= 1.0
    ensures (Divide(d, range) > 0.0 <==> d > 0.0) && (Divide(d, range) < 0.0 <==> d < 0.0)
  {
    var v := Divide(d, range);
    assert v * range == d;
  }

  /** With real arithmetic a zero combined range means every value is the same,
      so the mean difference is 0 and the source divides 0 by 0 (NaN, which is
      dropped), never a non-zero number by 0 (an infinity, which would not be). */
  lemma ZeroRangeZeroDifference(male: seq<real>, female: seq<real>)
    requires |male| > 0 && |female| > 0 && CombinedRange(male, female) == 0.0
    ensures Mean(male) == Mean(female)
  {
    var c := Max(male);
    assert forall i :: 0 <= i < |male| ==> male[i] == c;
    assert forall i :: 0 <= i < |female| ==> female[i] == c;
    MeanOfConstant(male, c);
    MeanOfConstant(female, c);
  }

  /** |normalised difference| <= 1, and its sign is the sign of the
      male-minus-female mean difference. */
  lemma NormalizedDifferenceBounds(male: seq<real>, female: seq<real>)
    requires NormalizedDifference(male, female).Some?
    ensures var v := NormalizedDifference(male, female).value;
      && -1.0 <= v <= 1.0
      && (v > 0.0 <==> Mean(male) > Mean(female))
      && (v < 0.0 <==> Mean(male) < Mean(female))
  {
    var v := NormalizedDifference(male, female).value;
    var range := CombinedRange(male, female);
    var d := Mean(male) - Mean(female);
    MeanDifferenceWithinRange(male, female);
    RatioBounds(range, d);
  }

  /** Both means lie between the combined minimum and maximum. */
  lemma MeanDifferenceWithinRange(male: seq<real>, female: seq<real>)
    requires |male| > 0 && |female| > 0
    ensures -CombinedRange(male, female) <= Mean(male) - Mean(female) <= CombinedRange(male, female)
  {
    var lo, hi := RealMin(Min(female), Min(male)), RealMax(Max(female), Max(male));
    assert lo <= Min(male) <= Mean(male) <= Max(male) <= hi;
    assert lo <= Min(female) <= Mean(female) <= Max(female) <= hi;
  }

  /** The normalised difference of feature `f` (`None` also for a feature
      absent from a frame, which the callers rule out beforehand). */
  function FeatureDifference(male: Frame, female: Frame, f: string): Option<real>
    requires FrameWellFormed(male) && FrameWellFormed(female)
  {
    if f in male.columns && f in female.columns
    then NormalizedDifference(Column(male, f), Column(female, f))
    else None
  }

  /** The per-feature statistic of `compute_mean_differences`, as a value. */
  function DifferenceOf(male: Frame, female: Frame): (stat: string -> Option<real>)
    requires FrameWellFormed(male) && FrameWellFormed(female)
    ensures forall f :: stat(f) == FeatureDifference(male, female, f)
  {
    f => FeatureDifference(male, female, f)
  }

  /** The features of `feats` whose statistic is defined, with their values,
      in the order of `feats` (`if not pd.isna(value)`). */
  function DefinedEntries(feats: seq<string>, stat: string -> Option<real>): (r: seq<Entry>)
    ensures forall e :: e in r <==> e.feature in feats && stat(e.feature) == Some(e.value)
  {
    if |feats| == 0 then []
    else
      var f := feats[0];
      var rest := DefinedEntries(feats[1..], stat);
      assert forall x :: x in feats <==> x == f || x in feats[1..];
      match stat(f)
      case None => rest
      case Some(v) => [Entry(f, v)] + rest
  }

  lemma {:induction false} DefinedEntriesOrdered(feats: seq<string>, stat: string -> Option<real>, cols: seq<string>)
    requires OrderedAsIn(feats, cols)
    ensures OrderedAsIn(Features(DefinedEntries(feats, stat)), cols)
  {
    if |feats| > 0 {
      var f := feats[0];
      var rest := DefinedEntries(feats[1..], stat);
      DefinedEntriesOrdered(feats[1..], stat, cols);
      var r := DefinedEntries(feats, stat);
      if stat(f).Some? {
        assert r == [Entry(f, stat(f).value)] + rest;
        forall b | 0 <= b < |rest| ensures IndexOf(cols, f) < IndexOf(cols, rest[b].feature) {
          assert rest[b] in rest;
          var m :| 0 <= m < |feats[1..]| && feats[1..][m] == rest[b].feature;
          assert feats[m + 1] == rest[b].feature;
        }
        ConsOrdered(Entry(f, stat(f).value), rest, cols);
      }
    }
  }

  lemma ConsOrdered(e: Entry, rest: seq<Entry>, cols: seq<string>)
    requires e.feature in cols && OrderedAsIn(Features(rest), cols)
    requires forall b :: 0 <= b < |rest| ==> IndexOf(cols, e.feature) < IndexOf(cols, rest[b].feature)
    ensures OrderedAsIn(Features([e] + rest), cols)
  {
    var r := [e] + rest;
    forall a | 0 <= a < |r| ensures r[a].feature in cols {
      if a > 0 {
        assert r[a] == rest[a - 1] && Features(rest)[a - 1] == rest[a - 1].feature;
      }
    }
    forall a, b | 0 <= a < b < |r| ensures IndexOf(cols, r[a].feature) < IndexOf(cols, r[b].feature) {
      assert r[b] == rest[b - 1];
      if a > 0 {
        assert r[a] == rest[a - 1];
        assert Features(rest)[a - 1] == r[a].feature && Features(rest)[b - 1] == r[b].feature;
      }
    }
  }

  /** The defined normalised differences, in requested-feature order: the
      sequence that `compute_mean_differences` sorts. */
  function DefinedDifferences(male: Frame, female: Frame, cols: seq<string>): seq<Entry>
    requires FrameWellFormed(male) && FrameWellFormed(female)
  {
    DefinedEntries(Dedup(cols), DifferenceOf(male, female))
  }

  /** Sort key for `sorted(..., key=abs, reverse=True)`. */
  function MagnitudeKey(e: Entry): real {
    -Abs(e.value)
  }

  /** The first of `needed` absent from frame `a` or, failing that, from `b`. */
  function FirstAbsent(a: Frame, b: Frame, needed: seq<string>): (r: Option<string>)
    ensures r.None? <==> forall c :: c in needed ==> c in a.columns && c in b.columns
    ensures r.Some? ==> r.value in needed && (r.value !in a.columns || r.value !in b.columns)
  {
    if |needed| == 0 then None
    else if needed[0] !in a.columns || needed[0] !in b.columns then Some(needed[0])
    else FirstAbsent(a, b, needed[1..])
  }

  /** Name `c` labels more than one column, so that `df[c]` is a frame
      and its `max()` a series, whose truth value `max(...)` cannot take. */
  predicate Repeated(columns: seq<string>, c: string) {
    exists i, j :: 0 <= i < j < |columns| && columns[i] == c && columns[j] == c
  }

  /** The first of `needed` that labels several columns of either frame. */
  function FirstRepeated(a: Frame, b: Frame, needed: seq<string>): (r: Option<string>)
    ensures r.None? <==> forall c :: c in needed ==> !Repeated(a.columns, c) && !Repeated(b.columns, c)
    ensures r.Some? ==> r.value in needed && (Repeated(a.columns, r.value) || Repeated(b.columns, r.value))
  {
    if |needed| == 0 then None
    else if Repeated(a.columns, needed[0]) || Repeated(b.columns, needed[0]) then Some(needed[0])
    else FirstRepeated(a, b, needed[1..])
  }

  /** compute_mean_differences(male_df, female_df, cols): a KeyError for a
      feature absent from the male or the female frame, then a ValueError
      for a feature that labels several columns of either frame, otherwise
      the defined normalised differences ranked by descending magnitude. */
  function MeanDifferences(male: Frame, female: Frame, cols: seq<string>): (r: Result<seq<Entry>, Error>)
    requires FrameWellFormed(male) && FrameWellFormed(female)
    ensures r.Success? <==>
              forall c :: c in cols ==> && c in male.columns && c in female.columns
                                        && !Repeated(male.columns, c) && !Repeated(female.columns, c)
    ensures r.Failure? ==> r.error.MissingColumn? || r.error.AmbiguousColumn?
    ensures r.Failure? && r.error.MissingColumn? ==>
              r.error.name in cols && (r.error.name !in male.columns || r.error.name !in female.columns)
    ensures (exists c :: c in cols && (c !in male.columns || c !in female.columns)) ==>
              r.Failure? && r.error.MissingColumn?
    ensures r.Failure? && r.error.AmbiguousColumn? ==>
              r.error.column in cols && (Repeated(male.columns, r.error.column) || Repeated(female.columns, r.error.column))
  {
    match FirstAbsent(male, female, cols)
    case Some(c) => Failure(MissingColumn(c))
    case None =>
      match FirstRepeated(male, female, cols)
      case Some(c) => Failure(AmbiguousColumn(c))
      case None => Success(SortBy(DefinedDifferences(male, female, cols), MagnitudeKey))
  }

  /** The frames `prepare_dfs` makes from a feature list that names a
      feature twice carry that column twice, so the mean differences of
      those frames raise the ValueError. */
  lemma RepeatedFeatureFails(t: Table, cols: seq<string>, i: nat, j: nat)
    requires WellFormed(t) && Complete(t, cols)
    requires i < j < |cols| && cols[i] == cols[j]
    requires PrepareFrames(t, cols).Success?
    ensures var frames := PrepareFrames(t, cols).value;
      var r := MeanDifferences(frames.1, frames.0, cols);
      r.Failure? && r.error.AmbiguousColumn? && Repeated(cols, r.error.column)
  {
    var frames := PrepareFrames(t, cols).value;
    var female, male := frames.0, frames.1;
    assert male.columns == cols && female.columns == cols;
    assert Repeated(male.columns, cols[i]);
    assert cols[i] in cols;
    var r := MeanDifferences(male, female, cols);
    assert r.Failure?;
    assert !r.error.MissingColumn?;
  }

  /** A feature is in the result exactly when it was requested and its
      normalised difference is defined, and it carries that value; entries
      are neither added, duplicated nor altered. */
  lemma MeanDifferencesContents(male: Frame, female: Frame, cols: seq<string>)
    requires FrameWellFormed(male) && FrameWellFormed(female)
    requires MeanDifferences(male, female, cols).Success?
    ensures var r := MeanDifferences(male, female, cols).value;
      && multiset(r) == multiset(DefinedDifferences(male, female, cols))
      && Distinct(Features(r))
      && (forall f :: f in Features(r) <==> f in cols && FeatureDifference(male, female, f).Some?)
      && (forall k :: 0 <= k < |r| ==> FeatureDifference(male, female, r[k].feature) == Some(r[k].value))
  {
    var feats := Dedup(cols);
    var stat := DifferenceOf(male, female);
    DedupOrdered(cols);
    DefinedEntriesOrdered(feats, stat, cols);
    SortedEntriesContents(feats, stat, cols, MagnitudeKey);
  }

  /** Stably sorting the defined entries of a statistic keeps exactly those
      entries, each once. */
  lemma SortedEntriesContents(feats: seq<string>, stat: string -> Option<real>, cols: seq<string>, key: Entry -> real)
    requires OrderedAsIn(Features(DefinedEntries(feats, stat)), cols)
    ensures var r := SortBy(DefinedEntries(feats, stat), key);
      && Distinct(Features(r))
      && (forall f :: f in Features(r) <==> f in feats && stat(f).Some?)
      && (forall k :: 0 <= k < |r| ==> stat(r[k].feature) == Some(r[k].value))
  {
    var d := DefinedEntries(feats, stat);
    var r := SortBy(d, key);
    OrderedDistinct(d, cols);
    SortDistinct(d, key);
    PermutationKeepsFeatures(r, d);
    PermutationMembers(r, d);
    forall f | f in feats && stat(f).Some? ensures f in Features(r) {
      FeatureOf(r, Entry(f, stat(f).value));
    }
    forall f | f in Features(r) ensures f in feats && stat(f).Some? {
      var m :| 0 <= m < |r| && Features(r)[m] == f;
      assert r[m] in d;
    }
  }

  lemma FeatureOf(r: seq<Entry>, e: Entry)
    requires e in r
    ensures e.feature in Features(r)
  {
    var m :| 0 <= m < |r| && r[m] == e;
    assert Features(r)[m] == e.feature;
  }

  /** Entries whose features are in column order are pairwise distinct and
      have distinct features. */
  lemma OrderedDistinct(d: seq<Entry>, cols: seq<string>)
    requires OrderedAsIn(Features(d), cols)
    ensures Distinct(Features(d)) && Distinct(d)
  {
    forall a, b | 0 <= a < b < |d| ensures Features(d)[a] != Features(d)[b] {
    }
    DistinctFeatures(d);
  }

  /** Entries are ordered by non-increasing absolute value. */
  lemma MeanDifferencesSorted(male: Frame, female: Frame, cols: seq<string>)
    requires FrameWellFormed(male) && FrameWellFormed(female)
    requires MeanDifferences(male, female, cols).Success?
    ensures var r := MeanDifferences(male, female, cols).value;
      forall i, j :: 0 <= i < j < |r| ==> Abs(r[i].value) >= Abs(r[j].value)
  {
    var d := DefinedDifferences(male, female, cols);
    SortSorted(d, MagnitudeKey);
    var r := SortBy(d, MagnitudeKey);
    assert MeanDifferences(male, female, cols).value == r by {
      assert FirstAbsent(male, female, cols).None? && FirstRepeated(male, female, cols).None?;
    }
    assert forall i, j :: 0 <= i < j < |r| ==> MagnitudeKey(r[i]) <= MagnitudeKey(r[j]);
  }

  /** Entries of equal magnitude keep the order of the requested features
      (Python's sort is stable also with `reverse=True`). */
  lemma MeanDifferencesStable(male: Frame, female: Frame, cols: seq<string>)
    requires FrameWellFormed(male) && FrameWellFormed(female)
    ensures MeanDifferences(male, female, cols).Success? ==>
      var r := MeanDifferences(male, female, cols).value;
      forall i, j :: 0 <= i < j < |r| && Abs(r[i].value) == Abs(r[j].value) ==>
        r[i].feature in cols && r[j].feature in cols
        && IndexOf(cols, r[i].feature) < IndexOf(cols, r[j].feature)
  {
    if MeanDifferences(male, female, cols).Success? {
      var feats := Dedup(cols);
      DedupOrdered(cols);
      DefinedEntriesOrdered(feats, DifferenceOf(male, female), cols);
      var d := DefinedDifferences(male, female, cols);
      var r := SortBy(d, MagnitudeKey);
      assert MeanDifferences(male, female, cols).value == r;
      forall i, j | 0 <= i < j < |r| && Abs(r[i].value) == Abs(r[j].value)
        ensures r[i].feature in cols && r[j].feature in cols
        ensures IndexOf(cols, r[i].feature) < IndexOf(cols, r[j].feature)
      {
        assert MagnitudeKey(r[i]) == MagnitudeKey(r[j]);
        TieOrderThroughFeatures(d, MagnitudeKey, cols, i, j);
      }
    }
  }

  /** Every reported value lies in [-1, 1] and is positive exactly when the
      male mean of that feature exceeds the female mean. */
  lemma MeanDifferencesBounded(male: Frame, female: Frame, cols: seq<string>)
    requires FrameWellFormed(male) && FrameWellFormed(female)
    ensures MeanDifferences(male, female, cols).Success? ==>
      var r := MeanDifferences(male, female, cols).value;
      forall k :: 0 <= k < |r| ==>
        && r[k].feature in male.columns && r[k].feature in female.columns
        && |Column(male, r[k].feature)| > 0 && |Column(female, r[k].feature)| > 0
        && -1.0 <= r[k].value <= 1.0
        && (r[k].value > 0.0 <==> Mean(Column(male, r[k].feature)) > Mean(Column(female, r[k].feature)))
        && (r[k].value < 0.0 <==> Mean(Column(male, r[k].feature)) < Mean(Column(female, r[k].feature)))
  {
    if MeanDifferences(male, female, cols).Success? {
      var r := MeanDifferences(male, female, cols).value;
      MeanDifferencesContents(male, female, cols);
      forall k | 0 <= k < |r|
        ensures && r[k].feature in male.columns && r[k].feature in female.columns
                && |Column(male, r[k].feature)| > 0 && |Column(female, r[k].feature)| > 0
                && -1.0 <= r[k].value <= 1.0
                && (r[k].value > 0.0 <==> Mean(Column(male, r[k].feature)) > Mean(Column(female, r[k].feature)))
                && (r[k].value < 0.0 <==> Mean(Column(male, r[k].feature)) < Mean(Column(female, r[k].feature)))
      {
        assert FeatureDifference(male, female, r[k].feature) == Some(r[k].value);
        NormalizedDifferenceBounds(Column(male, r[k].feature), Column(female, r[k].feature));
      }
    }
  }
}

=== FILE: linguistic_sheet.dfy ===
/** calculate_linguistic_features_from_liwc.py: each LIWC sheet gains the
    derived feature columns, assigned in this order (a column that already
    exists is overwritten in place, a new one is appended):

      SENT                sentences of `response`
      abstraction         (DAV + 2 IAV + 3 SV + 4 adj) / (DAV + IAV + SV + adj)
      lexical diversity   copy of unique_words_cnt
      reading difficulty  1.043 * sqrt(BigWords) * 30 / SENT + 3.1291
      analytical          copy of Analytic
      self references     copy of ipron
      certainty           copy of certitude
      emotionality        copy of emotion
      hedges              copy of Hedge

    The run processes the selected sheets in order and stops at the first
    sheet that fails; the sheets before it have been saved. */
module LinguisticSheet {
  import opened Wrappers
  import opened Tables
  import opened Formulas
  import opened Workbooks

  /** The columns the formulas make, in order. */
  const FormulaTargets: seq<string> := [SentenceColumn, "abstraction", "lexical diversity", "reading difficulty"]

  const WordsColumn := "BigWords"

  /** The columns the formulas read. */
  const FormulaInputs: seq<string> := [
    ResponseColumn, "DAV", "IAV", "SV", "adj", "unique_words_cnt", WordsColumn
  ]

  /** The renamed columns and their new names, pairwise. */
  const CopySources: seq<string> := ["Analytic", "ipron", "certitude", "emotion", "Hedge"]
  const CopyTargets: seq<string> := ["analytical", "self references", "certainty", "emotionality", "hedges"]

  /** Every column the sheet is read from. */
  const Inputs: seq<string> := FormulaInputs + CopySources

  /** Every column processing assigns, in order. */
  const Derived: seq<string> := FormulaTargets + CopyTargets

  /** The assignments that compute formulas, and the copy that sits among
      them; `objects` when an abstraction input column holds a string. */
  function FormulaSteps(split: SentenceSplitter, sqrt: Sqrt, objects: bool): seq<Assignment>
    requires IsSqrt(sqrt)
  {
    [ SentenceStep(split), AbstractionStep(objects),
      CopyOf("unique_words_cnt", "lexical diversity"), ReadingStep(WordsColumn, sqrt) ]
  }

  /** The renaming copies at the end. */
  function CopySteps(): seq<Assignment> {
    [ CopyOf("Analytic", "analytical"), CopyOf("ipron", "self references"),
      CopyOf("certitude", "certainty"), CopyOf("emotion", "emotionality"),
      CopyOf("Hedge", "hedges") ]
  }

  /** The column assignments of `process_sheet`, in order. */
  function Steps(split: SentenceSplitter, sqrt: Sqrt, objects: bool): seq<Assignment>
    requires IsSqrt(sqrt)
  {
    FormulaSteps(split, sqrt, objects) + CopySteps()
  }

  lemma StepsTargets(split: SentenceSplitter, sqrt: Sqrt, objects: bool)
    requires IsSqrt(sqrt)
    ensures Targets(Steps(split, sqrt, objects)) == Derived
  {
  }

  /** `process_sheet` on a sheet already read; the abstraction formula runs
      on Python objects when an input column holds a string. */
  function ProcessSheet(t: Table, split: SentenceSplitter, sqrt: Sqrt): (r: Result<Table, Error>)
    requires WellFormed(t) && IsSqrt(sqrt)
    ensures r.Success? ==> WellFormed(r.value) && |r.value.rows| == |t.rows|
    ensures r.Success? ==> r.value.columns == WithColumns(t.columns, Derived)
  {
    StepsTargets(split, sqrt, ObjectInputs(t));
    AssignAll(t, Steps(split, sqrt, ObjectInputs(t)))
  }

  /** The response is a string, the abstraction formula evaluates (a
      string among its inputs only where a NaN masks it, and no zero
      denominator on object columns) and the long-word count is not a
      string. */
  predicate RowProcessable(row: Row, objects: bool) {
    && HasText(row, ResponseColumn)
    && AbstractionReady(row, objects)
    && HasNonText(row, WordsColumn)
  }

  /** The sheet has every input column and every row can be processed,
      the abstraction formula running on objects exactly when an input
      column holds a string. */
  predicate Processable(t: Table) {
    ProcessableAs(t, ObjectInputs(t))
  }

  /** The sheet has every input column and every row can be processed,
      the abstraction formula running on objects when `objects`. */
  predicate ProcessableAs(t: Table, objects: bool) {
    && (forall c :: c in Inputs ==> c in t.columns)
    && forall i :: 0 <= i < |t.rows| ==> RowProcessable(t.rows[i], objects)
  }

  /** The reading difficulty of a row with `sentences` sentences. */
  function ReadingOf(row: Row, sentences: real, sqrt: Sqrt): Cell
    requires IsSqrt(sqrt) && WordsColumn in row
  {
    if row[WordsColumn].Num? then ReadingDifficulty(row[WordsColumn].x, sentences, sqrt) else NaN
  }

  /** What processing does to one row: the derived cells, in terms of the
      input row, and every other cell unchanged. */
  ghost predicate ProcessedRow(inp: Row, out: Row, split: SentenceSplitter, sqrt: Sqrt, objects: bool)
    requires IsSqrt(sqrt)
  {
    && HasText(inp, ResponseColumn)
    && var sentences := |split(inp[ResponseColumn].s)| as real;
    && SentenceColumn in out && out[SentenceColumn] == Num(sentences)
    && AbstractionCell(inp, objects).Success?
    && "abstraction" in out && out["abstraction"] == AbstractionCell(inp, objects).value
    && Copied(inp, out, "unique_words_cnt", "lexical diversity")
    && WordsColumn in inp && "reading difficulty" in out
    && out["reading difficulty"] == ReadingOf(inp, sentences, sqrt)
    && (forall k :: 0 <= k < |CopySources| ==> Copied(inp, out, CopySources[k], CopyTargets[k]))
    && forall c :: c in inp && c !in Derived ==> c in out && out[c] == inp[c]
  }

  /** The copy steps find their columns exactly when their sources are
      there. */
  lemma CopyStepsFindColumns(b: set<string>)
    ensures ColumnsAvailable(b, CopySteps()) <==> forall c :: c in CopySources ==> c in b
  {
    var ss := CopySteps();
    var b1 := b + {"analytical"};
    var b2 := b1 + {"self references"};
    var b3 := b2 + {"certainty"};
    var b4 := b3 + {"emotionality"};
    assert ss[5..] == [];
    assert ColumnsAvailable(b4 + {ss[4].name}, ss[5..]);
    ColumnsAvailableAtCopy(b4, ss, 4, "Hedge");
    assert ColumnsAvailable(b4, ss[4..]) <==> "Hedge" in b;
    ColumnsAvailableAtCopy(b3, ss, 3, "emotion");
    assert b3 + {ss[3].name} == b4;
    assert ColumnsAvailable(b3, ss[3..]) <==> "emotion" in b && "Hedge" in b;
    ColumnsAvailableAtCopy(b2, ss, 2, "certitude");
    assert b2 + {ss[2].name} == b3;
    assert ColumnsAvailable(b2, ss[2..]) <==> "certitude" in b && "emotion" in b && "Hedge" in b;
    ColumnsAvailableAtCopy(b1, ss, 1, "ipron");
    assert b1 + {ss[1].name} == b2;
    ColumnsAvailableAtCopy(b, ss, 0, "Analytic");
    assert b + {ss[0].name} == b1;
    assert ss[0..] == ss;
    assert (forall c :: c in CopySources ==> c in b) <==>
           "Analytic" in b && "ipron" in b && "certitude" in b && "emotion" in b && "Hedge" in b;
  }

  /** The names and input columns of the formula steps. */
  predicate FormulaShape(ss: seq<Assignment>) {
    && |ss| == 4
    && ss[0].name == SentenceColumn && ss[0].needed == [ResponseColumn]
    && ss[1].name == "abstraction" && ss[1].needed == AbstractionInputs
    && ss[2].name == "lexical diversity" && ss[2].needed == ["unique_words_cnt"]
    && ss[3].name == "reading difficulty" && ss[3].needed == [WordsColumn, SentenceColumn]
  }

  lemma FormulaStepsShape(split: SentenceSplitter, sqrt: Sqrt, objects: bool)
    requires IsSqrt(sqrt)
    ensures FormulaShape(FormulaSteps(split, sqrt, objects))
  {
  }

  /** Steps of that shape find their columns exactly when the sheet has
      their inputs (`SENT` is made by the first step). */
  lemma FormulaStepsFindColumns(avail: set<string>, ss: seq<Assignment>)
    requires FormulaShape(ss)
    ensures ColumnsAvailable(avail, ss) <==>
              && ResponseColumn in avail
              && (forall c :: c in AbstractionInputs ==> c in avail)
              && "unique_words_cnt" in avail && WordsColumn in avail
  {
    var a1 := avail + {SentenceColumn};
    var a2 := a1 + {"abstraction"};
    var a3 := a2 + {"lexical diversity"};
    assert ss[4..] == [];
    assert ColumnsAvailable(a3 + {ss[3].name}, ss[4..]);
    ColumnsAvailableAt(a3, ss, 3);
    assert SentenceColumn in a3;
    assert WordsColumn in a3 <==> WordsColumn in avail;
    assert (forall c :: c in [WordsColumn, SentenceColumn] ==> c in a3) <==> WordsColumn in a3;
    assert ColumnsAvailable(a3, ss[3..]) <==> WordsColumn in avail;
    ColumnsAvailableAtCopy(a2, ss, 2, "unique_words_cnt");
    assert ColumnsAvailable(a2, ss[2..]) <==> "unique_words_cnt" in avail && WordsColumn in avail;
    ColumnsAvailableAt(a1, ss, 1);
    assert (forall c :: c in AbstractionInputs ==> c in a1) <==> (forall c :: c in AbstractionInputs ==> c in avail);
    ColumnsAvailableAtCopy(avail, ss, 0, ResponseColumn);
    assert ss[0..] == ss;
  }

  lemma ShapeTargets(ss: seq<Assignment>)
    requires FormulaShape(ss)
    ensures Names(Targets(ss)) == Names(FormulaTargets)
  {
    assert Targets(ss) == FormulaTargets;
  }

  lemma InputsListed(avail: set<string>)
    ensures (forall c :: c in Inputs ==> c in avail) <==>
              && ResponseColumn in avail
              && (forall c :: c in AbstractionInputs ==> c in avail)
              && "unique_words_cnt" in avail && WordsColumn in avail
              && (forall c :: c in CopySources ==> c in avail)
  {
    assert forall c :: c in Inputs <==> c in FormulaInputs || c in CopySources;
  }

  /** The copy sources are not made by the formula steps. */
  lemma SourcesNotMade(avail: set<string>)
    ensures var a := avail + Names(FormulaTargets);
            (forall c :: c in CopySources ==> c in a) <==> (forall c :: c in CopySources ==> c in avail)
  {
  }

  lemma {:induction false} ShapedStepsFindColumns(avail: set<string>, fs: seq<Assignment>)
    requires FormulaShape(fs)
    ensures ColumnsAvailable(avail, fs + CopySteps()) <==> forall c :: c in Inputs ==> c in avail
  {
    ColumnsAvailableAppend(avail, fs, CopySteps());
    FormulaStepsFindColumns(avail, fs);
    ShapeTargets(fs);
    CopyStepsFindColumns(avail + Names(Targets(fs)));
    SourcesNotMade(avail);
    InputsListed(avail);
  }

  /** Every step finds its columns exactly when the sheet has every input
      column. */
  lemma StepsFindColumns(avail: set<string>, split: SentenceSplitter, sqrt: Sqrt, objects: bool)
    requires IsSqrt(sqrt)
    ensures ColumnsAvailable(avail, Steps(split, sqrt, objects)) <==> forall c :: c in Inputs ==> c in avail
  {
    FormulaStepsShape(split, sqrt, objects);
    ShapedStepsFindColumns(avail, FormulaSteps(split, sqrt, objects));
  }

  /** The formula steps' shape and what each one computes. */
  ghost predicate FormulaBehaviour(ss: seq<Assignment>, split: SentenceSplitter, sqrt: Sqrt, objects: bool)
    requires IsSqrt(sqrt)
  {
    && FormulaShape(ss)
    && (forall row :: ss[0].f(row) == SentenceCell(row, split))
    && (forall row :: ss[1].f(row) == AbstractionCell(row, objects))
    && (forall row :: ss[2].f(row) == Get(row, "unique_words_cnt"))
    && (forall row :: ss[3].f(row) == ReadingCell(row, WordsColumn, sqrt))
  }

  lemma FormulaStepsBehaviour(split: SentenceSplitter, sqrt: Sqrt, objects: bool)
    requires IsSqrt(sqrt)
    ensures FormulaBehaviour(FormulaSteps(split, sqrt, objects), split, sqrt, objects)
  {
  }

  /** The row the formula steps produce from `row`, written out. */
  function FormulaRow(row: Row, split: SentenceSplitter, sqrt: Sqrt, objects: bool): Row
    requires IsSqrt(sqrt)
    requires HasText(row, ResponseColumn) && AbstractionCell(row, objects).Success?
    requires "unique_words_cnt" in row && WordsColumn in row
  {
    var sentences := |split(row[ResponseColumn].s)| as real;
    row[SentenceColumn := Num(sentences)]
       ["abstraction" := AbstractionCell(row, objects).value]
       ["lexical diversity" := row["unique_words_cnt"]]
       ["reading difficulty" := ReadingOf(row, sentences, sqrt)]
  }

  /** A row gets through the formula steps exactly when its response is a
      string, the abstraction inputs are there and evaluate (on object
      columns, to a non-zero denominator), and the other formula inputs are
      there and the long-word count is not a string. */
  lemma {:induction false} FormulaStepsOnRow(row: Row, ss: seq<Assignment>, split: SentenceSplitter, sqrt: Sqrt, objects: bool)
    requires IsSqrt(sqrt) && FormulaBehaviour(ss, split, sqrt, objects)
    ensures AssignRow(row, ss).Success? <==>
              && HasText(row, ResponseColumn)
              && AbstractionReady(row, objects)
              && "unique_words_cnt" in row && HasNonText(row, WordsColumn)
    ensures AssignRow(row, ss).Success? ==> AbstractionCell(row, objects).Success?
    ensures AssignRow(row, ss).Success? ==> AssignRow(row, ss).value == FormulaRow(row, split, sqrt, objects)
  {
    assert ss[0..] == ss;
    AssignRowAt(row, ss, 0);
    var v0 := SentenceCell(row, split);
    if v0.Success? {
      var r1 := row[SentenceColumn := v0.value];
      AssignRowAt(r1, ss, 1);
      AbstractionCellFrame(row, SentenceColumn, v0.value, objects);
      AbstractionCellSucceeds(row, objects);
      var v1 := AbstractionCell(row, objects);
      if v1.Success? {
        var r2 := r1["abstraction" := v1.value];
        LastStepsOnRow(r2, ss, split, sqrt, objects);
        assert ("unique_words_cnt" in r2 <==> "unique_words_cnt" in row) && (WordsColumn in r2 <==> WordsColumn in row);
        if "unique_words_cnt" in row && WordsColumn in row {
          assert r2["unique_words_cnt"] == row["unique_words_cnt"] && r2[WordsColumn] == row[WordsColumn];
          assert ReadingOf(r2, v0.value.x, sqrt) == ReadingOf(row, v0.value.x, sqrt);
        }
      }
    }
  }

  /** The last two formula steps, on a row that has its sentence count:
      they get through exactly when the unique-word count is there and the
      long-word count is there and not a string. */
  lemma {:induction false} LastStepsOnRow(r: Row, ss: seq<Assignment>, split: SentenceSplitter, sqrt: Sqrt, objects: bool)
    requires IsSqrt(sqrt) && FormulaBehaviour(ss, split, sqrt, objects)
    requires SentenceColumn in r && r[SentenceColumn].Num?
    ensures AssignRow(r, ss[2..]).Success? <==> "unique_words_cnt" in r && HasNonText(r, WordsColumn)
    ensures AssignRow(r, ss[2..]).Success? ==>
              AssignRow(r, ss[2..]).value ==
                r["lexical diversity" := r["unique_words_cnt"]]
                 ["reading difficulty" := ReadingOf(r, r[SentenceColumn].x, sqrt)]
  {
    AssignRowAt(r, ss, 2);
    if "unique_words_cnt" in r {
      var r3 := r["lexical diversity" := r["unique_words_cnt"]];
      AssignRowAt(r3, ss, 3);
      assert WordsColumn in r3 <==> WordsColumn in r;
      assert SentenceColumn in r3 && r3[SentenceColumn] == r[SentenceColumn];
      if WordsColumn in r {
        assert r3[WordsColumn] == r[WordsColumn];
      }
      assert ss[4..] == [];
    }
  }


  lemma CopyStepsChain()
    ensures CopyChain(CopySteps(), CopySources, CopyTargets)
    ensures Distinct(CopyTargets)
    ensures forall k :: 0 <= k < |CopySources| ==> CopySources[k] !in CopyTargets
  {
  }

  /** The copies get through a row exactly when it has their sources; each
      target then holds its source's cell and nothing else changes. */
  lemma CopyStepsOnRow(row: Row)
    ensures AssignRow(row, CopySteps()).Success? <==> forall c :: c in CopySources ==> c in row
    ensures AssignRow(row, CopySteps()).Success? ==>
              var out := AssignRow(row, CopySteps()).value;
              && out.Keys == row.Keys + Names(CopyTargets)
              && (forall k :: 0 <= k < |CopySources| ==> Copied(row, out, CopySources[k], CopyTargets[k]))
              && forall c :: c in row && c !in CopyTargets ==> out[c] == row[c]
  {
    CopyStepsChain();
    CopyChainRow(row, CopySteps(), CopySources, CopyTargets);
  }

  /** No copy overwrites a formula result or reads one. */
  lemma CopiesApart()
    ensures forall k :: 0 <= k < |FormulaTargets| ==> FormulaTargets[k] !in CopyTargets
    ensures forall k :: 0 <= k < |CopySources| ==> CopySources[k] !in FormulaTargets
  {
  }

  /** Copies run on a row that only gained the formula results: they
      keep those results, copy the input row's cells and leave every other
      cell of the input row alone. */
  lemma CopiesKeepFormulas(row: Row, fr: Row)
    requires fr.Keys == row.Keys + Names(FormulaTargets)
    requires forall c :: c in row && c !in FormulaTargets ==> fr[c] == row[c]
    ensures AssignRow(fr, CopySteps()).Success? <==> forall c :: c in CopySources ==> c in row
    ensures AssignRow(fr, CopySteps()).Success? ==>
              var out := AssignRow(fr, CopySteps()).value;
              && (forall k :: 0 <= k < |FormulaTargets| ==> FormulaTargets[k] in out && out[FormulaTargets[k]] == fr[FormulaTargets[k]])
              && (forall k :: 0 <= k < |CopySources| ==> Copied(row, out, CopySources[k], CopyTargets[k]))
              && (forall c :: c in row && c !in Derived ==> c in out && out[c] == row[c])
  {
    CopyStepsOnRow(fr);
    CopiesApart();
    assert forall c :: c in CopySources ==> (c in fr <==> c in row);
    if AssignRow(fr, CopySteps()).Success? {
      assert forall k :: 0 <= k < |CopySources| ==> fr[CopySources[k]] == row[CopySources[k]];
      assert forall c :: c in Derived <==> c in FormulaTargets || c in CopyTargets;
    }
  }

  /** The cells of the formula steps' row. */
  lemma FormulaRowCells(row: Row, split: SentenceSplitter, sqrt: Sqrt, objects: bool)
    requires IsSqrt(sqrt)
    requires HasText(row, ResponseColumn) && AbstractionCell(row, objects).Success?
    requires "unique_words_cnt" in row && WordsColumn in row
    ensures var fr := FormulaRow(row, split, sqrt, objects);
            && fr.Keys == row.Keys + Names(FormulaTargets)
            && (forall c :: c in row && c !in FormulaTargets ==> fr[c] == row[c])
            && fr[FormulaTargets[0]] == Num(|split(row[ResponseColumn].s)| as real)
            && fr[FormulaTargets[1]] == AbstractionCell(row, objects).value
            && fr[FormulaTargets[2]] == row["unique_words_cnt"]
            && fr[FormulaTargets[3]] == ReadingOf(row, |split(row[ResponseColumn].s)| as real, sqrt)
  {
  }

  /** The copies after the formula steps complete the processed row. */
  lemma CopiesAfterFormulas(row: Row, split: SentenceSplitter, sqrt: Sqrt, objects: bool)
    requires IsSqrt(sqrt)
    requires HasText(row, ResponseColumn) && AbstractionCell(row, objects).Success?
    requires "unique_words_cnt" in row && WordsColumn in row
    ensures var fr := FormulaRow(row, split, sqrt, objects);
            AssignRow(fr, CopySteps()).Success? <==> forall c :: c in CopySources ==> c in row
    ensures var fr := FormulaRow(row, split, sqrt, objects);
            AssignRow(fr, CopySteps()).Success? ==> ProcessedRow(row, AssignRow(fr, CopySteps()).value, split, sqrt, objects)
  {
    var fr := FormulaRow(row, split, sqrt, objects);
    FormulaRowCells(row, split, sqrt, objects);
    CopiesKeepFormulas(row, fr);
    if AssignRow(fr, CopySteps()).Success? {
      var out := AssignRow(fr, CopySteps()).value;
      assert out[SentenceColumn] == fr[FormulaTargets[0]];
      assert out["abstraction"] == fr[FormulaTargets[1]];
      assert out["lexical diversity"] == fr[FormulaTargets[2]];
      assert out["reading difficulty"] == fr[FormulaTargets[3]];
    }
  }

  lemma {:induction false} ShapedStepsOnRow(row: Row, fs: seq<Assignment>, split: SentenceSplitter, sqrt: Sqrt, objects: bool)
    requires IsSqrt(sqrt) && FormulaBehaviour(fs, split, sqrt, objects)
    ensures AssignRow(row, fs + CopySteps()).Success? <==>
              RowProcessable(row, objects) && forall c :: c in Inputs ==> c in row
    ensures AssignRow(row, fs + CopySteps()).Success? ==>
              ProcessedRow(row, AssignRow(row, fs + CopySteps()).value, split, sqrt, objects)
  {
    AssignRowAppend(row, fs, CopySteps());
    FormulaStepsOnRow(row, fs, split, sqrt, objects);
    InputsListed(row.Keys);
    if AssignRow(row, fs).Success? {
      CopiesAfterFormulas(row, split, sqrt, objects);
    }
  }

  /** A row gets through every step exactly when it has every input column
      and can be processed; the result is the processed row. */
  lemma StepsOnRow(row: Row, split: SentenceSplitter, sqrt: Sqrt, objects: bool)
    requires IsSqrt(sqrt)
    ensures AssignRow(row, Steps(split, sqrt, objects)).Success? <==>
              RowProcessable(row, objects) && forall c :: c in Inputs ==> c in row
    ensures AssignRow(row, Steps(split, sqrt, objects)).Success? ==>
              ProcessedRow(row, AssignRow(row, Steps(split, sqrt, objects)).value, split, sqrt, objects)
  {
    FormulaStepsBehaviour(split, sqrt, objects);
    ShapedStepsOnRow(row, FormulaSteps(split, sqrt, objects), split, sqrt, objects);
  }

  /** `process_sheet` succeeds exactly on a processable sheet. */
  lemma ProcessSheetSucceeds(t: Table, split: SentenceSplitter, sqrt: Sqrt)
    requires WellFormed(t) && IsSqrt(sqrt)
    ensures ProcessSheet(t, split, sqrt).Success? <==> Processable(t)
  {
    StepsSucceed(t, split, sqrt, ObjectInputs(t));
  }

  /** The steps get through a sheet exactly when it is processable with the
      formula running on objects or not, as `objects` says. */
  lemma StepsSucceed(t: Table, split: SentenceSplitter, sqrt: Sqrt, objects: bool)
    requires WellFormed(t) && IsSqrt(sqrt)
    ensures AssignAll(t, Steps(split, sqrt, objects)).Success? <==> ProcessableAs(t, objects)
  {
    var ss := Steps(split, sqrt, objects);
    StepsFindColumns(Names(t.columns), split, sqrt, objects);
    forall row
      ensures AssignRow(row, ss).Success? <==> RowProcessable(row, objects) && forall c :: c in Inputs ==> c in row
    {
      StepsOnRow(row, split, sqrt, objects);
    }
    SheetFromRows(t, ss, objects);
  }

  /** Steps that get through exactly the processable rows having every
      input, and find their columns exactly on a sheet having every input,
      get through exactly the processable sheets. */
  lemma SheetFromRows(t: Table, ss: seq<Assignment>, objects: bool)
    requires WellFormed(t)
    requires ColumnsAvailable(Names(t.columns), ss) <==> forall c :: c in Inputs ==> c in Names(t.columns)
    requires forall row :: AssignRow(row, ss).Success? <==> RowProcessable(row, objects) && forall c :: c in Inputs ==> c in row
    ensures AssignAll(t, ss).Success? <==> ProcessableAs(t, objects)
  {
    AssignAllSucceeds(t, ss);
    if ProcessableAs(t, objects) {
      forall i | 0 <= i < |t.rows|
        ensures AssignRow(t.rows[i], ss).Success?
      {
        assert RowProcessable(t.rows[i], objects) && t.rows[i].Keys == Names(t.columns);
      }
    } else if forall c :: c in Inputs ==> c in t.columns {
      var i :| 0 <= i < |t.rows| && !RowProcessable(t.rows[i], objects);
      assert !AssignRow(t.rows[i], ss).Success?;
    }
  }


  /** Every row of a processed sheet is its input row, processed. */
  lemma ProcessSheetRows(t: Table, split: SentenceSplitter, sqrt: Sqrt)
    requires WellFormed(t) && IsSqrt(sqrt)
    ensures ProcessSheet(t, split, sqrt).Success? ==>
              forall i :: 0 <= i < |t.rows| ==>
                ProcessedRow(t.rows[i], ProcessSheet(t, split, sqrt).value.rows[i], split, sqrt, ObjectInputs(t))
  {
    if ProcessSheet(t, split, sqrt).Success? {
      var objects := ObjectInputs(t);
      var ss := Steps(split, sqrt, objects);
      AssignAllRows(t, ss);
      forall i | 0 <= i < |t.rows|
        ensures ProcessedRow(t.rows[i], ProcessSheet(t, split, sqrt).value.rows[i], split, sqrt, objects)
      {
        StepsOnRow(t.rows[i], split, sqrt, objects);
      }
    }
  }

  // ---------------------------------------------------------------------
  // The run over the selected sheets
  // ---------------------------------------------------------------------

  /** `process_sheet(sheet_name)`, reading the sheet first. */
  function ProcessNamed(b: Workbook, name: string, split: SentenceSplitter, sqrt: Sqrt): (r: Result<Table, Error>)
    requires WellFormedBook(b) && IsSqrt(sqrt)
    ensures name !in b.names ==> r == Failure(MissingSheet(name))
    ensures name in b.names ==> r == ProcessSheet(b.sheets[name], split, sqrt)
  {
    var t :- ReadSheet(b, name);
    ProcessSheet(t, split, sqrt)
  }

  /** The whole command: the requested sheets, or every sheet. */
  function RunLinguistic(b: Workbook, requested: Option<seq<string>>, split: SentenceSplitter, sqrt: Sqrt): Run
    requires WellFormedBook(b) && IsSqrt(sqrt)
  {
    RunUntilFailure(SheetsToProcess(b, requested), n => ProcessNamed(b, n, split, sqrt))
  }

  /** A run over sheets that all exist and are processable saves each of
      them, in order, and ends without error; with no sheets requested (no
      `--sheets`, or an empty list) that is every sheet of the workbook. */
  lemma RunSavesEverySheet(b: Workbook, requested: Option<seq<string>>, split: SentenceSplitter, sqrt: Sqrt)
    requires WellFormedBook(b) && IsSqrt(sqrt)
    requires forall n :: n in SheetsToProcess(b, requested) ==> n in b.names && Processable(b.sheets[n])
    ensures RunLinguistic(b, requested, split, sqrt).error.None?
    ensures requested.Some? && |requested.value| > 0 ==>
              |RunLinguistic(b, requested, split, sqrt).saved| == |requested.value|
              && forall k :: 0 <= k < |requested.value| ==>
                   RunLinguistic(b, requested, split, sqrt).saved[k].sheet == requested.value[k]
    ensures requested.None? || requested == Some([]) ==>
              |RunLinguistic(b, requested, split, sqrt).saved| == |b.names|
              && forall k :: 0 <= k < |b.names| ==> RunLinguistic(b, requested, split, sqrt).saved[k].sheet == b.names[k]
  {
    var sheets := SheetsToProcess(b, requested);
    var r := RunLinguistic(b, requested, split, sqrt);
    if r.error.Some? {
      var n := sheets[|r.saved|];
      ProcessSheetSucceeds(b.sheets[n], split, sqrt);
    }
  }
}

=== FILE: manipulation_sheet.dfy ===
/** calculate_manipulation_features_from_liwc.py: each LIWC sheet gains
    these columns, assigned in this order (a column that already exists is
    overwritten in place, a new one is appended):

      SENT                            sentences of `response`
      polysyllables                   polysyllabic tokens of `response`
      unique_words_cnt                normalised unique words of `response`,
                                      only when the sheet has no such column
      unnormalized_unique_words_cnt   unique words of `response`
      lexical diversity               copy of unique_words_cnt
      reading difficulty              1.043 * sqrt(polysyllables) * 30 / SENT + 3.1291
      analytical                      copy of `analytic`, or of `Analytic`
                                      when the sheet has no `analytic`
      self references                 copy of ipron
      certainty                       copy of certitude
      emotionality                    copy of emotion

    The run skips a sheet named `source`, reports a sheet that fails as
    broken and goes on with the next one. */
module ManipulationSheet {
  import opened Wrappers
  import opened Tables
  import opened Formulas
  import opened Workbooks
  import opened TextFeatures

  const PolysyllableColumn := "polysyllables"
  const UniqueColumn := "unique_words_cnt"
  const RawUniqueColumn := "unnormalized_unique_words_cnt"

  /** `word_tokenize`, given as a parameter. */
  type WordTokenizer = string -> seq<string>

  // ---------------------------------------------------------------------
  // Measures of the response text
  // ---------------------------------------------------------------------

  /** `df["response"].apply(g)` on one row: a number computed from the
      response, a TypeError when the response is not a string. */
  function ResponseCell(row: Row, g: string -> real): (r: Result<Cell, Error>)
    ensures r.Success? <==> HasText(row, ResponseColumn)
    ensures r.Success? ==> r.value == Num(g(row[ResponseColumn].s))
    ensures r.Failure? ==>
              r.error == (if ResponseColumn in row then NotText(ResponseColumn) else MissingColumn(ResponseColumn))
  {
    if ResponseColumn !in row then Failure(MissingColumn(ResponseColumn))
    else match row[ResponseColumn]
      case Text(s) => Success(Num(g(s)))
      case _ => Failure(NotText(ResponseColumn))
  }

  /** `df[name] = df["response"].apply(g)`. */
  function MeasureStep(name: string, g: string -> real): (a: Assignment)
    ensures a.name == name && a.needed == [ResponseColumn]
    ensures forall row :: a.f(row) == ResponseCell(row, g)
  {
    Assignment(name, [ResponseColumn], row => ResponseCell(row, g))
  }

  /** Steps that each store a measure `gs[k]` of the response in `names[k]`. */
  ghost predicate MeasureChain(ss: seq<Assignment>, names: seq<string>, gs: seq<string -> real>) {
    && |ss| == |names| == |gs|
    && (forall k :: 0 <= k < |ss| ==> ss[k].name == names[k] && ss[k].needed == [ResponseColumn])
    && (forall k, row :: 0 <= k < |ss| ==> ss[k].f(row) == ResponseCell(row, gs[k]))
  }

  function MeasureSteps(names: seq<string>, gs: seq<string -> real>): (ss: seq<Assignment>)
    requires |names| == |gs|
    ensures MeasureChain(ss, names, gs)
    decreases |names|
  {
    if |names| == 0 then []
    else
      var rest := MeasureSteps(names[1..], gs[1..]);
      var ss := [MeasureStep(names[0], gs[0])] + rest;
      assert forall k :: 1 <= k < |ss| ==> ss[k] == rest[k - 1];
      ss
  }

  lemma MeasureChainTail(ss: seq<Assignment>, names: seq<string>, gs: seq<string -> real>)
    requires MeasureChain(ss, names, gs) && |ss| > 0
    ensures MeasureChain(ss[1..], names[1..], gs[1..])
  {
    forall k, row | 0 <= k < |ss| - 1
      ensures ss[1..][k].f(row) == ResponseCell(row, gs[1..][k])
    {
      assert ss[1..][k] == ss[k + 1];
    }
  }

  /** Measure steps that do not overwrite the response find their columns
      exactly when there is a response column (or there are no steps). */
  lemma {:induction false} MeasureChainFindColumns(avail: set<string>, ss: seq<Assignment>, names: seq<string>, gs: seq<string -> real>)
    requires MeasureChain(ss, names, gs)
    ensures ColumnsAvailable(avail, ss) <==> |ss| == 0 || ResponseColumn in avail
    decreases |ss|
  {
    if |ss| > 0 {
      MeasureChainTail(ss, names, gs);
      MeasureChainFindColumns(avail + {names[0]}, ss[1..], names[1..], gs[1..]);
    }
  }

  /** Distinct measure steps get through a row exactly when its response
      is a string; each target then holds its measure of the response, the
      row gains exactly the targets, and every other cell is unchanged. */
  lemma {:induction false} MeasureChainRow(row: Row, ss: seq<Assignment>, names: seq<string>, gs: seq<string -> real>)
    requires MeasureChain(ss, names, gs) && Distinct(names) && ResponseColumn !in names
    requires |ss| > 0
    ensures AssignRow(row, ss).Success? <==> HasText(row, ResponseColumn)
    ensures AssignRow(row, ss).Success? ==>
              var out := AssignRow(row, ss).value;
              && out.Keys == row.Keys + Names(names)
              && (forall k :: 0 <= k < |names| ==> out[names[k]] == Num(gs[k](row[ResponseColumn].s)))
              && (forall c :: c in row && c !in names ==> out[c] == row[c])
    decreases |ss|
  {
    var n0 := names[0];
    assert ss[0].f(row) == ResponseCell(row, gs[0]);
    if HasText(row, ResponseColumn) {
      var row1 := row[n0 := Num(gs[0](row[ResponseColumn].s))];
      assert AssignRow(row, ss) == AssignRow(row1, ss[1..]);
      assert row1[ResponseColumn] == row[ResponseColumn];
      assert n0 !in names[1..] by {
        forall k | 0 <= k < |names| - 1 ensures names[1..][k] != n0 {
          assert names[1..][k] == names[k + 1];
        }
      }
      assert Names(names) == {n0} + Names(names[1..]) by {
        assert names == [n0] + names[1..];
      }
      if |ss| == 1 {
        assert ss[1..] == [] && names[1..] == [];
      } else {
        MeasureChainTail(ss, names, gs);
        MeasureChainRow(row1, ss[1..], names[1..], gs[1..]);
        var out := AssignRow(row1, ss[1..]).value;
        forall k | 0 <= k < |names|
          ensures out[names[k]] == Num(gs[k](row[ResponseColumn].s))
        {
          if k > 0 {
            assert names[1..][k - 1] == names[k] && gs[1..][k - 1] == gs[k];
          }
        }
      }
    }
  }

  /** The sentence count. */
  function Sentences(split: SentenceSplitter): string -> real {
    s => |split(s)| as real
  }

  /** `_count_polysyllables`, over the word tokenizer's tokens. */
  function Polysyllables(words: WordTokenizer, d: PronouncingDict): string -> real
    requires WellFormedDict(d)
  {
    s => PolysyllableCount(words(s), d) as real
  }

  /** `_count_normalized_unique_words`. */
  function NormalizedUnique(): string -> real {
    s => NormalizedUniqueWords(s)
  }

  /** `_count_unique_words`. */
  function RawUnique(): string -> real {
    s => UniqueWords(s) as real
  }

  /** The measured columns; `unique_words_cnt` only when the sheet lacks it. */
  function MeasureNames(computeUnique: bool): (r: seq<string>)
    ensures Distinct(r) && ResponseColumn !in r
    ensures PolysyllableColumn in r && SentenceColumn in r && RawUniqueColumn in r
    ensures UniqueColumn in r <==> computeUnique
  {
    if computeUnique then [SentenceColumn, PolysyllableColumn, UniqueColumn, RawUniqueColumn]
    else [SentenceColumn, PolysyllableColumn, RawUniqueColumn]
  }

  function Measures(split: SentenceSplitter, words: WordTokenizer, d: PronouncingDict, computeUnique: bool): (r: seq<string -> real>)
    requires WellFormedDict(d)
    ensures |r| == |MeasureNames(computeUnique)|
  {
    if computeUnique then [Sentences(split), Polysyllables(words, d), NormalizedUnique(), RawUnique()]
    else [Sentences(split), Polysyllables(words, d), RawUnique()]
  }

  // ---------------------------------------------------------------------
  // process_sheet
  // ---------------------------------------------------------------------

  /** The column `analytical` is copied from. */
  function AnalyticSource(names: set<string>): (r: string)
    ensures r in names <==> "analytic" in names || "Analytic" in names
    ensures r == "analytic" <==> "analytic" in names
  {
    if "analytic" in names then "analytic" else "Analytic"
  }

  function CopySources(names: set<string>): seq<string> {
    [AnalyticSource(names), "ipron", "certitude", "emotion"]
  }

  const CopyTargets: seq<string> := ["analytical", "self references", "certainty", "emotionality"]

  const MiddleTargets: set<string> := {"lexical diversity", "reading difficulty"}

  /** The copy to `lexical diversity` and the reading difficulty. */
  function MiddleSteps(sqrt: Sqrt): seq<Assignment>
    requires IsSqrt(sqrt)
  {
    [CopyOf(UniqueColumn, "lexical diversity"), ReadingStep(PolysyllableColumn, sqrt)]
  }

  /** The measure steps on a sheet with column names `names`. */
  function MeasuringSteps(names: set<string>, split: SentenceSplitter, words: WordTokenizer, d: PronouncingDict): seq<Assignment>
    requires WellFormedDict(d)
  {
    var computeUnique := UniqueColumn !in names;
    MeasureSteps(MeasureNames(computeUnique), Measures(split, words, d, computeUnique))
  }

  /** The column assignments of `process_sheet` on a sheet with column
      names `names`, in order. */
  function Steps(names: set<string>, split: SentenceSplitter, words: WordTokenizer, d: PronouncingDict, sqrt: Sqrt): seq<Assignment>
    requires WellFormedDict(d) && IsSqrt(sqrt)
  {
    MeasuringSteps(names, split, words, d) + MiddleSteps(sqrt) + Copies(CopySources(names), CopyTargets)
  }

  /** The columns processing assigns, in order. */
  function Derived(names: set<string>): seq<string> {
    MeasureNames(UniqueColumn !in names) + ["lexical diversity", "reading difficulty"] + CopyTargets
  }

  lemma StepsTargets(names: set<string>, split: SentenceSplitter, words: WordTokenizer, d: PronouncingDict, sqrt: Sqrt)
    requires WellFormedDict(d) && IsSqrt(sqrt)
    ensures Targets(Steps(names, split, words, d, sqrt)) == Derived(names)
  {
    var ss := Steps(names, split, words, d, sqrt);
    var ds := Derived(names);
    assert |Targets(ss)| == |ds|;
    forall k | 0 <= k < |ds| ensures Targets(ss)[k] == ds[k] { }
  }

  /** `process_sheet` on a sheet already read. */
  function ProcessSheet(t: Table, split: SentenceSplitter, words: WordTokenizer, d: PronouncingDict, sqrt: Sqrt): (r: Result<Table, Error>)
    requires WellFormed(t) && WellFormedDict(d) && IsSqrt(sqrt)
    ensures r.Success? ==> WellFormed(r.value) && |r.value.rows| == |t.rows|
    ensures r.Success? ==> r.value.columns == WithColumns(t.columns, Derived(Names(t.columns)))
  {
    StepsTargets(Names(t.columns), split, words, d, sqrt);
    AssignAll(t, Steps(Names(t.columns), split, words, d, sqrt))
  }

  // ---------------------------------------------------------------------
  // Which sheets can be processed
  // ---------------------------------------------------------------------

  /** The sheet has a response column and every column a copy reads, and
      every response is a string. */
  predicate Processable(t: Table) {
    && ColumnsFound(Names(t.columns))
    && forall i :: 0 <= i < |t.rows| ==> HasText(t.rows[i], ResponseColumn)
  }

  /** Columns `names` include the response and every column a copy reads. */
  predicate ColumnsFound(names: set<string>) {
    ResponseColumn in names && forall c :: c in CopySources(names) ==> c in names
  }

  /** None of the copies reads a column the other steps make. */
  lemma SourcesNotMade(names: set<string>, computeUnique: bool)
    ensures forall c :: c in CopySources(names) ==>
              c !in MeasureNames(computeUnique) && c != "lexical diversity" && c != "reading difficulty"
              && c !in CopyTargets
    ensures forall c :: c in CopySources(names) ==>
              c !in Names(MeasureNames(computeUnique)) && c !in MiddleTargets
  {
  }

  lemma CopyTargetsDistinct()
    ensures Distinct(CopyTargets)
  {
  }

  /** The measures need only the response column. */
  lemma MeasuresFindColumns(avail: set<string>, names: set<string>, split: SentenceSplitter, words: WordTokenizer, d: PronouncingDict)
    requires WellFormedDict(d)
    ensures ColumnsAvailable(avail, MeasuringSteps(names, split, words, d)) <==> ResponseColumn in avail
    ensures Names(Targets(MeasuringSteps(names, split, words, d))) == Names(MeasureNames(UniqueColumn !in names))
  {
    var cu := UniqueColumn !in names;
    var mn, gs := MeasureNames(cu), Measures(split, words, d, cu);
    assert MeasuringSteps(names, split, words, d) == MeasureSteps(mn, gs);
    MeasureChainFindColumns(avail, MeasureSteps(mn, gs), mn, gs);
    assert Targets(MeasureSteps(mn, gs)) == mn;
  }

  /** The middle steps find their columns once the counts are there. */
  lemma MiddleFindsColumns(avail: set<string>, sqrt: Sqrt)
    requires IsSqrt(sqrt)
    requires UniqueColumn in avail && PolysyllableColumn in avail && SentenceColumn in avail
    ensures ColumnsAvailable(avail, MiddleSteps(sqrt))
    ensures Names(Targets(MiddleSteps(sqrt))) == MiddleTargets
  {
    var mid := MiddleSteps(sqrt);
    ColumnsAvailableAtCopy(avail, mid, 0, UniqueColumn);
    ColumnsAvailableAt(avail + {mid[0].name}, mid, 1);
    assert mid[2..] == [] && mid[0..] == mid;
  }

  /** The copies find their columns exactly when their sources are there. */
  lemma CopiesFindColumns(avail: set<string>, names: set<string>)
    ensures ColumnsAvailable(avail, Copies(CopySources(names), CopyTargets)) <==>
              forall c :: c in CopySources(names) ==> c in avail
  {
    var srcs := CopySources(names);
    SourcesNotMade(names, true);
    assert forall k :: 0 <= k < |srcs| ==> srcs[k] !in CopyTargets;
    CopyChainFindColumns(avail, Copies(srcs, CopyTargets), srcs, CopyTargets);
  }

  /** Every step finds its columns exactly when the sheet has a response
      column and the columns the copies read. */
  lemma StepsFindColumns(avail: set<string>, names: set<string>, split: SentenceSplitter, words: WordTokenizer, d: PronouncingDict, sqrt: Sqrt)
    requires WellFormedDict(d) && IsSqrt(sqrt)
    requires UniqueColumn in names <==> UniqueColumn in avail
    ensures ColumnsAvailable(avail, Steps(names, split, words, d, sqrt)) <==>
              ResponseColumn in avail && forall c :: c in CopySources(names) ==> c in avail
  {
    var cu := UniqueColumn !in names;
    var front := MeasuringSteps(names, split, words, d);
    ColumnsAvailableStages(avail, front, MiddleSteps(sqrt), Copies(CopySources(names), CopyTargets));
    MeasuresFindColumns(avail, names, split, words, d);
    var a1 := avail + Names(MeasureNames(cu));
    MiddleFindsColumns(a1, sqrt);
    var a2 := a1 + MiddleTargets;
    SourcesNotMade(names, cu);
    assert forall c :: c in CopySources(names) ==> (c in a2 <==> c in avail);
    CopiesFindColumns(a2, names);
  }

  // ---------------------------------------------------------------------
  // What processing does to a row
  // ---------------------------------------------------------------------

  /** The measures of the response in `out`, and `unique_words_cnt` kept
      when the input row has it. */
  ghost predicate MeasuredCells(inp: Row, out: Row, split: SentenceSplitter, words: WordTokenizer, d: PronouncingDict)
    requires WellFormedDict(d) && HasText(inp, ResponseColumn)
  {
    var s := inp[ResponseColumn].s;
    && SentenceColumn in out && out[SentenceColumn] == Num(|split(s)| as real)
    && PolysyllableColumn in out && out[PolysyllableColumn] == Num(PolysyllableCount(words(s), d) as real)
    && UniqueColumn in out
    && out[UniqueColumn] == (if UniqueColumn in inp then inp[UniqueColumn] else Num(NormalizedUniqueWords(s)))
    && RawUniqueColumn in out && out[RawUniqueColumn] == Num(UniqueWords(s) as real)
  }

  /** `lexical diversity` copies `unique_words_cnt`, and the reading
      difficulty is computed from the row's own polysyllable and sentence
      counts. */
  ghost predicate FormulaCells(out: Row, sqrt: Sqrt)
    requires IsSqrt(sqrt)
  {
    && UniqueColumn in out && "lexical diversity" in out && out["lexical diversity"] == out[UniqueColumn]
    && PolysyllableColumn in out && out[PolysyllableColumn].Num?
    && SentenceColumn in out && out[SentenceColumn].Num?
    && "reading difficulty" in out
    && out["reading difficulty"] == ReadingDifficulty(out[PolysyllableColumn].x, out[SentenceColumn].x, sqrt)
  }

  /** Each copy target holds its source's input cell. */
  ghost predicate CopiedCells(inp: Row, out: Row) {
    forall k :: 0 <= k < |CopyTargets| ==> Copied(inp, out, CopySources(inp.Keys)[k], CopyTargets[k])
  }

  /** Every input cell processing does not assign is unchanged. */
  ghost predicate KeptCells(inp: Row, out: Row) {
    forall c :: c in inp && c !in Derived(inp.Keys) ==> c in out && out[c] == inp[c]
  }

  /** The processed row `out` of input row `inp`. */
  ghost predicate ProcessedRow(inp: Row, out: Row, split: SentenceSplitter, words: WordTokenizer, d: PronouncingDict, sqrt: Sqrt)
    requires WellFormedDict(d) && IsSqrt(sqrt)
  {
    && HasText(inp, ResponseColumn)
    && MeasuredCells(inp, out, split, words, d)
    && FormulaCells(out, sqrt)
    && CopiedCells(inp, out)
    && KeptCells(inp, out)
  }

  /** What the measure steps leave in `r1`, run on `row`. */
  ghost predicate MeasureStage(row: Row, r1: Row, cu: bool, split: SentenceSplitter, words: WordTokenizer, d: PronouncingDict)
    requires WellFormedDict(d)
  {
    && HasText(row, ResponseColumn) && (cu || UniqueColumn in row)
    && var s := row[ResponseColumn].s;
    && r1.Keys == row.Keys + Names(MeasureNames(cu))
    && SentenceColumn in r1 && r1[SentenceColumn] == Num(|split(s)| as real)
    && PolysyllableColumn in r1 && r1[PolysyllableColumn] == Num(PolysyllableCount(words(s), d) as real)
    && RawUniqueColumn in r1 && r1[RawUniqueColumn] == Num(UniqueWords(s) as real)
    && UniqueColumn in r1 && r1[UniqueColumn] == (if cu then Num(NormalizedUniqueWords(s)) else row[UniqueColumn])
    && forall c :: c in row && c !in MeasureNames(cu) ==> c in r1 && r1[c] == row[c]
  }

  /** What the middle steps leave in `r2`, run on `r1`. */
  ghost predicate MiddleStage(r1: Row, r2: Row, sqrt: Sqrt)
    requires IsSqrt(sqrt)
  {
    && UniqueColumn in r1 && SentenceColumn in r1 && PolysyllableColumn in r1
    && r1[SentenceColumn].Num? && r1[PolysyllableColumn].Num?
    && r2 == r1["lexical diversity" := r1[UniqueColumn]]
               ["reading difficulty" := ReadingDifficulty(r1[PolysyllableColumn].x, r1[SentenceColumn].x, sqrt)]
  }

  /** What the copies leave in `out`, run on `r2`. */
  ghost predicate CopyStage(r2: Row, out: Row, names: set<string>) {
    && out.Keys == r2.Keys + Names(CopyTargets)
    && (forall k :: 0 <= k < |CopyTargets| ==>
          CopySources(names)[k] in r2 && CopyTargets[k] in out && out[CopyTargets[k]] == r2[CopySources(names)[k]])
    && forall c :: c in r2 && c !in CopyTargets ==> c in out && out[c] == r2[c]
  }

  /** The measure steps on one row. */
  lemma MeasuresOnRow(row: Row, cu: bool, split: SentenceSplitter, words: WordTokenizer, d: PronouncingDict)
    requires WellFormedDict(d) && cu == (UniqueColumn !in row)
    ensures var r := AssignRow(row, MeasuringSteps(row.Keys, split, words, d));
            && (r.Success? <==> HasText(row, ResponseColumn))
            && (r.Success? ==> MeasureStage(row, r.value, cu, split, words, d))
  {
    var mn, gs := MeasureNames(cu), Measures(split, words, d, cu);
    assert MeasuringSteps(row.Keys, split, words, d) == MeasureSteps(mn, gs);
    MeasureChainRow(row, MeasureSteps(mn, gs), mn, gs);
    var r := AssignRow(row, MeasureSteps(mn, gs));
    if r.Success? {
      var s := row[ResponseColumn].s;
      assert r.value[mn[0]] == Num(gs[0](s));
      assert r.value[mn[1]] == Num(gs[1](s));
      if cu {
        assert r.value[mn[2]] == Num(gs[2](s));
        assert r.value[mn[3]] == Num(gs[3](s));
      } else {
        assert r.value[mn[2]] == Num(gs[2](s));
        assert UniqueColumn !in mn;
      }
    }
  }

  /** The copy to `lexical diversity` and the reading difficulty on a row
      that has the counts. */
  lemma MiddleOnRow(r1: Row, sqrt: Sqrt)
    requires IsSqrt(sqrt)
    requires UniqueColumn in r1 && SentenceColumn in r1 && PolysyllableColumn in r1
    requires r1[SentenceColumn].Num? && r1[PolysyllableColumn].Num?
    ensures AssignRow(r1, MiddleSteps(sqrt)).Success?
    ensures MiddleStage(r1, AssignRow(r1, MiddleSteps(sqrt)).value, sqrt)
  {
    var mid := MiddleSteps(sqrt);
    assert mid[0..] == mid;
    AssignRowAt(r1, mid, 0);
    var row1 := r1["lexical diversity" := r1[UniqueColumn]];
    AssignRowAt(row1, mid, 1);
    assert row1[SentenceColumn] == r1[SentenceColumn] && row1[PolysyllableColumn] == r1[PolysyllableColumn];
    assert mid[2..] == [];
  }

  /** The copies at the end on any row. */
  lemma CopiesOnRow(r2: Row, names: set<string>)
    ensures var r := AssignRow(r2, Copies(CopySources(names), CopyTargets));
            && (r.Success? <==> forall c :: c in CopySources(names) ==> c in r2)
            && (r.Success? ==> CopyStage(r2, r.value, names))
  {
    var srcs := CopySources(names);
    SourcesNotMade(names, true);
    CopyTargetsDistinct();
    assert forall k :: 0 <= k < |srcs| ==> srcs[k] !in CopyTargets;
    CopyChainRow(r2, Copies(srcs, CopyTargets), srcs, CopyTargets);
  }

  /** The steps run as three stages: measures, middle steps, copies. */
  lemma StagesOnRow(row: Row, split: SentenceSplitter, words: WordTokenizer, d: PronouncingDict, sqrt: Sqrt)
    requires WellFormedDict(d) && IsSqrt(sqrt)
    ensures var r1 := AssignRow(row, MeasuringSteps(row.Keys, split, words, d));
            var r := AssignRow(row, Steps(row.Keys, split, words, d, sqrt));
            if r1.Failure? then r == r1
            else
              var r2 := AssignRow(r1.value, MiddleSteps(sqrt));
              if r2.Failure? then r == r2
              else r == AssignRow(r2.value, Copies(CopySources(row.Keys), CopyTargets))
  {
    var front := MeasuringSteps(row.Keys, split, words, d);
    var mid := MiddleSteps(sqrt);
    var copies := Copies(CopySources(row.Keys), CopyTargets);
    AssignRowAppend(row, front + mid, copies);
    AssignRowAppend(row, front, mid);
  }

  /** A row gets through every step exactly when its response is a string
      and it has the columns the copies read. */
  lemma StepsOnRowSucceeds(row: Row, split: SentenceSplitter, words: WordTokenizer, d: PronouncingDict, sqrt: Sqrt)
    requires WellFormedDict(d) && IsSqrt(sqrt)
    ensures AssignRow(row, Steps(row.Keys, split, words, d, sqrt)).Success? <==>
              HasText(row, ResponseColumn) && forall c :: c in CopySources(row.Keys) ==> c in row
  {
    StepsOnRow(row, split, words, d, sqrt);
  }

  /** A row that gets through every step comes out as the processed row;
      it gets through exactly when its response is a string and it has the
      columns the copies read. */
  lemma StepsOnRow(row: Row, split: SentenceSplitter, words: WordTokenizer, d: PronouncingDict, sqrt: Sqrt)
    requires WellFormedDict(d) && IsSqrt(sqrt)
    ensures var r := AssignRow(row, Steps(row.Keys, split, words, d, sqrt));
            r.Success? <==> HasText(row, ResponseColumn) && forall c :: c in CopySources(row.Keys) ==> c in row
    ensures var r := AssignRow(row, Steps(row.Keys, split, words, d, sqrt));
            r.Success? ==> ProcessedRow(row, r.value, split, words, d, sqrt)
  {
    var cu := UniqueColumn !in row;
    StagesOnRow(row, split, words, d, sqrt);
    MeasuresOnRow(row, cu, split, words, d);
    var r1 := AssignRow(row, MeasuringSteps(row.Keys, split, words, d));
    if r1.Success? {
      MiddleOnRow(r1.value, sqrt);
      var r2 := AssignRow(r1.value, MiddleSteps(sqrt)).value;
      CopiesOnRow(r2, row.Keys);
      MiddleKeepsSources(row, r1.value, r2, cu, split, words, d, sqrt);
      var r := AssignRow(r2, Copies(CopySources(row.Keys), CopyTargets));
      if r.Success? {
        AssembleProcessed(row, r1.value, r2, r.value, cu, split, words, d, sqrt);
      }
    }
  }

  /** The copy sources pass the first two stages unchanged. */
  lemma MiddleKeepsSources(row: Row, r1: Row, r2: Row, cu: bool, split: SentenceSplitter, words: WordTokenizer, d: PronouncingDict, sqrt: Sqrt)
    requires WellFormedDict(d) && IsSqrt(sqrt)
    requires MeasureStage(row, r1, cu, split, words, d) && MiddleStage(r1, r2, sqrt)
    ensures forall c :: c in CopySources(row.Keys) ==> (c in r2 <==> c in row) && (c in row ==> r2[c] == row[c])
  {
    SourcesNotMade(row.Keys, cu);
  }

  /** The three stages make up the processed row. */
  lemma AssembleProcessed(row: Row, r1: Row, r2: Row, out: Row, cu: bool, split: SentenceSplitter, words: WordTokenizer, d: PronouncingDict, sqrt: Sqrt)
    requires WellFormedDict(d) && IsSqrt(sqrt) && cu == (UniqueColumn !in row)
    requires MeasureStage(row, r1, cu, split, words, d) && MiddleStage(r1, r2, sqrt)
    requires CopyStage(r2, out, row.Keys)
    ensures ProcessedRow(row, out, split, words, d, sqrt)
  {
    MeasuredPart(row, r1, r2, out, cu, split, words, d, sqrt);
    FormulaPart(r1, r2, out, row.Keys, sqrt);
    CopiedPart(row, r1, r2, out, cu, split, words, d, sqrt);
    KeptPart(row, r1, r2, out, cu, split, words, d, sqrt);
  }

  lemma MeasuredPart(row: Row, r1: Row, r2: Row, out: Row, cu: bool, split: SentenceSplitter, words: WordTokenizer, d: PronouncingDict, sqrt: Sqrt)
    requires WellFormedDict(d) && IsSqrt(sqrt)
    requires MeasureStage(row, r1, cu, split, words, d) && MiddleStage(r1, r2, sqrt)
    requires cu == (UniqueColumn !in row) && CopyStage(r2, out, row.Keys)
    ensures MeasuredCells(row, out, split, words, d)
  {
    MeasureNamesApart(cu);
    assert UniqueColumn !in CopyTargets && UniqueColumn != "lexical diversity" && UniqueColumn != "reading difficulty";
    assert out[UniqueColumn] == r2[UniqueColumn] == r1[UniqueColumn];
  }

  lemma FormulaPart(r1: Row, r2: Row, out: Row, names: set<string>, sqrt: Sqrt)
    requires IsSqrt(sqrt) && MiddleStage(r1, r2, sqrt) && CopyStage(r2, out, names)
    ensures FormulaCells(out, sqrt)
  {
    assert UniqueColumn !in CopyTargets && SentenceColumn !in CopyTargets && PolysyllableColumn !in CopyTargets;
    assert "lexical diversity" !in CopyTargets && "reading difficulty" !in CopyTargets;
  }

  lemma CopiedPart(row: Row, r1: Row, r2: Row, out: Row, cu: bool, split: SentenceSplitter, words: WordTokenizer, d: PronouncingDict, sqrt: Sqrt)
    requires WellFormedDict(d) && IsSqrt(sqrt)
    requires MeasureStage(row, r1, cu, split, words, d) && MiddleStage(r1, r2, sqrt)
    requires CopyStage(r2, out, row.Keys)
    ensures CopiedCells(row, out)
  {
    MiddleKeepsSources(row, r1, r2, cu, split, words, d, sqrt);
  }

  lemma KeptPart(row: Row, r1: Row, r2: Row, out: Row, cu: bool, split: SentenceSplitter, words: WordTokenizer, d: PronouncingDict, sqrt: Sqrt)
    requires WellFormedDict(d) && IsSqrt(sqrt) && cu == (UniqueColumn !in row)
    requires MeasureStage(row, r1, cu, split, words, d) && MiddleStage(r1, r2, sqrt)
    requires CopyStage(r2, out, row.Keys)
    ensures KeptCells(row, out)
  {
    DerivedListed(row.Keys, cu);
  }

  /** The columns the measures make are not assigned again. */
  lemma MeasureNamesApart(cu: bool)
    ensures forall c :: c in MeasureNames(cu) ==>
              c !in CopyTargets && c != "lexical diversity" && c != "reading difficulty"
  {
  }

  lemma DerivedListed(names: set<string>, cu: bool)
    requires cu == (UniqueColumn !in names)
    ensures forall c :: c in Derived(names) <==>
              c in MeasureNames(cu) || c == "lexical diversity" || c == "reading difficulty"
              || c in CopyTargets
  {
  }

  // ---------------------------------------------------------------------
  // Whole sheets
  // ---------------------------------------------------------------------

  /** Each row of a sheet gets through every step exactly when its response
      is a string, given that the sheet has the columns the copies read. */
  lemma RowsSucceed(t: Table, split: SentenceSplitter, words: WordTokenizer, d: PronouncingDict, sqrt: Sqrt)
    requires WellFormed(t) && WellFormedDict(d) && IsSqrt(sqrt)
    requires forall c :: c in CopySources(Names(t.columns)) ==> c in Names(t.columns)
    ensures forall i :: 0 <= i < |t.rows| ==>
              (AssignRow(t.rows[i], Steps(Names(t.columns), split, words, d, sqrt)).Success? <==>
                 HasText(t.rows[i], ResponseColumn))
  {
    forall i | 0 <= i < |t.rows|
      ensures AssignRow(t.rows[i], Steps(Names(t.columns), split, words, d, sqrt)).Success? <==>
                HasText(t.rows[i], ResponseColumn)
    {
      StepsOnRowSucceeds(t.rows[i], split, words, d, sqrt);
    }
  }

  /** A sheet is processed exactly when it is processable. */
  lemma ProcessSheetSucceeds(t: Table, split: SentenceSplitter, words: WordTokenizer, d: PronouncingDict, sqrt: Sqrt)
    requires WellFormed(t) && WellFormedDict(d) && IsSqrt(sqrt)
    ensures ProcessSheet(t, split, words, d, sqrt).Success? <==> Processable(t)
  {
    var names := Names(t.columns);
    var ss := Steps(names, split, words, d, sqrt);
    var columnsFound := ColumnsFound(names);
    assert Processable(t) <==> columnsFound && forall i :: 0 <= i < |t.rows| ==> HasText(t.rows[i], ResponseColumn);
    assert ProcessSheet(t, split, words, d, sqrt).Success? <==>
             ColumnsAvailable(names, ss) && forall i :: 0 <= i < |t.rows| ==> AssignRow(t.rows[i], ss).Success?
    by {
      AssignAllSucceeds(t, ss);
    }
    assert ColumnsAvailable(names, ss) <==> columnsFound by {
      StepsFindColumns(names, names, split, words, d, sqrt);
    }
    if columnsFound {
      RowsSucceed(t, split, words, d, sqrt);
    }
  }

  /** Every row of a processed sheet is its input row, processed. */
  lemma ProcessSheetRows(t: Table, split: SentenceSplitter, words: WordTokenizer, d: PronouncingDict, sqrt: Sqrt)
    requires WellFormed(t) && WellFormedDict(d) && IsSqrt(sqrt)
    ensures ProcessSheet(t, split, words, d, sqrt).Success? ==>
              forall i :: 0 <= i < |t.rows| ==>
                ProcessedRow(t.rows[i], ProcessSheet(t, split, words, d, sqrt).value.rows[i], split, words, d, sqrt)
  {
    if ProcessSheet(t, split, words, d, sqrt).Success? {
      var ss := Steps(Names(t.columns), split, words, d, sqrt);
      AssignAllRows(t, ss);
      forall i | 0 <= i < |t.rows|
        ensures ProcessedRow(t.rows[i], ProcessSheet(t, split, words, d, sqrt).value.rows[i], split, words, d, sqrt)
      {
        StepsOnRow(t.rows[i], split, words, d, sqrt);
      }
    }
  }

  /** In a processed row the reading difficulty is a number exactly when
      the response has at least one sentence, and then it is at least the
      offset of the formula; with no sentence it is infinite when the
      response has a polysyllabic word and NaN otherwise. */
  lemma ReadingDifficultyOfRow(inp: Row, out: Row, split: SentenceSplitter, words: WordTokenizer, d: PronouncingDict, sqrt: Sqrt)
    requires WellFormedDict(d) && IsSqrt(sqrt) && ProcessedRow(inp, out, split, words, d, sqrt)
    ensures var s := inp[ResponseColumn].s;
            var rd := out["reading difficulty"];
            && (rd.Num? <==> |split(s)| > 0)
            && (rd.Num? ==> rd.x >= ReadingOffset)
            && (|split(s)| == 0 ==> (rd.Inf? <==> PolysyllableCount(words(s), d) > 0))
  {
    var s := inp[ResponseColumn].s;
    if |split(s)| > 0 {
      ReadingDifficultyFloor(PolysyllableCount(words(s), d) as real, |split(s)| as real, sqrt);
    }
  }

  // ---------------------------------------------------------------------
  // The run over the selected sheets
  // ---------------------------------------------------------------------

  /** The sheet named `source` holds the raw texts and is never processed. */
  const SourceSheet: string := "source"

  /** `process_sheet(sheet_name)`, reading the sheet first. */
  function ProcessNamed(b: Workbook, name: string, split: SentenceSplitter, words: WordTokenizer, d: PronouncingDict, sqrt: Sqrt): (r: Result<Table, Error>)
    requires WellFormedBook(b) && WellFormedDict(d) && IsSqrt(sqrt)
    ensures name !in b.names ==> r == Failure(MissingSheet(name))
    ensures name in b.names ==> r == ProcessSheet(b.sheets[name], split, words, d, sqrt)
  {
    var t :- ReadSheet(b, name);
    ProcessSheet(t, split, words, d, sqrt)
  }

  /** The whole command: every selected sheet but `source`, in order; a
      sheet that fails is reported as broken and the run goes on with the
      next. */
  method RunManipulation(b: Workbook, requested: Option<seq<string>>, split: SentenceSplitter, words: WordTokenizer, d: PronouncingDict, sqrt: Sqrt)
    returns (outcomes: seq<Outcome>)
    requires WellFormedBook(b) && WellFormedDict(d) && IsSqrt(sqrt)
    ensures var kept := Skipping(SheetsToProcess(b, requested), SourceSheet);
            && |outcomes| == |kept|
            && forall k :: 0 <= k < |kept| ==>
                 Reports(outcomes[k], kept[k], ProcessNamed(b, kept[k], split, words, d, sqrt))
  {
    outcomes := RunRecovering(SheetsToProcess(b, requested), SourceSheet, n => ProcessNamed(b, n, split, words, d, sqrt));
  }

  /** When every selected sheet but `source` exists and is processable,
      every one of them is written. */
  lemma KeptSheetsWritten(b: Workbook, requested: Option<seq<string>>, split: SentenceSplitter, words: WordTokenizer, d: PronouncingDict, sqrt: Sqrt)
    requires WellFormedBook(b) && WellFormedDict(d) && IsSqrt(sqrt)
    requires forall n :: n in Skipping(SheetsToProcess(b, requested), SourceSheet) ==> n in b.names && Processable(b.sheets[n])
    ensures forall n :: n in Skipping(SheetsToProcess(b, requested), SourceSheet) ==>
              ProcessNamed(b, n, split, words, d, sqrt).Success?
  {
    forall n | n in Skipping(SheetsToProcess(b, requested), SourceSheet)
      ensures ProcessNamed(b, n, split, words, d, sqrt).Success?
    {
      ProcessSheetSucceeds(b.sheets[n], split, words, d, sqrt);
    }
  }
}

=== FILE: plot_layout.dfy ===
/** The integer layout of `plot_features_distribution` and the bar colours
    of `plot_mean_differences`. Rendering itself is not modelled: a layout
    is the grid shape, the figure size and which axes show a feature. */
module PlotLayout {
  import opened Wrappers
  import opened Stats
  import opened GroupStats
  import RealArith

  // ---------------------------------------------------------------------
  // The grid of `plot_features_distribution`
  // ---------------------------------------------------------------------

  /** Why the grid cannot be laid out: `num_features / num_cols` with
      `num_cols == 0`, or `plt.subplots` given a non-positive row or column
      count (a negative `max_cols`). */
  datatype LayoutError = DivisionByZero | NonPositiveGrid

  /** A `rows` by `cols` grid of axes in a `width` by `height` figure. */
  datatype Layout = Layout(rows: nat, cols: nat, width: nat, height: nat)

  /** `int(np.ceil(n / c))` for a positive `c`: the fewest rows of `c`
      that hold `n` items. */
  function CeilDiv(n: nat, c: nat): (q: nat)
    requires c > 0
    ensures q * c >= n
    ensures q > 0 ==> (q - 1) * c < n
  {
    (n + c - 1) / c
  }

  /** No smaller row count holds `n` items. */
  lemma CeilDivLeast(n: nat, c: nat, m: nat)
    requires c > 0 && m * c >= n
    ensures CeilDiv(n, c) <= m
  {
    var q := CeilDiv(n, c);
    if m < q {
      NatMulMonotone(m, q - 1, c);
    }
  }

  /** Multiplying by a natural number keeps the order. */
  lemma NatMulMonotone(a: nat, b: nat, c: nat)
    requires a <= b
    ensures a * c <= b * c
  {
    var d := b - a;
    assert b * c == a * c + d * c;
  }

  /** The row count is the ceiling of the real quotient the source computes
      before `np.ceil`. */
  lemma CeilDivIsCeiling(n: nat, c: nat)
    requires c > 0
    ensures var q := CeilDiv(n, c);
            (q as real) - 1.0 < (n as real) / (c as real) <= q as real
  {
    var q := CeilDiv(n, c);
    assert (q as real) * (c as real) == (q * c) as real;
    QuotientAtMost(n as real, c as real, q as real);
    if q > 0 {
      assert ((q - 1) as real) * (c as real) == ((q - 1) * c) as real;
      QuotientAbove(n as real, c as real, (q - 1) as real);
    }
  }

  lemma QuotientAtMost(n: real, c: real, q: real)
    requires c > 0.0 && q * c >= n
    ensures n / c <= q
  {
    var x := n / c;
    assert x * c == n;
    if x > q {
      RealArith.MulStrict(q, x, c);
    }
  }

  lemma QuotientAbove(n: real, c: real, p: real)
    requires c > 0.0 && p * c < n
    ensures p < n / c
  {
    var x := n / c;
    assert x * c == n;
    if x <= p {
      RealArith.MulMonotone(x, p, c);
    }
  }

  /** Lines 20-27 of `plot_features_distribution`: `num_cols = min(max_cols,
      num_features)`, `num_rows` the ceiling of their quotient, and a figure
      of `num_cols * base_width` by `num_rows * base_height`. */
  function GridLayout(numFeatures: nat, maxCols: int, baseWidth: nat, baseHeight: nat): (r: Result<Layout, LayoutError>)
    ensures r.Success? <==> numFeatures > 0 && maxCols > 0
    ensures r.Failure? ==> (r.error == DivisionByZero <==> 0 <= maxCols && (numFeatures == 0 || maxCols == 0))
    ensures r.Success? ==>
              && 1 <= r.value.cols <= numFeatures && r.value.cols <= maxCols
              && (r.value.cols == numFeatures || r.value.cols == maxCols)
              && r.value.rows * r.value.cols >= numFeatures
              && (r.value.rows - 1) * r.value.cols < numFeatures
              && r.value.width == r.value.cols * baseWidth
              && r.value.height == r.value.rows * baseHeight
  {
    var numCols := if maxCols < numFeatures then maxCols else numFeatures;
    if numCols == 0 then Failure(DivisionByZero)
    else if numCols < 0 then Failure(NonPositiveGrid)
    else
      var numRows := CeilDiv(numFeatures, numCols);
      Success(Layout(numRows, numCols, numCols * baseWidth, numRows * baseHeight))
  }

  /** The row count is the least that gives every feature an axis. */
  lemma GridRowsLeast(numFeatures: nat, maxCols: int, baseWidth: nat, baseHeight: nat, m: nat)
    requires GridLayout(numFeatures, maxCols, baseWidth, baseHeight).Success?
    requires m * GridLayout(numFeatures, maxCols, baseWidth, baseHeight).value.cols >= numFeatures
    ensures GridLayout(numFeatures, maxCols, baseWidth, baseHeight).value.rows <= m
  {
    var l := GridLayout(numFeatures, maxCols, baseWidth, baseHeight).value;
    CeilDivLeast(numFeatures, l.cols, m);
  }

  /** The axes left over after the features, hidden by lines 52-53. */
  function Hidden(l: Layout, numFeatures: nat): int {
    l.rows * l.cols - numFeatures
  }

  /** Fewer than a row of axes is hidden, and none when the features fill
      the grid. */
  lemma HiddenFewerThanRow(numFeatures: nat, maxCols: int, baseWidth: nat, baseHeight: nat)
    requires GridLayout(numFeatures, maxCols, baseWidth, baseHeight).Success?
    ensures var l := GridLayout(numFeatures, maxCols, baseWidth, baseHeight).value;
            0 <= Hidden(l, numFeatures) < l.cols
  {
    var l := GridLayout(numFeatures, maxCols, baseWidth, baseHeight).value;
    assert (l.rows - 1) * l.cols == l.rows * l.cols - l.cols;
  }

  /** `np.ravel(axes)` flattens the grid row by row: flat axis `k` sits in
      row `k / cols`, column `k % cols`. */
  function AxisAt(l: Layout, k: nat): (p: (nat, nat))
    requires l.cols > 0 && k < l.rows * l.cols
    ensures p.0 < l.rows && p.1 < l.cols
    ensures p.0 * l.cols + p.1 == k
  {
    (k / l.cols, k % l.cols)
  }

  /** The flat index of the axis in `row`, `col`. */
  function FlatIndex(l: Layout, row: nat, col: nat): (k: nat)
    requires row < l.rows && col < l.cols
    ensures k < l.rows * l.cols
  {
    assert row * l.cols + col < (row + 1) * l.cols;
    assert (row + 1) * l.cols <= l.rows * l.cols;
    row * l.cols + col
  }

  /** Flattening is a bijection between grid positions and flat indices. */
  lemma AxisRoundTrip(l: Layout, row: nat, col: nat, k: nat)
    requires row < l.rows && col < l.cols && k < l.rows * l.cols
    ensures AxisAt(l, FlatIndex(l, row, col)) == (row, col)
    ensures FlatIndex(l, AxisAt(l, k).0, AxisAt(l, k).1) == k
  {
    var p := AxisAt(l, FlatIndex(l, row, col));
    UniqueDivision(l.cols, row, col, p.0, p.1);
  }

  /** Quotient and remainder are unique. */
  lemma UniqueDivision(c: nat, q1: nat, r1: nat, q2: nat, r2: nat)
    requires r1 < c && r2 < c && q1 * c + r1 == q2 * c + r2
    ensures q1 == q2 && r1 == r2
  {
    if q1 < q2 {
      NatMulMonotone(q1 + 1, q2, c);
    } else if q2 < q1 {
      NatMulMonotone(q2 + 1, q1, c);
    }
  }

  /** The `k`-th feature is drawn on flat axis `k` (the `zip` of line 39),
      and the axes from `num_features` on are hidden: every hidden axis is in
      the last row, so no row is left empty. */
  lemma HiddenInLastRow(numFeatures: nat, maxCols: int, baseWidth: nat, baseHeight: nat, k: nat)
    requires GridLayout(numFeatures, maxCols, baseWidth, baseHeight).Success?
    requires numFeatures <= k < GridLayout(numFeatures, maxCols, baseWidth, baseHeight).value.rows
                                * GridLayout(numFeatures, maxCols, baseWidth, baseHeight).value.cols
    ensures var l := GridLayout(numFeatures, maxCols, baseWidth, baseHeight).value;
            AxisAt(l, k).0 == l.rows - 1
  {
    var l := GridLayout(numFeatures, maxCols, baseWidth, baseHeight).value;
    LastRow(numFeatures, l.cols, l.rows, k);
  }

  /** An index past `n` in a grid whose rows before the last hold fewer
      than `n` items lies in the last row. */
  lemma LastRow(n: nat, c: nat, rows: nat, k: nat)
    requires c > 0 && rows > 0 && (rows - 1) * c < n <= k < rows * c
    ensures k / c == rows - 1
  {
    var q := k / c;
    assert q * c + k % c == k;
    if q < rows - 1 {
      NatMulMonotone(q + 1, rows - 1, c);
    } else if q > rows - 1 {
      NatMulMonotone(rows, q, c);
    }
  }

  // ---------------------------------------------------------------------
  // The bars of `plot_mean_differences`
  // ---------------------------------------------------------------------

  /** The colour of a bar whose male mean is the larger. */
  const MaleColour: string := "skyblue"

  /** The colour of every other bar, a zero difference included. */
  const FemaleColour: string := "hotpink"

  /** `["skyblue" if val > 0 else "hotpink" for val in values]`. */
  function BarColours(values: seq<real>): (r: seq<string>)
    ensures |r| == |values|
    ensures forall k :: 0 <= k < |r| ==> r[k] == MaleColour || r[k] == FemaleColour
    ensures forall k :: 0 <= k < |r| ==> (r[k] == MaleColour <==> values[k] > 0.0)
    decreases |values|
  {
    if |values| == 0 then []
    else [if values[0] > 0.0 then MaleColour else FemaleColour] + BarColours(values[1..])
  }

  /** The values of the entries, in order (`sorted_means.values()`). */
  function Values(d: seq<Entry>): (r: seq<real>)
    ensures |r| == |d|
    ensures forall k :: 0 <= k < |d| ==> r[k] == d[k].value
  {
    seq(|d|, k requires 0 <= k < |d| => d[k].value)
  }

  /** One bar per reported feature, in order, each sky blue exactly when
      the male mean of its feature exceeds the female mean. */
  lemma BarColourBySign(male: Frame, female: Frame, cols: seq<string>)
    requires FrameWellFormed(male) && FrameWellFormed(female)
    ensures MeanDifferences(male, female, cols).Success? ==>
      var r := MeanDifferences(male, female, cols).value;
      var colours := BarColours(Values(r));
      && |colours| == |r|
      && forall k :: 0 <= k < |r| ==>
           && r[k].feature in male.columns && r[k].feature in female.columns
           && |Column(male, r[k].feature)| > 0 && |Column(female, r[k].feature)| > 0
           && (colours[k] == MaleColour <==> Mean(Column(male, r[k].feature)) > Mean(Column(female, r[k].feature)))
  {
    if MeanDifferences(male, female, cols).Success? {
      MeanDifferencesBounded(male, female, cols);
    }
  }
}

=== FILE: real_arith.dfy ===
/** Small facts of ordered-field arithmetic on reals that the solver does
    not find by itself, each stated for one product. */
module RealArith {

  lemma MulPositive(a: real, b: real)
    requires a > 0.0 && b > 0.0
    ensures a * b > 0.0
  {
  }

  lemma MulCancel(q: real, a: real, b: real)
    requires b != 0.0 && q * b == a * b
    ensures q == a
  {
    assert (q - a) * b == 0.0;
  }

  lemma MulMonotone(a: real, b: real, c: real)
    requires a <= b && c >= 0.0
    ensures a * c <= b * c
  {
    assert b * c - a * c == (b - a) * c;
  }

  lemma MulStrict(a: real, b: real, c: real)
    requires a < b && c > 0.0
    ensures a * c < b * c
  {
    assert b * c - a * c == (b - a) * c;
    MulPositive(b - a, c);
  }

  lemma SquareLess(s: real, t: real)
    requires 0.0 <= s < t
    ensures s * s < t * t
  {
    var a, b, c := s * s, t * s, t * t;
    assert a <= b by {
      assert b - a == (t - s) * s;
    }
    assert b < c by {
      assert c - b == (t - s) * t;
      MulPositive(t - s, t);
    }
  }

  /** Non-negative numbers with equal squares are equal. */
  lemma SquareInjective(s: real, t: real)
    requires 0.0 <= s && 0.0 <= t && s * s == t * t
    ensures s == t
  {
    if s < t {
      SquareLess(s, t);
    } else if t < s {
      SquareLess(t, s);
    }
  }

  lemma DivideNonNegative(a: real, b: real)
    requires 0.0 <= a && 0.0 < b
    ensures 0.0 <= a / b
  {
    var q := a / b;
    assert q * b == a;
    if q < 0.0 {
      MulPositive(-q, b);
    }
  }
}

=== FILE: stable_sort.dfy ===
/** A stable sort of a sequence by a real-valued key, ascending.

    Python's `sorted` is a stable sort; `sorted(..., key=k, reverse=True)`
    keeps equal-key elements in their original order as well, so it is the
    ascending stable sort by the key `-k`. Both uses in the model are this
    one function with different keys. */
module StableSort {
  import opened Wrappers

  /** Keys never decrease along `s`. */
  predicate SortedBy<T>(s: seq<T>, key: T -> real) {
    forall i, j :: 0 <= i < j < |s| ==> key(s[i]) <= key(s[j])
  }

  /** The subsequence of `s` whose elements have key `k`, in order. */
  function WithKey<T>(s: seq<T>, key: T -> real, k: real): (r: seq<T>)
    ensures |r| <= |s|
  {
    if |s| == 0 then []
    else (if key(s[0]) == k then [s[0]] else []) + WithKey(s[1..], key, k)
  }

  /** Places `x` in front of the first element whose key is not below its own. */
  function Insert<T>(x: T, s: seq<T>, key: T -> real): (r: seq<T>)
    ensures multiset(r) == multiset(s) + multiset{x}
  {
    if |s| == 0 then [x]
    else if key(x) <= key(s[0]) then [x] + s
    else
      assert s == [s[0]] + s[1..];
      [s[0]] + Insert(x, s[1..], key)
  }

  lemma {:induction false} InsertSorted<T>(x: T, s: seq<T>, key: T -> real)
    requires SortedBy(s, key)
    ensures SortedBy(Insert(x, s, key), key)
  {
    if |s| > 0 && key(s[0]) < key(x) {
      var rest := Insert(x, s[1..], key);
      assert s == [s[0]] + s[1..];
      InsertSorted(x, s[1..], key);
      InsertHeadBound(s[0], x, s[1..], rest, key);
    }
  }

  /** `h` may precede a sorted insertion result whose elements all have keys
      at least `key(h)`. */
  lemma InsertHeadBound<T>(h: T, x: T, t: seq<T>, rest: seq<T>, key: T -> real)
    requires SortedBy([h] + t, key) && key(h) < key(x)
    requires SortedBy(rest, key) && multiset(rest) == multiset(t) + multiset{x}
    ensures SortedBy([h] + rest, key)
  {
    var r := [h] + rest;
    forall i, j | 0 <= i < j < |r| ensures key(r[i]) <= key(r[j]) {
      if i == 0 {
        var y := r[j];
        assert y == rest[j - 1];
        assert y in multiset(rest);
        if y != x {
          assert y in multiset(t);
          var m :| 0 <= m < |t| && t[m] == y;
          assert ([h] + t)[0] == h && ([h] + t)[m + 1] == y;
        }
        assert r[0] == h;
      } else {
        assert r[i] == rest[i - 1] && r[j] == rest[j - 1];
      }
    }
  }

  /** Insertion sort; the element taken from the front is inserted before
      every element of equal key, which is what makes the sort stable. */
  function SortBy<T>(s: seq<T>, key: T -> real): (r: seq<T>)
    ensures multiset(r) == multiset(s)
  {
    if |s| == 0 then []
    else
      assert s == [s[0]] + s[1..];
      Insert(s[0], SortBy(s[1..], key), key)
  }

  /** The output is ordered by key. */
  lemma {:induction false} SortSorted<T>(s: seq<T>, key: T -> real)
    ensures SortedBy(SortBy(s, key), key)
  {
    if |s| > 0 {
      SortSorted(s[1..], key);
      InsertSorted(s[0], SortBy(s[1..], key), key);
    }
  }

  lemma {:induction false} WithKeyAppend<T>(a: seq<T>, b: seq<T>, key: T -> real, k: real)
    ensures WithKey(a + b, key, k) == WithKey(a, key, k) + WithKey(b, key, k)
  {
    if |a| == 0 {
      assert a + b == b;
    } else {
      var head := if key(a[0]) == k then [a[0]] else [];
      assert (a + b)[0] == a[0];
      assert (a + b)[1..] == a[1..] + b;
      WithKeyAppend(a[1..], b, key, k);
      assert WithKey(a + b, key, k) == head + WithKey(a[1..] + b, key, k);
      assert WithKey(a, key, k) == head + WithKey(a[1..], key, k);
    }
  }

  lemma {:induction false} InsertWithKey<T>(x: T, s: seq<T>, key: T -> real, k: real)
    ensures WithKey(Insert(x, s, key), key, k)
         == (if key(x) == k then [x] else []) + WithKey(s, key, k)
  {
    if |s| == 0 {
      assert Insert(x, s, key) == [x] + s;
      assert ([x] + s)[0] == x && ([x] + s)[1..] == s;
    } else if key(x) <= key(s[0]) {
      assert Insert(x, s, key) == [x] + s;
      assert ([x] + s)[0] == x && ([x] + s)[1..] == s;
    } else {
      InsertWithKey(x, s[1..], key, k);
      InsertPastHead(x, s, key, k);
    }
  }

  /** `WithKey` on a sequence with a given head. */
  lemma WithKeyCons<T>(h: T, t: seq<T>, key: T -> real, k: real)
    ensures WithKey([h] + t, key, k) == (if key(h) == k then [h] else []) + WithKey(t, key, k)
  {
    assert ([h] + t)[0] == h && ([h] + t)[1..] == t;
  }

  /** The recursive case of `InsertWithKey`: `x` goes past `s[0]`, whose key
      is strictly smaller, so at most one of the two carries key `k`. */
  lemma InsertPastHead<T>(x: T, s: seq<T>, key: T -> real, k: real)
    requires |s| > 0 && key(s[0]) < key(x)
    requires WithKey(Insert(x, s[1..], key), key, k)
          == (if key(x) == k then [x] else []) + WithKey(s[1..], key, k)
    ensures WithKey(Insert(x, s, key), key, k)
         == (if key(x) == k then [x] else []) + WithKey(s, key, k)
  {
    var rest := Insert(x, s[1..], key);
    assert Insert(x, s, key) == [s[0]] + rest;
    WithKeyCons(s[0], rest, key, k);
    if key(x) == k {
      assert WithKey(s, key, k) == WithKey(s[1..], key, k);
      assert WithKey([s[0]] + rest, key, k) == WithKey(rest, key, k);
    } else {
      assert WithKey(rest, key, k) == WithKey(s[1..], key, k);
    }
  }

  /** Stability: for every key value, the elements carrying it appear in the
      output in exactly the order they had in the input. */
  lemma {:induction false} SortStable<T>(s: seq<T>, key: T -> real, k: real)
    ensures WithKey(SortBy(s, key), key, k) == WithKey(s, key, k)
  {
    if |s| > 0 {
      SortStable(s[1..], key, k);
      InsertWithKey(s[0], SortBy(s[1..], key), key, k);
    }
  }

  /** Number of elements with key `k` strictly before position `i`. */
  function Rank<T>(s: seq<T>, key: T -> real, k: real, i: nat): nat
    requires i <= |s|
  {
    |WithKey(s[..i], key, k)|
  }

  lemma {:induction false} RankStep<T>(s: seq<T>, key: T -> real, k: real, i: nat)
    requires i < |s|
    ensures WithKey(s[..i+1], key, k)
         == WithKey(s[..i], key, k) + (if key(s[i]) == k then [s[i]] else [])
  {
    assert s[..i+1] == s[..i] + [s[i]];
    WithKeyAppend(s[..i], [s[i]], key, k);
  }

  lemma {:induction false} RankLocates<T>(s: seq<T>, key: T -> real, k: real, i: nat)
    requires i < |s| && key(s[i]) == k
    ensures Rank(s, key, k, i) < |WithKey(s, key, k)|
    ensures WithKey(s, key, k)[Rank(s, key, k, i)] == s[i]
  {
    assert s == s[..i] + s[i..];
    WithKeyAppend(s[..i], s[i..], key, k);
    assert s[i..][0] == s[i];
  }

  lemma {:induction false} RankIncreases<T>(s: seq<T>, key: T -> real, k: real, i: nat, j: nat)
    requires i < j <= |s| && key(s[i]) == k
    ensures Rank(s, key, k, i) < Rank(s, key, k, j)
  {
    assert s[..j] == s[..i] + s[i..j];
    WithKeyAppend(s[..i], s[i..j], key, k);
    assert s[i..j] == [s[i]] + s[i+1..j];
  }

  lemma {:induction false} WithKeyDistinct<T>(s: seq<T>, key: T -> real, k: real)
    requires Distinct(s)
    ensures Distinct(WithKey(s, key, k))
  {
    if |s| > 0 {
      var w := WithKey(s[1..], key, k);
      WithKeyDistinct(s[1..], key, k);
      WithKeyMember(s[1..], key, k, s[0]);
      assert s[0] !in s[1..];
      assert s[0] !in w;
    }
  }

  lemma {:induction false} WithKeyMember<T>(s: seq<T>, key: T -> real, k: real, y: T)
    ensures y in WithKey(s, key, k) <==> y in s && key(y) == k
  {
    if |s| > 0 {
      WithKeyMember(s[1..], key, k, y);
      assert s == [s[0]] + s[1..];
    }
  }

  lemma SortDistinct<T>(s: seq<T>, key: T -> real)
    requires Distinct(s)
    ensures Distinct(SortBy(s, key))
  {
    PermutationDistinct(SortBy(s, key), s);
  }

  /** A permutation of a sequence without repetitions has none either. */
  lemma PermutationDistinct<T>(a: seq<T>, b: seq<T>)
    requires multiset(a) == multiset(b) && Distinct(b)
    ensures Distinct(a)
  {
    forall i, j | 0 <= i < j < |a| ensures a[i] != a[j] {
      if a[i] == a[j] {
        RepeatedCount(a, i, j);
        DistinctCount(b, a[i]);
        assert false;
      }
    }
  }

  lemma RepeatedCount<T>(a: seq<T>, i: nat, j: nat)
    requires i < j < |a| && a[i] == a[j]
    ensures multiset(a)[a[i]] >= 2
  {
    assert a == a[..j] + a[j..];
    assert a[..j][i] == a[i];
    assert a[j..][0] == a[j];
    assert multiset(a) == multiset(a[..j]) + multiset(a[j..]);
  }

  lemma {:induction false} DistinctCount<T>(s: seq<T>, x: T)
    requires Distinct(s)
    ensures multiset(s)[x] <= 1
  {
    if |s| > 0 {
      DistinctCount(s[1..], x);
      assert s == [s[0]] + s[1..];
      if s[0] == x {
        assert x !in s[1..];
      }
    }
  }

  /** Pairwise stability: two output elements with equal keys keep the order
      of their (first) positions in the input. */
  lemma SortKeepsTieOrder<T>(s: seq<T>, key: T -> real, i: nat, j: nat)
    requires Distinct(s)
    requires i < j < |SortBy(s, key)|
    requires key(SortBy(s, key)[i]) == key(SortBy(s, key)[j])
    ensures SortBy(s, key)[i] in s && SortBy(s, key)[j] in s
    ensures IndexOf(s, SortBy(s, key)[i]) < IndexOf(s, SortBy(s, key)[j])
  {
    var r := SortBy(s, key);
    assert r[i] in multiset(r) && r[j] in multiset(r);
    SortStable(s, key, key(r[i]));
    SameTiesSameOrder(r, s, key, i, j);
  }

  /** If two sequences agree on the subsequence of elements with key `k`,
      then two such elements occur in the same order in both. */
  lemma SameTiesSameOrder<T>(r: seq<T>, s: seq<T>, key: T -> real, i: nat, j: nat)
    requires Distinct(s)
    requires i < j < |r| && key(r[i]) == key(r[j])
    requires r[i] in s && r[j] in s
    requires WithKey(r, key, key(r[i])) == WithKey(s, key, key(r[i]))
    ensures IndexOf(s, r[i]) < IndexOf(s, r[j])
  {
    var k := key(r[i]);
    var ia, ib := IndexOf(s, r[i]), IndexOf(s, r[j]);
    WithKeyDistinct(s, key, k);
    RankLocates(r, key, k, i);
    RankLocates(r, key, k, j);
    RankIncreases(r, key, k, i, j);
    RankLocates(s, key, k, ia);
    RankLocates(s, key, k, ib);
    var w := WithKey(s, key, k);
    var pa, pb := Rank(r, key, k, i), Rank(r, key, k, j);
    assert w[pa] == r[i] && w[pb] == r[j] && pa < pb;
    assert Rank(s, key, k, ia) == pa;
    assert Rank(s, key, k, ib) == pb;
    if ib < ia {
      RankIncreases(s, key, k, ib, ia);
    }
  }
}

=== FILE: stats.dfy ===
/** Column statistics over complete numeric columns: sum, mean, minimum and
    maximum. pandas returns NaN for the mean, minimum and maximum of an empty
    column; the `Option` wrappers below return `None` there. */
module Stats {
  import opened Wrappers

  function Sum(s: seq<real>): real {
    if |s| == 0 then 0.0 else s[0] + Sum(s[1..])
  }

  function Min(s: seq<real>): (m: real)
    requires |s| > 0
    ensures m in s
    ensures forall i :: 0 <= i < |s| ==> m <= s[i]
  {
    if |s| == 1 then s[0]
    else
      var rest := Min(s[1..]);
      if s[0] <= rest then s[0] else rest
  }

  function Max(s: seq<real>): (m: real)
    requires |s| > 0
    ensures m in s
    ensures forall i :: 0 <= i < |s| ==> s[i] <= m
  {
    if |s| == 1 then s[0]
    else
      var rest := Max(s[1..]);
      if s[0] >= rest then s[0] else rest
  }

  /** Bounds on every element bound the sum. */
  lemma {:induction false} SumBounds(s: seq<real>, lo: real, hi: real)
    requires forall i :: 0 <= i < |s| ==> lo <= s[i] <= hi
    ensures |s| as real * lo <= Sum(s) <= |s| as real * hi
  {
    if |s| > 0 {
      SumBounds(s[1..], lo, hi);
      assert s[0] == s[..1][0];
    }
  }

  function Mean(s: seq<real>): (m: real)
    requires |s| > 0
    ensures Min(s) <= m <= Max(s)
  {
    SumBounds(s, Min(s), Max(s));
    DivideBounds(Sum(s), |s| as real, Min(s), Max(s));
    Sum(s) / |s| as real
  }

  lemma DivideBounds(a: real, n: real, lo: real, hi: real)
    requires n > 0.0 && n * lo <= a <= n * hi
    ensures lo <= a / n <= hi
  {
    var q := a / n;
    assert a == n * q;
  }

  /** A column whose values are all equal has that value as its mean. */
  lemma {:induction false} MeanOfConstant(s: seq<real>, c: real)
    requires |s| > 0
    requires forall i :: 0 <= i < |s| ==> s[i] == c
    ensures Mean(s) == c
  {
    SumBounds(s, c, c);
    var n := |s| as real;
    assert Sum(s) == n * c;
  }
}

=== FILE: tables.dfy ===
/** Spreadsheet tables as the pandas code sees them: an ordered list of
    column names and a sequence of rows, each row a map from column name to
    cell. Assigning a column (`df[name] = values`) overwrites it in place
    when it exists and appends it at the right otherwise. */
module Tables {
  import opened Wrappers

  /** One cell: a finite number, a string, a missing value / not-a-number,
      or an IEEE infinity. */
  datatype Cell = Num(x: real) | Text(s: string) | NaN | Inf(positive: bool)

  /** A number or a string: neither missing nor infinite. */
  predicate Defined(c: Cell) {
    c.Num? || c.Text?
  }

  type Row = map<string, Cell>

  datatype Table = Table(columns: seq<string>, rows: seq<Row>)

  /** The exceptions the modelled code can raise on a sheet. */
  datatype Error =
    | MissingColumn(name: string)   // KeyError on a column lookup
    | NotNumeric(column: string)    // arithmetic or float cast on a string
    | NotText(column: string)       // a tokenizer given a non-string
    | MissingSheet(name: string)    // no worksheet of that name
    | InvalidSample(column: string) // a ValueError from the statistical test
    | AmbiguousColumn(column: string) // a ValueError: the name labels several columns
    | ZeroDivision                  // Python's `/` on objects, given a zero divisor

  /** The column names of a column list, as a set. */
  function Names(columns: seq<string>): set<string> {
    set c | c in columns
  }

  /** Column names are unique and every row has exactly the table's columns. */
  predicate WellFormed(t: Table) {
    && Distinct(t.columns)
    && forall i :: 0 <= i < |t.rows| ==> t.rows[i].Keys == Names(t.columns)
  }

  /** Column list after assigning column `name`. */
  function WithColumn(columns: seq<string>, name: string): (r: seq<string>)
    ensures Distinct(columns) ==> Distinct(r)
    ensures Names(r) == Names(columns) + {name}
    ensures name in columns ==> r == columns
    ensures name !in columns ==> |r| == |columns| + 1 && r[..|columns|] == columns
  {
    if name in columns then columns else columns + [name]
  }

  /** Column list after assigning the columns `names` one after the other. */
  function WithColumns(columns: seq<string>, names: seq<string>): (r: seq<string>)
    ensures Distinct(columns) ==> Distinct(r)
    ensures Names(r) == Names(columns) + Names(names)
    ensures |columns| <= |r| && r[..|columns|] == columns
    decreases |names|
  {
    if |names| == 0 then columns
    else WithColumns(WithColumn(columns, names[0]), names[1..])
  }

  /** The first of `needed` that is not a column, if any. */
  function FirstMissing(columns: seq<string>, needed: seq<string>): (r: Option<string>)
    ensures r.None? <==> forall c :: c in needed ==> c in columns
    ensures r.Some? ==> r.value in needed && r.value !in columns
  {
    if |needed| == 0 then None
    else if needed[0] !in columns then Some(needed[0])
    else FirstMissing(columns, needed[1..])
  }

  /** The row has column `c` and it holds a string. */
  predicate HasText(row: Row, c: string) {
    c in row && row[c].Text?
  }

  /** The row has column `c` and it does not hold a string. */
  predicate HasNonText(row: Row, c: string) {
    c in row && !row[c].Text?
  }

  /** `out[target]` holds the input's `source` cell. */
  predicate Copied(inp: Row, out: Row, source: string, target: string) {
    source in inp && target in out && out[target] == inp[source]
  }

  /** A cell of a row; a KeyError when the column is absent. */
  function Get(r: Row, c: string): Result<Cell, Error> {
    if c in r then Success(r[c]) else Failure(MissingColumn(c))
  }

  /** Applies `f` to every row, stopping at the first failing row. */
  function MapRows(rows: seq<Row>, name: string, f: Row -> Result<Cell, Error>): (r: Result<seq<Row>, Error>)
    ensures r.Success? <==> forall i :: 0 <= i < |rows| ==> f(rows[i]).Success?
    ensures r.Success? ==> |r.value| == |rows|
    ensures r.Success? ==> forall i :: 0 <= i < |rows| ==>
              r.value[i] == rows[i][name := f(rows[i]).value]
    ensures r.Failure? ==> exists i :: 0 <= i < |rows| && f(rows[i]) == Failure(r.error)
  {
    if |rows| == 0 then Success([])
    else
      match f(rows[0])
      case Failure(e) => Failure(e)
      case Success(v) =>
        match MapRows(rows[1..], name, f)
        case Failure(e) =>
          assert forall i :: 1 <= i < |rows| ==> rows[1..][i - 1] == rows[i];
          Failure(e)
        case Success(rest) =>
          assert forall i :: 1 <= i < |rows| ==> rows[1..][i - 1] == rows[i];
          Success([rows[0][name := v]] + rest)
  }

  /** The first row error that is not a KeyError, if any: what a column
      expression raises before it reaches an absent input column. */
  function FirstEarlyError(rows: seq<Row>, f: Row -> Result<Cell, Error>): (r: Option<Error>)
    ensures r.None? <==>
              forall i :: 0 <= i < |rows| && f(rows[i]).Failure? ==> f(rows[i]).error.MissingColumn?
    ensures r.Some? ==> !r.value.MissingColumn?
                        && exists i :: 0 <= i < |rows| && f(rows[i]) == Failure(r.value)
  {
    if |rows| == 0 then None
    else if f(rows[0]).Failure? && !f(rows[0]).error.MissingColumn? then Some(f(rows[0]).error)
    else
      assert forall i :: 1 <= i < |rows| ==> rows[1..][i - 1] == rows[i];
      FirstEarlyError(rows[1..], f)
  }

  /** `df[name] = <column expression over needed>`. The expression looks up
      its inputs in the order of `needed` and evaluates `f` row by row;
      every row lacks an absent column, so when one is absent the sheet
      fails with the error of a row that raised before reaching it, or with
      a KeyError for the first absent input. Otherwise the row-wise values
      are assigned. */
  function Derive(t: Table, name: string, needed: seq<string>, f: Row -> Result<Cell, Error>): (r: Result<Table, Error>)
    requires WellFormed(t)
    ensures r.Success? <==>
              (forall c :: c in needed ==> c in t.columns)
              && (forall i :: 0 <= i < |t.rows| ==> f(t.rows[i]).Success?)
    ensures r.Failure? && FirstMissing(t.columns, needed).Some? ==>
              (r.error == MissingColumn(FirstMissing(t.columns, needed).value) <==>
                 forall i :: 0 <= i < |t.rows| && f(t.rows[i]).Failure? ==> f(t.rows[i]).error.MissingColumn?)
    ensures r.Failure? && !r.error.MissingColumn? ==>
              exists i :: 0 <= i < |t.rows| && f(t.rows[i]) == Failure(r.error)
    ensures r.Success? ==> WellFormed(r.value)
    ensures r.Success? ==> r.value.columns == WithColumn(t.columns, name)
    ensures r.Success? ==> |r.value.rows| == |t.rows|
  {
    match FirstMissing(t.columns, needed)
    case Some(c) =>
      (match FirstEarlyError(t.rows, f)
       case Some(e) => Failure(e)
       case None => Failure(MissingColumn(c)))
    case None =>
      match MapRows(t.rows, name, f)
      case Failure(e) => Failure(e)
      case Success(rows) => Success(Table(WithColumn(t.columns, name), rows))
  }

  /** Every row of a derived table is the input row with the new cell
      assigned: the cell under `name` is `f` of the input row and every other
      cell is unchanged. */
  lemma DeriveRows(t: Table, name: string, needed: seq<string>, f: Row -> Result<Cell, Error>)
    requires WellFormed(t) && Derive(t, name, needed, f).Success?
    ensures forall i :: 0 <= i < |t.rows| ==>
              Derive(t, name, needed, f).value.rows[i] == t.rows[i][name := f(t.rows[i]).value]
  {
  }

  /** One column assignment `df[name] = <expression over needed>`. */
  datatype Assignment = Assignment(name: string, needed: seq<string>, f: Row -> Result<Cell, Error>)

  /** `df[target] = df[source]`. */
  function CopyOf(source: string, target: string): (a: Assignment)
    ensures a.name == target && a.needed == [source]
    ensures forall row :: a.f(row) == Get(row, source)
  {
    Assignment(target, [source], row => Get(row, source))
  }

  /** The assigned column names, in order. */
  function Targets(steps: seq<Assignment>): (r: seq<string>)
    ensures |r| == |steps|
    ensures forall k :: 0 <= k < |steps| ==> r[k] == steps[k].name
  {
    if |steps| == 0 then [] else [steps[0].name] + Targets(steps[1..])
  }

  lemma TargetsAppend(a: seq<Assignment>, b: seq<Assignment>)
    ensures Targets(a + b) == Targets(a) + Targets(b)
  {
    assert forall k :: 0 <= k < |b| ==> (a + b)[|a| + k] == b[k];
  }

  /** Every step finds its input columns among `avail`, the names the sheet
      has by then. */
  predicate ColumnsAvailable(avail: set<string>, steps: seq<Assignment>)
    decreases |steps|
  {
    |steps| == 0
    || ((forall c :: c in steps[0].needed ==> c in avail)
        && ColumnsAvailable(avail + {steps[0].name}, steps[1..]))
  }

  /** `ColumnsAvailable` from step `k` on, one step unfolded. */
  lemma ColumnsAvailableAt(avail: set<string>, steps: seq<Assignment>, k: nat)
    requires k < |steps|
    ensures ColumnsAvailable(avail, steps[k..]) <==>
              (forall c :: c in steps[k].needed ==> c in avail)
              && ColumnsAvailable(avail + {steps[k].name}, steps[k + 1..])
  {
    assert steps[k..][0] == steps[k];
    assert steps[k..][1..] == steps[k + 1..];
  }

  /** The same for a step with the single input column `source`. */
  lemma ColumnsAvailableAtCopy(avail: set<string>, steps: seq<Assignment>, k: nat, source: string)
    requires k < |steps| && steps[k].needed == [source]
    ensures ColumnsAvailable(avail, steps[k..]) <==>
              source in avail && ColumnsAvailable(avail + {steps[k].name}, steps[k + 1..])
  {
    ColumnsAvailableAt(avail, steps, k);
  }

  lemma {:induction false} ColumnsAvailableAppend(avail: set<string>, a: seq<Assignment>, b: seq<Assignment>)
    ensures ColumnsAvailable(avail, a + b) <==>
              ColumnsAvailable(avail, a) && ColumnsAvailable(avail + Names(Targets(a)), b)
    decreases |a|
  {
    if |a| == 0 {
      assert a + b == b;
      assert avail + Names(Targets(a)) == avail;
    } else {
      assert (a + b)[0] == a[0] && (a + b)[1..] == a[1..] + b;
      ColumnsAvailableAppend(avail + {a[0].name}, a[1..], b);
      assert Targets(a) == [a[0].name] + Targets(a[1..]);
      assert avail + {a[0].name} + Names(Targets(a[1..])) == avail + Names(Targets(a));
    }
  }
  /** Three stages find their columns exactly when each finds them among
      the columns the sheet and the stages before it have. */
  lemma ColumnsAvailableStages(avail: set<string>, a: seq<Assignment>, b: seq<Assignment>, c: seq<Assignment>)
    ensures ColumnsAvailable(avail, a + b + c) <==>
              && ColumnsAvailable(avail, a)
              && ColumnsAvailable(avail + Names(Targets(a)), b)
              && ColumnsAvailable(avail + Names(Targets(a)) + Names(Targets(b)), c)
  {
    ColumnsAvailableAppend(avail, a + b, c);
    ColumnsAvailableAppend(avail, a, b);
    TargetsAppend(a, b);
    NamesAppend(Targets(a), Targets(b));
    assert avail + Names(Targets(a + b)) == avail + Names(Targets(a)) + Names(Targets(b));
  }

  lemma NamesAppend(x: seq<string>, y: seq<string>)
    ensures Names(x + y) == Names(x) + Names(y)
  {
  }


  /** One row after the assignments, each computed from the row as the
      previous ones left it; the first failing step's error otherwise. */
  function AssignRow(row: Row, steps: seq<Assignment>): Result<Row, Error>
    decreases |steps|
  {
    if |steps| == 0 then Success(row)
    else
      var v :- steps[0].f(row);
      AssignRow(row[steps[0].name := v], steps[1..])
  }

  /** `AssignRow` from step `k` on, one step unfolded. */
  lemma AssignRowAt(row: Row, steps: seq<Assignment>, k: nat)
    requires k < |steps|
    ensures AssignRow(row, steps[k..]) ==
              (if steps[k].f(row).Success?
               then AssignRow(row[steps[k].name := steps[k].f(row).value], steps[k + 1..])
               else Failure(steps[k].f(row).error))
  {
    assert steps[k..][0] == steps[k];
    assert steps[k..][1..] == steps[k + 1..];
  }

  lemma {:induction false} AssignRowAppend(row: Row, a: seq<Assignment>, b: seq<Assignment>)
    ensures AssignRow(row, a + b) ==
              (if AssignRow(row, a).Success? then AssignRow(AssignRow(row, a).value, b) else AssignRow(row, a))
    decreases |a|
  {
    if |a| == 0 {
      assert a + b == b;
    } else {
      assert (a + b)[0] == a[0] && (a + b)[1..] == a[1..] + b;
      var v := a[0].f(row);
      if v.Success? {
        AssignRowAppend(row[a[0].name := v.value], a[1..], b);
      }
    }
  }

  /** The assignments in order on a whole table, stopping at the first
      failure. */
  function AssignAll(t: Table, steps: seq<Assignment>): (r: Result<Table, Error>)
    requires WellFormed(t)
    ensures r.Success? ==> WellFormed(r.value)
    ensures r.Success? ==> r.value.columns == WithColumns(t.columns, Targets(steps))
    ensures r.Success? ==> |r.value.rows| == |t.rows|
    decreases |steps|
  {
    if |steps| == 0 then Success(t)
    else
      var t1 :- Derive(t, steps[0].name, steps[0].needed, steps[0].f);
      assert Targets(steps) == [steps[0].name] + Targets(steps[1..]);
      AssignAll(t1, steps[1..])
  }

  /** The table-level run succeeds exactly when every step finds its columns
      and every row gets through every step. */
  lemma {:induction false} AssignAllSucceeds(t: Table, steps: seq<Assignment>)
    requires WellFormed(t)
    ensures AssignAll(t, steps).Success? <==>
              ColumnsAvailable(Names(t.columns), steps)
              && forall i :: 0 <= i < |t.rows| ==> AssignRow(t.rows[i], steps).Success?
    decreases |steps|
  {
    if |steps| > 0 {
      var s := steps[0];
      var d := Derive(t, s.name, s.needed, s.f);
      if d.Success? {
        DeriveRows(t, s.name, s.needed, s.f);
        AssignAllSucceeds(d.value, steps[1..]);
        forall i | 0 <= i < |t.rows|
          ensures AssignRow(t.rows[i], steps) == AssignRow(d.value.rows[i], steps[1..])
        {
          assert s.f(t.rows[i]).Success?;
        }
      } else if forall c :: c in s.needed ==> c in t.columns {
        var i :| 0 <= i < |t.rows| && s.f(t.rows[i]).Failure?;
        FirstStepFails(t.rows[i], steps);
      }
    }
  }

  /** A row the first step fails on fails the whole run. */
  lemma FirstStepFails(row: Row, steps: seq<Assignment>)
    requires |steps| > 0 && steps[0].f(row).Failure?
    ensures AssignRow(row, steps).Failure?
  {
  }

  /** After a successful run each row is that row's own result. */
  lemma {:induction false} AssignAllRows(t: Table, steps: seq<Assignment>)
    requires WellFormed(t)
    ensures AssignAll(t, steps).Success? ==>
              forall i :: 0 <= i < |t.rows| ==>
                AssignRow(t.rows[i], steps).Success?
                && AssignAll(t, steps).value.rows[i] == AssignRow(t.rows[i], steps).value
    decreases |steps|
  {
    if |steps| > 0 && AssignAll(t, steps).Success? {
      var s := steps[0];
      var d := Derive(t, s.name, s.needed, s.f);
      DeriveRows(t, s.name, s.needed, s.f);
      AssignAllRows(d.value, steps[1..]);
      forall i | 0 <= i < |t.rows|
        ensures AssignRow(t.rows[i], steps) == AssignRow(d.value.rows[i], steps[1..])
      {
        assert s.f(t.rows[i]).Success?;
      }
    }
  }

  /** Steps that copy column `sources[k]` into column `targets[k]`. */
  ghost predicate CopyChain(ss: seq<Assignment>, sources: seq<string>, targets: seq<string>) {
    && |ss| == |sources| == |targets|
    && (forall k :: 0 <= k < |ss| ==> ss[k].name == targets[k] && ss[k].needed == [sources[k]])
    && (forall k, row :: 0 <= k < |ss| ==> ss[k].f(row) == Get(row, sources[k]))
  }

  lemma CopyChainTail(ss: seq<Assignment>, sources: seq<string>, targets: seq<string>)
    requires CopyChain(ss, sources, targets) && |ss| > 0
    ensures CopyChain(ss[1..], sources[1..], targets[1..])
  {
    forall k, row | 0 <= k < |ss| - 1
      ensures ss[1..][k].f(row) == Get(row, sources[1..][k])
    {
      assert ss[1..][k] == ss[k + 1];
    }
  }

  /** A chain of distinct copies, none of which overwrites a source, gets
      through a row exactly when every source is there; then every target
      holds its source's cell, the row gains exactly the targets, and every
      other cell is unchanged. */
  lemma {:induction false} CopyChainRow(row: Row, ss: seq<Assignment>, sources: seq<string>, targets: seq<string>)
    requires CopyChain(ss, sources, targets) && Distinct(targets)
    requires forall k :: 0 <= k < |sources| ==> sources[k] !in targets
    ensures AssignRow(row, ss).Success? <==> forall k :: 0 <= k < |sources| ==> sources[k] in row
    ensures AssignRow(row, ss).Success? ==> CopiedAll(row, AssignRow(row, ss).value, sources, targets)
    decreases |ss|
  {
    if |ss| > 0 {
      assert ss[0].f(row) == Get(row, sources[0]);
      if sources[0] in row {
        var row1 := row[targets[0] := row[sources[0]]];
        CopyChainTail(ss, sources, targets);
        ApartTail(sources, targets);
        CopyChainRow(row1, ss[1..], sources[1..], targets[1..]);
        assert AssignRow(row, ss) == AssignRow(row1, ss[1..]);
        CopyStepSources(row, sources, targets);
        if AssignRow(row1, ss[1..]).Success? {
          CopyStepResult(row, AssignRow(row1, ss[1..]).value, sources, targets);
        }
      }
    }
  }

  /** `out` is `row` with each `targets[k]` set to the `sources[k]` cell. */
  ghost predicate CopiedAll(row: Row, out: Row, sources: seq<string>, targets: seq<string>)
    requires |sources| == |targets|
  {
    && out.Keys == row.Keys + Names(targets)
    && (forall k :: 0 <= k < |targets| ==> sources[k] in row && targets[k] in out && out[targets[k]] == row[sources[k]])
    && (forall c :: c in row && c !in targets ==> c in out && out[c] == row[c])
  }

  /** The side conditions of `CopyChainRow` pass to the tail. */
  lemma ApartTail(sources: seq<string>, targets: seq<string>)
    requires |sources| == |targets| > 0 && Distinct(targets)
    requires forall k :: 0 <= k < |sources| ==> sources[k] !in targets
    ensures Distinct(targets[1..]) && targets[0] !in targets[1..]
    ensures forall k :: 0 <= k < |sources| - 1 ==> sources[1..][k] !in targets[1..]
  {
    forall k | 0 <= k < |targets| - 1 ensures targets[1..][k] != targets[0] {
      assert targets[1..][k] == targets[k + 1];
    }
    forall k | 0 <= k < |sources| - 1 ensures sources[1..][k] !in targets[1..] {
      assert sources[1..][k] == sources[k + 1];
    }
  }

  /** After the first copy the remaining sources are present, and hold, as
      before. */
  lemma CopyStepSources(row: Row, sources: seq<string>, targets: seq<string>)
    requires |sources| == |targets| > 0 && sources[0] in row
    requires forall k :: 0 <= k < |sources| ==> sources[k] !in targets
    ensures var row1 := row[targets[0] := row[sources[0]]];
            (forall k :: 0 <= k < |sources| ==> sources[k] in row) <==>
            (forall k :: 0 <= k < |sources| - 1 ==> sources[1..][k] in row1)
  {
    var row1 := row[targets[0] := row[sources[0]]];
    forall k | 0 <= k < |sources| - 1
      ensures sources[1..][k] == sources[k + 1] && (sources[k + 1] in row1 <==> sources[k + 1] in row)
    {
      assert sources[k + 1] != targets[0];
    }
  }

  /** The copies of the tail, run after the first copy, give all copies. */
  lemma CopyStepResult(row: Row, out: Row, sources: seq<string>, targets: seq<string>)
    requires |sources| == |targets| > 0 && sources[0] in row && Distinct(targets)
    requires forall k :: 0 <= k < |sources| ==> sources[k] !in targets
    requires targets[0] !in targets[1..]
    requires CopiedAll(row[targets[0] := row[sources[0]]], out, sources[1..], targets[1..])
    ensures CopiedAll(row, out, sources, targets)
  {
    var row1 := row[targets[0] := row[sources[0]]];
    assert Names(targets) == {targets[0]} + Names(targets[1..]) by {
      assert targets == [targets[0]] + targets[1..];
    }
    forall k | 0 <= k < |targets|
      ensures sources[k] in row && targets[k] in out && out[targets[k]] == row[sources[k]]
    {
      if k > 0 {
        assert targets[1..][k - 1] == targets[k] && sources[1..][k - 1] == sources[k];
        assert sources[k] != targets[0];
      }
    }
  }

  /** `df[targets[k]] = df[sources[k]]` for each k in turn. */
  function Copies(sources: seq<string>, targets: seq<string>): (ss: seq<Assignment>)
    requires |sources| == |targets|
    ensures CopyChain(ss, sources, targets)
    decreases |sources|
  {
    if |sources| == 0 then []
    else
      var rest := Copies(sources[1..], targets[1..]);
      var ss := [CopyOf(sources[0], targets[0])] + rest;
      assert forall k :: 1 <= k < |ss| ==> ss[k] == rest[k - 1];
      ss
  }

  /** A chain of copies that overwrites none of its sources finds its
      columns exactly when every source is there. */
  lemma {:induction false} CopyChainFindColumns(avail: set<string>, ss: seq<Assignment>, sources: seq<string>, targets: seq<string>)
    requires CopyChain(ss, sources, targets)
    requires forall k :: 0 <= k < |sources| ==> sources[k] !in targets
    ensures ColumnsAvailable(avail, ss) <==> forall c :: c in sources ==> c in avail
    decreases |ss|
  {
    if |ss| > 0 {
      CopyChainTail(ss, sources, targets);
      forall k | 0 <= k < |sources| - 1
        ensures sources[1..][k] !in targets[1..]
      {
        assert sources[1..][k] == sources[k + 1];
      }
      CopyChainFindColumns(avail + {targets[0]}, ss[1..], sources[1..], targets[1..]);
      assert sources == [sources[0]] + sources[1..];
      assert forall c :: c in sources[1..] ==> (c in avail + {targets[0]} <==> c in avail);
    }
  }
}

=== FILE: text_features.dfy ===
/** Per-text features of
    manipulation_feature_analysis/calculate_manipulation_features_from_liwc.py:
    the polysyllable count over tokens and a pronouncing dictionary, and the
    unique / normalised-unique word counts over the `\b\w+\b` tokens of the
    lower-cased text. Word characters and lower-casing are ASCII only. */
module TextFeatures {

  // ---------------------------------------------------------------------
  // Polysyllables
  // ---------------------------------------------------------------------

  /** One pronunciation: a list of phonemes such as ["AH0", "B", "AW1", "T"]. */
  type Pronunciation = seq<string>

  /** Word -> candidate pronunciations (the CMU pronouncing dictionary). */
  type PronouncingDict = map<string, seq<Pronunciation>>

  /** Every entry has at least one pronunciation and no phoneme is empty,
      as in the CMU dictionary (`max` of an empty list and `phoneme[-1]` of
      an empty string would raise). */
  predicate WellFormedDict(d: PronouncingDict) {
    forall w :: w in d ==> |d[w]| > 0 && forall p, ph :: p in d[w] && ph in p ==> |ph| > 0
  }

  predicate IsDigit(c: char) {
    '0' <= c <= '9'
  }

  /** A stressed vowel: the phoneme ends in a stress digit. */
  predicate Stressed(ph: string) {
    |ph| > 0 && IsDigit(ph[|ph| - 1])
  }

  /** Number of stressed phonemes of a pronunciation. */
  function StressCount(p: Pronunciation): (n: nat)
    ensures n <= |p|
  {
    if |p| == 0 then 0
    else (if Stressed(p[0]) then 1 else 0) + StressCount(p[1..])
  }

  /** The largest stress count over the pronunciations. */
  function MaxStress(ps: seq<Pronunciation>): (m: nat)
    requires |ps| > 0
    ensures exists i :: 0 <= i < |ps| && m == StressCount(ps[i])
    ensures forall i :: 0 <= i < |ps| ==> StressCount(ps[i]) <= m
  {
    if |ps| == 1 then StressCount(ps[0])
    else
      var rest := MaxStress(ps[1..]);
      assert forall i :: 1 <= i < |ps| ==> ps[i] == ps[1..][i - 1];
      if StressCount(ps[0]) >= rest then StressCount(ps[0]) else rest
  }

  /** The test the source applies to a token: in the dictionary, and the
      best pronunciation has at least three stressed phonemes. */
  predicate Polysyllabic(d: PronouncingDict, w: string)
    requires WellFormedDict(d)
  {
    w in d && MaxStress(d[w]) >= 3
  }

  /** The same test read as "some pronunciation has three stresses". */
  predicate SomePolysyllabicPronunciation(d: PronouncingDict, w: string) {
    w in d && exists p :: p in d[w] && StressCount(p) >= 3
  }

  lemma PolysyllabicIffSomePronunciation(d: PronouncingDict, w: string)
    requires WellFormedDict(d)
    ensures Polysyllabic(d, w) <==> SomePolysyllabicPronunciation(d, w)
  {
    if w in d {
      var ps := d[w];
      if MaxStress(ps) >= 3 {
        var i :| 0 <= i < |ps| && MaxStress(ps) == StressCount(ps[i]);
        assert ps[i] in ps;
      }
      if exists p :: p in ps && StressCount(p) >= 3 {
        var p :| p in ps && StressCount(p) >= 3;
        var i :| 0 <= i < |ps| && ps[i] == p;
      }
    }
  }

  /** Number of polysyllabic tokens, counted left to right. */
  function PolysyllableCount(tokens: seq<string>, d: PronouncingDict): (n: nat)
    requires WellFormedDict(d)
    ensures n <= |tokens|
  {
    if |tokens| == 0 then 0
    else
      PolysyllableCount(tokens[..|tokens| - 1], d)
      + (if Polysyllabic(d, tokens[|tokens| - 1]) then 1 else 0)
  }

  /** `_count_polysyllables`, over a token list from the word tokenizer. */
  method CountPolysyllables(tokens: seq<string>, d: PronouncingDict) returns (ctx: nat)
    requires WellFormedDict(d)
    ensures ctx == PolysyllableCount(tokens, d)
    ensures ctx <= |tokens|
  {
    ctx := 0;
    var i := 0;
    while i < |tokens|
      invariant 0 <= i <= |tokens|
      invariant ctx == PolysyllableCount(tokens[..i], d)
    {
      var word := tokens[i];
      assert tokens[..i + 1][..i] == tokens[..i];
      if word !in d {
        i := i + 1;
        continue;
      }
      if MaxStress(d[word]) >= 3 {
        ctx := ctx + 1;
      }
      i := i + 1;
    }
    assert tokens[..i] == tokens;
  }

  /** Positions of tokens that have a polysyllabic pronunciation. */
  function PolysyllabicPositions(tokens: seq<string>, d: PronouncingDict): set<nat> {
    set i: nat | i < |tokens| && SomePolysyllabicPronunciation(d, tokens[i])
  }

  /** The count is the number of positions holding a token with some
      pronunciation of at least three stressed phonemes; tokens missing from
      the dictionary are never counted. */
  lemma {:induction false} PolysyllableCountCharacterized(tokens: seq<string>, d: PronouncingDict)
    requires WellFormedDict(d)
    ensures PolysyllableCount(tokens, d) == |PolysyllabicPositions(tokens, d)|
    ensures forall i :: i in PolysyllabicPositions(tokens, d) ==> tokens[i] in d
  {
    if |tokens| > 0 {
      var n := |tokens| - 1;
      var prefix := tokens[..n];
      PolysyllableCountCharacterized(prefix, d);
      PolysyllabicIffSomePronunciation(d, tokens[n]);
      var before := PolysyllabicPositions(prefix, d);
      var all := PolysyllabicPositions(tokens, d);
      if SomePolysyllabicPronunciation(d, tokens[n]) {
        assert all == before + {n};
        assert n !in before;
      } else {
        assert all == before;
      }
    }
  }

  /** Additivity: the count over a concatenation is the sum of the counts. */
  lemma {:induction false} PolysyllableCountAppend(a: seq<string>, b: seq<string>, d: PronouncingDict)
    requires WellFormedDict(d)
    ensures PolysyllableCount(a + b, d) == PolysyllableCount(a, d) + PolysyllableCount(b, d)
    decreases |b|
  {
    if |b| > 0 {
      var n := |b| - 1;
      assert (a + b)[..|a + b| - 1] == a + b[..n];
      assert (a + b)[|a + b| - 1] == b[n];
      PolysyllableCountAppend(a, b[..n], d);
    } else {
      assert a + b == a;
    }
  }

  /** A token absent from the dictionary contributes nothing. */
  lemma UnknownTokenNotCounted(a: seq<string>, w: string, b: seq<string>, d: PronouncingDict)
    requires WellFormedDict(d) && w !in d
    ensures PolysyllableCount(a + [w] + b, d) == PolysyllableCount(a + b, d)
  {
    PolysyllableCountAppend(a + [w], b, d);
    PolysyllableCountAppend(a, [w], d);
    PolysyllableCountAppend(a, b, d);
    assert [w][..0] == [];
  }

  // ---------------------------------------------------------------------
  // `\b\w+\b` tokens of the lower-cased text
  // ---------------------------------------------------------------------

  /** `\w` restricted to ASCII. */
  predicate IsWordChar(c: char) {
    ('a' <= c <= 'z') || ('A' <= c <= 'Z') || ('0' <= c <= '9') || c == '_'
  }

  function LowerChar(c: char): char {
    if 'A' <= c <= 'Z' then (c as int + 32) as char else c
  }

  function UpperChar(c: char): char {
    if 'a' <= c <= 'z' then (c as int - 32) as char else c
  }

  /** `str.lower()` on ASCII letters. */
  function Lower(s: string): (r: string)
    ensures |r| == |s|
    ensures forall i :: 0 <= i < |s| ==> r[i] == LowerChar(s[i])
  {
    if |s| == 0 then ""
    else [LowerChar(s[0])] + Lower(s[1..])
  }

  /** `str.upper()` on ASCII letters. */
  function Upper(s: string): (r: string)
    ensures |r| == |s|
    ensures forall i :: 0 <= i < |s| ==> r[i] == UpperChar(s[i])
  {
    if |s| == 0 then ""
    else [UpperChar(s[0])] + Upper(s[1..])
  }

  /** Length of the run of word characters that starts `s`. */
  function RunLength(s: string): (n: nat)
    ensures n <= |s|
    ensures forall i :: 0 <= i < n ==> IsWordChar(s[i])
    ensures n < |s| ==> !IsWordChar(s[n])
  {
    if |s| == 0 || !IsWordChar(s[0]) then 0
    else 1 + RunLength(s[1..])
  }

  /** `re.findall(r"\b\w+\b", s)`: the maximal runs of word characters, left
      to right. */
  function Words(s: string): (ws: seq<string>)
    decreases |s|
  {
    if |s| == 0 then []
    else if !IsWordChar(s[0]) then Words(s[1..])
    else
      var n := RunLength(s);
      [s[..n]] + Words(s[n..])
  }

  /** The word characters of `s`, in order. */
  function WordChars(s: string): string {
    if |s| == 0 then ""
    else (if IsWordChar(s[0]) then [s[0]] else "") + WordChars(s[1..])
  }

  function Concat(ws: seq<string>): string {
    if |ws| == 0 then "" else ws[0] + Concat(ws[1..])
  }

  /** Number of positions where a run of word characters begins, scanning
      with `afterWord` telling whether the previous character was one. */
  function RunStarts(s: string, afterWord: bool): nat {
    if |s| == 0 then 0
    else
      (if IsWordChar(s[0]) && !afterWord then 1 else 0)
      + RunStarts(s[1..], IsWordChar(s[0]))
  }

  lemma {:induction false} WordCharsOfRun(s: string, n: nat)
    requires n <= |s| && forall i :: 0 <= i < n ==> IsWordChar(s[i])
    ensures WordChars(s) == s[..n] + WordChars(s[n..])
  {
    if n > 0 {
      WordCharsOfRun(s[1..], n - 1);
      assert s[1..][n - 1..] == s[n..];
      assert s[..n] == [s[0]] + s[1..][..n - 1];
    }
  }

  /** Every token is a non-empty run of word characters, the tokens together
      hold exactly the word characters of the text in order, and there is
      one token per position where a run of word characters begins: no
      character is lost and no run is split or merged. */
  lemma {:induction false} WordsAreMaximalRuns(s: string)
    ensures forall w :: w in Words(s) ==> IsWord(w)
    ensures Concat(Words(s)) == WordChars(s)
    ensures |Words(s)| == RunStarts(s, false)
    decreases |s|
  {
    if |s| > 0 {
      if !IsWordChar(s[0]) {
        WordsAreMaximalRuns(s[1..]);
      } else {
        var n := RunLength(s);
        WordsAreMaximalRuns(s[n..]);
        WordCharsOfRun(s, n);
        RunStartsAfterRun(s, n);
        assert Concat([s[..n]] + Words(s[n..])) == s[..n] + Concat(Words(s[n..])) by {
          assert ([s[..n]] + Words(s[n..]))[1..] == Words(s[n..]);
        }
      }
    }
  }

  /** A non-empty string of word characters. */
  predicate IsWord(w: string) {
    |w| > 0 && forall c :: c in w ==> IsWordChar(c)
  }

  /** `w` is the maximal run of word characters of `s` that starts at `p`:
      it is there, and neither preceded nor followed by a word character. */
  predicate RunAt(s: string, w: string, p: nat) {
    && IsWord(w)
    && p + |w| <= |s| && s[p..p + |w|] == w
    && (p == 0 || !IsWordChar(s[p - 1]))
    && (p + |w| == |s| || !IsWordChar(s[p + |w|]))
  }

  /** The `k`-th token of `s` is the maximal run starting at `p`, and `k`
      runs start before `p`. */
  predicate TokenAt(s: string, k: nat, p: nat)
    requires k < |Words(s)|
  {
    RunAt(s, Words(s)[k], p) && RunStarts(s[..p], false) == k
  }

  /** Where the `k`-th token sits: tokens come out left to right, one per
      run, each spanning its whole run. */
  lemma {:induction false} WordPosition(s: string, k: nat) returns (p: nat)
    requires k < |Words(s)|
    ensures TokenAt(s, k, p)
    decreases |s|, 1
  {
    if !IsWordChar(s[0]) {
      p := PositionAfterSeparator(s, k);
    } else if k == 0 {
      p := 0;
      FirstToken(s, RunLength(s));
    } else {
      p := PositionAfterRun(s, RunLength(s), k);
    }
  }

  lemma FirstToken(s: string, n: nat)
    requires |s| > 0 && IsWordChar(s[0]) && n == RunLength(s)
    ensures 0 < |Words(s)| && TokenAt(s, 0, 0)
  {
    assert Words(s)[0] == s[..n];
    assert s[..0] == [];
  }

  lemma {:induction false} PositionAfterSeparator(s: string, k: nat) returns (p: nat)
    requires |s| > 0 && !IsWordChar(s[0]) && k < |Words(s)|
    ensures TokenAt(s, k, p)
    decreases |s|, 0
  {
    assert Words(s) == Words(s[1..]);
    var p' := WordPosition(s[1..], k);
    p := p' + 1;
    RunAtShift(s, 1, Words(s)[k], p');
    RunStartsSkipSeparator(s, p);
  }

  lemma {:induction false} PositionAfterRun(s: string, n: nat, k: nat) returns (p: nat)
    requires |s| > 0 && IsWordChar(s[0]) && n == RunLength(s)
    requires 0 < k < |Words(s)|
    ensures TokenAt(s, k, p)
    decreases |s|, 0
  {
    assert Words(s)[k] == Words(s[n..])[k - 1];
    var p' := WordPosition(s[n..], k - 1);
    p := p' + n;
    RunAfterRun(s, n, Words(s)[k], p', k);
  }

  /** A run of the text after a leading run of `n` word characters is a run
      of the whole text, with one more run started before it. */
  lemma RunAfterRun(s: string, n: nat, w: string, p': nat, k: nat)
    requires 0 < n <= |s| && forall i :: 0 <= i < n ==> IsWordChar(s[i])
    requires n < |s| ==> !IsWordChar(s[n])
    requires RunAt(s[n..], w, p') && RunStarts(s[n..][..p'], false) + 1 == k
    ensures RunAt(s, w, p' + n) && RunStarts(s[..p' + n], false) == k
  {
    assert s[n..][p'] == w[0] && w[0] in w;
    RunAtShift(s, n, w, p');
    RunStartsSkip(s, n, p');
  }

  /** A maximal run of a suffix is one of the whole string, unless it starts
      the suffix right after a word character. */
  lemma RunAtShift(s: string, n: nat, w: string, p: nat)
    requires n <= |s| && RunAt(s[n..], w, p)
    requires p > 0 || (n > 0 && !IsWordChar(s[n - 1]))
    ensures RunAt(s, w, p + n)
  {
    var q := p + |w|;
    assert s[n..][p..q] == s[p + n..q + n];
    assert p > 0 ==> s[n..][p - 1] == s[p + n - 1];
    assert q < |s[n..]| ==> s[n..][q] == s[q + n];
  }

  /** A leading separator starts no run. */
  lemma RunStartsSkipSeparator(s: string, m: nat)
    requires 0 < m <= |s| && !IsWordChar(s[0])
    ensures RunStarts(s[..m], false) == RunStarts(s[1..][..m - 1], false)
  {
    assert s[..m][1..] == s[1..][..m - 1];
  }

  /** Counting run starts across a leading run of `n` word characters. */
  lemma RunStartsSkip(s: string, n: nat, p: nat)
    requires 0 < n && p + n <= |s|
    requires forall i :: 0 <= i < n ==> IsWordChar(s[i])
    requires p > 0 ==> !IsWordChar(s[n])
    ensures RunStarts(s[..p + n], false) == 1 + RunStarts(s[n..][..p], false)
  {
    var t := s[..p + n];
    assert RunStarts(t, false) == 1 + RunStarts(t[1..], true);
    RunStartsInside(t[1..], n - 1);
    assert t[1..][n - 1..] == s[n..][..p];
  }

  /** The `k`-th token sits at some maximal run. */
  ghost predicate Placed(s: string, k: nat)
    requires k < |Words(s)|
  {
    exists p: nat :: TokenAt(s, k, p)
  }

  /** Every token sits at its own maximal run, in order of the runs. */
  lemma WordsAtRuns(s: string)
    ensures forall k: nat :: k < |Words(s)| ==> Placed(s, k)
  {
    forall k: nat | k < |Words(s)| ensures Placed(s, k) {
      var p := WordPosition(s, k);
    }
  }

  /** Inside a run no new run starts; the count resumes after it. */
  lemma {:induction false} RunStartsAfterRun(s: string, n: nat)
    requires 0 < n <= |s| && n == RunLength(s)
    ensures RunStarts(s, false) == 1 + RunStarts(s[n..], false)
  {
    RunStartsInside(s[1..], n - 1);
    assert s[1..][n - 1..] == s[n..];
  }

  lemma {:induction false} RunStartsInside(s: string, m: nat)
    requires m <= |s| && forall i :: 0 <= i < m ==> IsWordChar(s[i])
    requires m < |s| ==> !IsWordChar(s[m])
    ensures RunStarts(s, true) == RunStarts(s[m..], false)
  {
    if m > 0 {
      RunStartsInside(s[1..], m - 1);
      assert s[1..][m - 1..] == s[m..];
    } else if |s| > 0 {
      assert !IsWordChar(s[0]);
    }
  }

  // ---------------------------------------------------------------------
  // Unique word counts
  // ---------------------------------------------------------------------

  function ToSet(ws: seq<string>): set<string> {
    set w | w in ws
  }

  lemma {:induction false} ToSetSize(ws: seq<string>)
    ensures |ToSet(ws)| <= |ws|
    ensures |ToSet(ws)| == 0 <==> |ws| == 0
  {
    if |ws| > 0 {
      ToSetSize(ws[1..]);
      assert ToSet(ws) == ToSet(ws[1..]) + {ws[0]};
      assert ws[0] in ToSet(ws);
    }
  }

  /** The tokens `_count_unique_words` and `_count_normalized_unique_words` see. */
  function Tokens(text: string): seq<string> {
    Words(Lower(text))
  }

  /** `len(re.findall(r"\b\w+\b", text.lower()))`. */
  function TotalWords(text: string): nat {
    |Tokens(text)|
  }

  /** `_count_unique_words`. */
  function UniqueWords(text: string): (n: nat)
    ensures n <= TotalWords(text)
    ensures n == 0 <==> TotalWords(text) == 0
  {
    ToSetSize(Tokens(text));
    |ToSet(Tokens(text))|
  }

  /** `_count_normalized_unique_words`: unique over total, or exactly 1.0 for
      a text without tokens. */
  function NormalizedUniqueWords(text: string): (r: real)
    ensures TotalWords(text) == 0 ==> r == 1.0
    ensures TotalWords(text) > 0 ==> 0.0 < r <= 1.0
  {
    var total := TotalWords(text);
    if total != 0 then
      var unique := UniqueWords(text);
      assert 0 < unique <= total;
      UnitRatio(unique, total);
      unique as real / total as real
    else 1.0
  }

  lemma UnitRatio(unique: nat, total: nat)
    requires 0 < unique <= total
    ensures 0.0 < unique as real / total as real <= 1.0
  {
    var q := unique as real / total as real;
    assert q * total as real == unique as real;
  }

  /** The unique count is the numerator of the normalised ratio. */
  lemma NormalizedIsUniqueOverTotal(text: string)
    requires TotalWords(text) > 0
    ensures NormalizedUniqueWords(text) * TotalWords(text) as real == UniqueWords(text) as real
  {
  }

  /** Two texts that differ only in the case of ASCII letters. */
  predicate SameIgnoringCase(a: string, b: string) {
    |a| == |b| && forall i :: 0 <= i < |a| ==> a[i] == b[i] || UpperChar(a[i]) == b[i] || LowerChar(a[i]) == b[i]
  }

  /** Changing the case of letters changes none of the word counts. */
  lemma CountsIgnoreCase(a: string, b: string)
    requires SameIgnoringCase(a, b)
    ensures TotalWords(a) == TotalWords(b)
    ensures UniqueWords(a) == UniqueWords(b)
    ensures NormalizedUniqueWords(a) == NormalizedUniqueWords(b)
  {
    forall i | 0 <= i < |a| ensures Lower(a)[i] == Lower(b)[i] {
    }
    assert Lower(a) == Lower(b);
  }

  lemma UpperIsSameIgnoringCase(text: string)
    ensures SameIgnoringCase(text, Upper(text))
  {
  }
  /** A word followed by a non-word character (or the end) is one token. */
  lemma WordsOfLeadingWord(w: string, rest: string)
    requires |w| > 0 && forall i :: 0 <= i < |w| ==> IsWordChar(w[i])
    requires |rest| > 0 ==> !IsWordChar(rest[0])
    ensures Words(w + rest) == [w] + Words(rest)
  {
    var s := w + rest;
    RunLengthOfWord(w, rest);
    assert s[..|w|] == w && s[|w|..] == rest;
  }

  lemma {:induction false} RunLengthOfWord(w: string, rest: string)
    requires forall i :: 0 <= i < |w| ==> IsWordChar(w[i])
    requires |rest| > 0 ==> !IsWordChar(rest[0])
    ensures RunLength(w + rest) == |w|
  {
    if |w| > 0 {
      RunLengthOfWord(w[1..], rest);
      assert (w + rest)[1..] == w[1..] + rest;
    } else {
      assert w + rest == rest;
    }
  }

  /** A leading non-word character produces no token. */
  lemma WordsSkipSeparator(c: char, rest: string)
    requires !IsWordChar(c)
    ensures Words([c] + rest) == Words(rest)
  {
    assert ([c] + rest)[1..] == rest;
  }
}

=== FILE: workbook.dfy ===
/** An Excel workbook as the two sheet processors read it: named sheets in
    workbook order. Reading a sheet by a name the workbook does not have
    fails. Which sheets a run processes is `args.sheets or
    get_sheet_names()`: the names given on the command line, or every sheet
    when none (or an empty list) is given. */
module Workbooks {
  import opened Wrappers
  import opened Tables

  datatype Workbook = Workbook(names: seq<string>, sheets: map<string, Table>)

  /** Sheet names are unique, each names a sheet, and every sheet is a
      well-formed table. */
  predicate WellFormedBook(b: Workbook) {
    && Distinct(b.names)
    && Names(b.names) == b.sheets.Keys
    && forall n :: n in b.sheets ==> WellFormed(b.sheets[n])
  }

  /** `pd.read_excel(data, name)`. */
  function ReadSheet(b: Workbook, name: string): (r: Result<Table, Error>)
    requires WellFormedBook(b)
    ensures r.Success? <==> name in b.names
    ensures r.Success? ==> r.value == b.sheets[name] && WellFormed(r.value)
    ensures r.Failure? ==> r.error == MissingSheet(name)
  {
    if name in b.sheets then Success(b.sheets[name]) else Failure(MissingSheet(name))
  }

  /** The sheets a run goes through, in order. */
  function SheetsToProcess(b: Workbook, requested: Option<seq<string>>): (r: seq<string>)
    ensures requested.Some? && |requested.value| > 0 ==> r == requested.value
    ensures requested.None? || |requested.value| == 0 ==> r == b.names
  {
    match requested
    case Some(names) => if |names| > 0 then names else b.names
    case None => b.names
  }

  /** A sheet written out as `<sheet>.csv`. */
  datatype Saved = Saved(sheet: string, table: Table)

  /** What a run leaves behind: the sheets saved, in order, and the error
      that stopped it, if any. */
  datatype Run = Run(saved: seq<Saved>, error: Option<Error>)

  /** `for sheet in sheets: process_and_save(sheet)` with no error handling:
      the first sheet that fails ends the run. */
  function RunUntilFailure(sheets: seq<string>, process: string -> Result<Table, Error>): (r: Run)
    ensures |r.saved| <= |sheets|
    ensures forall k :: 0 <= k < |r.saved| ==>
              r.saved[k].sheet == sheets[k] && process(sheets[k]) == Success(r.saved[k].table)
    ensures r.error.None? <==> |r.saved| == |sheets|
    ensures r.error.Some? ==> process(sheets[|r.saved|]) == Failure(r.error.value)
    decreases |sheets|
  {
    if |sheets| == 0 then Run([], None)
    else match process(sheets[0])
      case Failure(e) => Run([], Some(e))
      case Success(t) =>
        var rest := RunUntilFailure(sheets[1..], process);
        Run([Saved(sheets[0], t)] + rest.saved, rest.error)
  }

  /** The run stops at the first failing sheet: it has saved exactly the
      sheets before it and reports that sheet's error. */
  lemma RunStopsAtFirstFailure(sheets: seq<string>, process: string -> Result<Table, Error>, k: nat)
    requires k < |sheets| && process(sheets[k]).Failure?
    requires forall j :: 0 <= j < k ==> process(sheets[j]).Success?
    ensures RunUntilFailure(sheets, process).saved == RunUntilFailure(sheets[..k], process).saved
    ensures RunUntilFailure(sheets, process).error == Some(process(sheets[k]).error)
  {
    var r, p := RunUntilFailure(sheets, process), RunUntilFailure(sheets[..k], process);
    assert |r.saved| == k;
    assert |p.saved| == k;
  }

  /** The sheets a run goes through once every sheet named `skip` is left
      out, in order. */
  function Skipping(sheets: seq<string>, skip: string): (r: seq<string>)
    ensures |r| <= |sheets|
    ensures forall k :: 0 <= k < |r| ==> r[k] != skip && r[k] in sheets
    ensures forall n :: n in sheets && n != skip ==> n in r
    decreases |sheets|
  {
    if |sheets| == 0 then []
    else if sheets[0] == skip then Skipping(sheets[1..], skip)
    else [sheets[0]] + Skipping(sheets[1..], skip)
  }

  /** Skipping distributes over concatenation, so it keeps the order. */
  lemma {:induction false} SkippingAppend(a: seq<string>, b: seq<string>, skip: string)
    ensures Skipping(a + b, skip) == Skipping(a, skip) + Skipping(b, skip)
    decreases |a|
  {
    if |a| > 0 {
      assert (a + b)[1..] == a[1..] + b;
      SkippingAppend(a[1..], b, skip);
    } else {
      assert a + b == b;
    }
  }

  /** Without a sheet named `skip` nothing is left out. */
  lemma {:induction false} SkippingNothing(sheets: seq<string>, skip: string)
    requires skip !in sheets
    ensures Skipping(sheets, skip) == sheets
    decreases |sheets|
  {
    if |sheets| > 0 {
      SkippingNothing(sheets[1..], skip);
    }
  }

  /** What happened to one sheet: written out as `<sheet>.csv`, or reported
      as broken with the error that stopped it. */
  datatype Outcome = Written(sheet: string, table: Table) | Broken(sheet: string, error: Error)

  /** `o` reports sheet `sheet` whose processing gave `r`. */
  predicate Reports(o: Outcome, sheet: string, r: Result<Table, Error>) {
    && o.sheet == sheet
    && (o.Written? <==> r.Success?)
    && (o.Written? ==> o.table == r.value)
    && (o.Broken? ==> o.error == r.error)
  }

  /** `outcomes` reports the sheets `kept`, one for one and in order. */
  predicate ReportsAll(outcomes: seq<Outcome>, kept: seq<string>, process: string -> Result<Table, Error>) {
    && |outcomes| == |kept|
    && forall k :: 0 <= k < |kept| ==> Reports(outcomes[k], kept[k], process(kept[k]))
  }

  /** Reporting one more sheet extends the reports. */
  lemma ReportsAllExtend(outcomes: seq<Outcome>, kept: seq<string>, process: string -> Result<Table, Error>, o: Outcome, sheet: string)
    requires ReportsAll(outcomes, kept, process) && Reports(o, sheet, process(sheet))
    ensures ReportsAll(outcomes + [o], kept + [sheet], process)
  {
    forall k | 0 <= k < |kept| + 1
      ensures Reports((outcomes + [o])[k], (kept + [sheet])[k], process((kept + [sheet])[k]))
    {
      if k < |kept| {
        assert (outcomes + [o])[k] == outcomes[k] && (kept + [sheet])[k] == kept[k];
      }
    }
  }

  /** `for sheet in sheets: if sheet == skip: continue; try: process_and_save(sheet)
      except Exception: report(sheet)`: every sheet but `skip` is tried, in
      order, and a failure does not stop the run. */
  method RunRecovering(sheets: seq<string>, skip: string, process: string -> Result<Table, Error>)
    returns (outcomes: seq<Outcome>)
    ensures var kept := Skipping(sheets, skip);
            && |outcomes| == |kept|
            && forall k :: 0 <= k < |kept| ==> Reports(outcomes[k], kept[k], process(kept[k]))
  {
    outcomes := [];
    var i := 0;
    while i < |sheets|
      invariant 0 <= i <= |sheets|
      invariant ReportsAll(outcomes, Skipping(sheets[..i], skip), process)
    {
      var sheet := sheets[i];
      ghost var before := Skipping(sheets[..i], skip);
      assert sheets[..i + 1] == sheets[..i] + [sheet];
      SkippingAppend(sheets[..i], [sheet], skip);
      if sheet != skip {
        assert Skipping([sheet], skip) == [sheet];
        var o := match process(sheet)
          case Success(t) => Written(sheet, t)
          case Failure(e) => Broken(sheet, e);
        ReportsAllExtend(outcomes, before, process, o, sheet);
        outcomes := outcomes + [o];
      } else {
        assert Skipping([sheet], skip) == [];
        assert before + [] == before;
      }
      i := i + 1;
    }
    assert sheets[..|sheets|] == sheets;
  }
}

=== FILE: wrappers.dfy ===
/** Failure-compatible Option and Result datatypes shared by the whole model.
    `None` stands for a non-finite numeric result (NaN or an infinity); a
    `Failure` stands for an exception raised by the modelled code. */
module Wrappers {

  datatype Option<+T> = None | Some(value: T) {
    predicate IsFailure() {
      None?
    }

    function PropagateFailure<U>(): Option<U>
      requires None?
    {
      None
    }

    function Extract(): T
      requires Some?
    {
      value
    }
  }

  datatype Result<+R, +E> = Success(value: R) | Failure(error: E) {
    predicate IsFailure() {
      Failure?
    }

    function PropagateFailure<U>(): Result<U, E>
      requires Failure?
    {
      Failure(error)
    }

    function Extract(): R
      requires Success?
    {
      value
    }
  }

  /** Pairwise distinct elements. */
  predicate Distinct<T(==)>(s: seq<T>) {
    forall i, j :: 0 <= i < j < |s| ==> s[i] != s[j]
  }

  /** Position of the first occurrence of `x` in `s`. */
  function IndexOf<T(==)>(s: seq<T>, x: T): (i: nat)
    requires x in s
    ensures i < |s| && s[i] == x
    ensures forall j :: 0 <= j < i ==> s[j] != x
  {
    if s[0] == x then 0 else 1 + IndexOf(s[1..], x)
  }
}
